=== FILE: README.md ===
# tachy runtime core in Dafny

A model of the core of tachy, a single-threaded cooperative async runtime written in C.

The model covers four pieces:

- the hierarchical timing wheel that backs sleeps, with its bit helpers and timer entries;
- the reference-counted task, and the queues and lists that hold tasks;
- the scheduler (`tachy__block_on`, wake, defer and spawn);
- the suspension primitives: yield, join and sleep handles, and the resume-label protocol of `include/async.h`.

The C code that works by updating state in place is modelled as classes with `modifies` frames and loops. Each such class is proved against a pure specification: the wheel driver against the value `WheelModel.Wheel`, and the lists against a ghost `Items` sequence. The properties the code promises are proved as lemmas about those specifications.

Modules, in dependency order:

- `Bits`: 64-bit words as `nat < 2^64`, with bits, shifts, `ctz64`, `clz64` and `rotate_r64`.
- `WheelMath`: `level_for`, `slot_for`, `slot_resolution`, `level_resolution`, `slot_next_occupied` and the level and slot start times.
- `WheelModel`: the wheel as a value, with its operations:
  - insert, remove and slot processing;
  - `time_process_at` and its level scan;
  - `time_next_expiration` and `time_next_pending_task`.

  It also holds the well-formedness invariant `WF` and the conservation and no-early-firing relation `Moves`.

  Expired entries go to a pending list (`src/time.c`), or they are woken directly (`src/time_driver.c`). The `Expiry` parameter selects which.
- `WheelScan`, `WheelExpiry`, `WheelScenarios`, `WheelCascade`: the level scan, the next expiration, and the scenarios of the unit tests and of the findings.
- `TimeEntries`: timer entries with their pending and fired tags, `time_entry_new`/`free`, and the intrusive doubly-linked entry list.
- `TimeDriver`: the imperative driver, as the class `Driver`. Its slot lists are an array of sequences and its bitmaps an array. Each method is proved to perform the matching `WheelModel` operation.
- `Tasks`: the one-hot task state machine and the `Task` class:
  - the reference count and the consumer;
  - `poll`, `make_runnable` and `try_copy_output`;
  - `tachy_task_new`.
- `TaskRing`: the bounded ring buffer of `include/task_queue.h`.
- `TaskList`: the intrusive LIFO list of `src/task_queue.c`.
- `Runtime`: the runtime struct, with wake, defer and spawn, and the root-poll, ready, deferred and timer phases of `block_on`.
- `Join`, `Sleep`, `Yield`: the handles of `src/join.c`, `src/sleep.c` and `src/yield.c`. Each is a pure state machine plus a class whose `Poll` follows it.
- `Async`: the switch-on-label resume protocol, with a frame holding a label field and an output.
- `MemoryDefects`: access traces (read, write, free) of the task poll and of sleep cancel and reset, as written and as corrected.

On these points the code behaves in ways its headers do not suggest; the model follows the code:

- The runtime's ready and deferred lists are `src/task_queue.c`'s LIFO lists, not the FIFO ring buffer of `include/task_queue.h` (`TaskRing`). A wake pushes onto the head, so the last task woken runs first.
- `block_on` ignores the consumer that `task_poll` reports. A finished task's consumer is never woken by the runtime; the join handle finds the output when its own task is polled again.
- `try_copy_output` leaves the consumer registered; `tachy_join_poll` clears it.
- An expired entry is tagged `TIMEOUT_PENDING` and queued, as in `src/time.c`. It is tagged fired only when `time_next_pending_task` hands it out.

## Model

| member | source | states |
|---|---|---|
| Bits.Ctz64 | src/time.c:31-42 | the count is 64 for 0; otherwise bit `count` is set and every lower bit is clear, so it is the trailing zero count |
| Bits.CtzSpec | src/time.c:31-42 | the trailing zero count of a non-zero word is a set bit with every bit below it clear |
| Bits.CtzUnique | src/time.c:31-42 | a set bit with no set bit below it is the trailing zero count, so the characterisation determines it |
| Bits.Clz64 | src/time.c:20-29 | the count is 64 for 0; otherwise bit 63 - count is set and every higher bit is clear, i.e. 64 minus the bit length |
| Bits.BitLength | src/time.c:20-29 | the word is below 2^r and, if non-zero, has bit r - 1 set |
| Bits.RotateBit | src/time.c:44-47 | rotating right by n < 64 moves bit (k + n) mod 64 to position k, for every k |
| Bits.RotateBound | src/time.c:44-47 | the two operands of rotate_r64's `\|` fit in 64 bits together, so the rotation is a 64-bit word |
| WheelMath.SetSlotBit | src/time.c:184 | the new bitmap has bit s set and every other bit as before |
| WheelMath.ClearSlotBit | src/time.c:137 | the new bitmap has bit s clear and every other bit as before |
| WheelMath.ResolutionsAgree | src/time.c:60-70 | level_resolution of the slot resolution of level l is 2^(6l+6); slot resolutions 1, 64, 4096 and 262144 for levels 0 to 3 |
| WheelMath.LevelForRange | src/time.c:49-58 | level_for is below 6; a timeout at level l > 0 is at least 64^l; a timeout below level 5 is below 64^(l+1) |
| WheelMath.LevelForExact | src/time.c:49-58 | the range condition of LevelForRange holds of exactly one level, so it determines level_for |
| WheelMath.LevelForClamped | src/time.c:50-53 | a timeout whose 64 ms block reaches TIME_MAX_TIMEOUT_MS is clamped to level 5 |
| WheelMath.SlotForPins | src/time.c:64-66 | slot_for(0,0)=0, slot_for(0,63)=63, slot_for(1,64)=1 and slot_for(1,4095)=63, as the internal tests pin them |
| WheelMath.SlotNextOccupiedSpec | src/time.c:113-122 | -1 exactly when the bitmap is 0; otherwise an occupied slot such that every slot passed over, going round from the slot of `now`, is empty |
| WheelMath.SlotNextOccupiedUnique | src/time.c:113-122 | any occupied slot with no occupied slot before it, going round from the slot of `now`, is the answer |
| WheelMath.SlotNextOccupiedPins | test/time_internal_test.c:83-94 | on the bitmap with slots 5, 10 and 20 occupied, the answers from 0, 6 and 21 are 5, 10 and 5 |
| WheelMath.RotateNonZero | src/time.c:229 | rotating a non-zero bitmap keeps it non-zero, so a level with an occupied slot is scanned |
| WheelModel.EmptyWheel | src/time.c:168-170 | the zeroed driver has the right shape and holds no entry |
| WheelScenarios.EmptyWF | src/time.c:168-170 | the zeroed driver satisfies the wheel invariant |
| WheelModel.InsertKeepsWF | src/time.c:172-185 | insertion keeps the wheel well formed; the entry is held afterwards exactly when its deadline is after elapsed; an entry already due leaves the slots and bitmaps untouched |
| WheelModel.InsertHolds | src/time.c:134 | re-inserting an entry taken out of a slot puts it back, or fires it when it is due |
| WheelModel.PushContents | src/time.c:183-184 | pushing onto a slot adds exactly that entry to the wheel's contents |
| WheelModel.PushBits | src/time.c:183-184 | after a push with its bit set, every bit still says whether its slot list is non-empty |
| WheelModel.ExpireHolds | src/time.c:130-132 | a due entry goes to the pending list tagged TIMEOUT_PENDING, or is woken (direct-wake revision), and the invariant is kept |
| WheelModel.WakeMoves | src/time_driver.c:117-131 | in the direct-wake revision a due entry popped from a slot is woken at the end of the woken entries: nothing is lost and nothing fires before its deadline |
| WheelModel.ProcessSlotFates | src/time.c:124-138 | for every entry of the processed slot: one due by `now` is on the pending list tagged TIMEOUT_PENDING (or, in the direct-wake revision of src/time_driver.c:117-131, woken and no longer held); any other is in the Home slot of its deadline with the deadline kept (or fires when the deadline is not after elapsed). Entries of other slots and of the pending list stay put with their deadlines; afterwards the slot holds only its own re-inserted entries, and its bit is set exactly when it holds one |
| WheelModel.DrainFates | src/time.c:128-136 | the pop loop disposes of each popped entry as `slot_process_expiration` does, leaves every other entry where it was, and adds to the slots only re-inserted popped entries |
| WheelModel.DrainOneFate | src/time.c:130-135 | one popped entry is queued tagged TIMEOUT_PENDING, woken, re-inserted in its Home slot or fired, and nothing else moves |
| WheelModel.DrainHolds | src/time.c:128-136 | draining the entries of a detached slot one by one restores the invariant |
| WheelModel.DetachHolds | src/time.c:128-137 | emptying a slot and clearing its bit holds its entries aside with the invariant intact |
| WheelModel.ProcessSlotMoves | src/time.c:124-138 | processing a slot loses no entry and fires none before `now` (the conservation half; where each entry goes is ProcessSlotFates) |
| WheelModel.ScanSlots | src/time.c:230-247 | every slot the level scan visits is a slot index whose start time is at most `now` |
| WheelModel.ScanShrinks | src/time.c:242-246 | the scan word strictly decreases after a visit, so the scan ends |
| WheelModel.ProcessLevel | src/time.c:223-247 | one level of time_process_at keeps the wheel well formed |
| WheelModel.ProcessAtWith | src/time.c:222-250 | time_process_at keeps the wheel well formed and ends with elapsed equal to `now`, whatever the cursor advance |
| WheelModel.ProcessAt | src/time.c:222-250 | the corrected time_process_at keeps the wheel well formed and ends with elapsed equal to `now` |
| WheelModel.ProcessAtMoves | src/time.c:222-250 | time_process_at loses no entry and fires none early: every entry is still held or woken, and entries join the pending or woken lists only if their deadline is at most `now` |
| WheelModel.ProcessLevelsMoves | src/time.c:223-248 | the level loop, from any level on, loses no entry and fires none early |
| WheelModel.ProcessSlotsMoves | src/time.c:230-247 | visiting slots that have all started by `now` loses no entry and fires none early |
| WheelModel.DrainMoves | src/time.c:128-136 | the pop loop over a detached slot only moves its entries to the pending list, the woken entries or back into a slot |
| WheelModel.RemoveFromSlot | src/time.c:94-111 | unlinking an entry from the slot holding it removes exactly that entry and keeps the invariant, clearing the bit when the list empties |
| WheelModel.UnlinkBits | src/time.c:202-204 | after the unlink the slot's bit agrees with whether its list is empty |
| WheelModel.RemoveSpec | src/time.c:187-207 | on a well-formed wheel the entry leaves the wheel, nothing else does, and the wheel stays well formed |
| WheelModel.RemovePending | src/time.c:193-194 | a pending entry is unlinked from the pending list and forgotten |
| WheelModel.FindLevel | src/time.c:196-201 | the first of the six candidate slots (l, slot_for(l, d)) that holds the entry, no earlier candidate holding it |
| WheelModel.FindLevelHolds | src/time.c:196-201 | an entry the wheel holds in a slot is always found among its six candidates |
| WheelModel.Without | src/time.c:94-111 | the list without its first occurrence of e has the multiset of the old list minus e |
| WheelModel.NextPendingSpec | src/time.c:252-260 | nothing on an empty pending list; otherwise the head of the pending list, which leaves the wheel (tagged fired); the wheel stays well formed |
| WheelExpiry.NextExpirationFromSpec | src/time.c:209-220 | the level loop stops at the first level from `level` on with a non-zero bitmap and returns the start of its next occupied slot, or 0 if there is none |
| WheelExpiry.NextExpirationSpec | src/time.c:209-220 | the levels below the one answering are empty; 0 when no slot holds an entry; otherwise the start of an occupied slot that every passed slot precedes empty |
| WheelExpiry.EmptyNextExpiration | src/time.c:209-220 | a fresh driver has next expiration 0 |
| WheelExpiry.InsertExpired | test/time_test.c:26-41 | an entry inserted at or after its deadline fires at once and leaves the next expiration unchanged |
| WheelExpiry.InsertNextExpiration500 | test/time_test.c:12-24 | deadline 500 inserted at elapsed 0 goes to level 1, slot 7, and the next expiration is 448 |
| WheelExpiry.SingleSlotExpiry | src/time.c:209-220 | for any level l, at elapsed 0 with the levels below l empty and only slot s of level l occupied, the next expiration is s times the slot resolution of l |
| WheelScan.ScanSound | src/time.c:230-247 | the corrected level scan visits only occupied slots |
| WheelScan.ScanComplete | src/time.c:230-247 | the corrected level scan visits every occupied slot unless an occupied slot at or before it, going round, starts after `now` |
| WheelScan.ScanCursorAsWritten | src/time.c:231-246 | with slots 5, 10 and 20 occupied at elapsed 0 and now 20, the scan as written visits 5, 9 and 18 (two empty slots) and the corrected one 5, 10 and 20 |
| WheelScenarios.QuietProcessAt | src/time.c:222-250 | when no slot has started by `now`, time_process_at changes only elapsed |
| WheelScenarios.PushEmptyQuiet | src/time.c:236-238 | for any level, a lone entry stays in place when the driver is advanced to a time before its slot starts |
| WheelScenarios.InsertIntoEmpty | src/time.c:172-185 | on a fresh driver the entry is alone in its home slot and every other slot is empty |
| WheelScenarios.RemoveRelocationAsWritten | src/time.c:196-201 | deadline 4100 inserted at elapsed 0 sits in slot (2, 1) after time_process_at(100), but the removal as written looks in slot (1, 0), which is empty |
| WheelScenarios.SelfReinsert | src/time.c:128-136 | a not-yet-due head entry whose home slot is the slot being drained is pushed straight back: the pass changes nothing, so the loop never ends |
| WheelScenarios.SelfDrain | src/time.c:124-138 | on such a slot the corrected processing ends and leaves the wheel as it was |
| WheelScenarios.FarEntryDrain | src/time.c:172-185 | deadline 2^36 + 5 inserted at elapsed 0 lands alone in slot (5, 0); the as-written pass over that slot changes nothing, while the corrected processing returns the wheel unchanged |
| WheelScenarios.FarEntryVisited | src/time.c:222-247 | time_process_at(10) on that wheel visits slot (5, 0) first |
| WheelCascade.LoneProcessAt | src/time.c:222-250 | for a wheel holding one entry whose slot has started, time_process_at processes exactly that slot with elapsed at its start and then moves elapsed to `now` |
| WheelCascade.LoneFires | src/time.c:130-132 | a lone entry due by `now` ends pending (tagged TIMEOUT_PENDING) or woken, and every slot is empty |
| WheelCascade.LoneCascades | src/time.c:133-135 | a lone entry not yet due is cascaded into its home slot for the slot's start time, with its deadline unchanged |
| WheelCascade.LevelCascade | test/time_test.c:66-85 | deadline 5000: next expiration 4096; time_process_at(4096) cascades it to slot (1, 14) with next expiration 4992; time_process_at(5000) fires it |
| WheelCascade.LoneNextExpiration | src/time.c:209-220 | the next expiration of a lone-entry wheel is the start of the entry's slot |
| TimeEntries.Entry.Init | src/time_entry.c:19-24 | a new entry has the given task and deadline and null links |
| TimeEntries.Entry.MakePending | src/time_entry.c:41-45 | only an entry neither pending nor fired can be made pending, and it is then pending and not fired |
| TimeEntries.Entry.MakeFired | src/time_entry.c:47-50 | only an entry not yet fired can be made fired, and it is then fired and not pending |
| TimeEntries.TagsDistinct | src/time_entry.c:7-8 | the pending and fired tags differ from each other and from every deadline up to TIME_MAX_TIMEOUT_MS |
| TimeEntries.NewEntry | src/time_entry.c:10-26 | null exactly when allocation fails, leaving the count alone; otherwise a fresh entry with null links and the deadline, holding one more reference on the task |
| TimeEntries.FreeEntry | src/time_entry.c:28-31 | the entry is freed and its task loses exactly one reference |
| TimeEntries.EntryList.constructor | src/time_entry.c:52-54 | a new list is well linked and empty |
| TimeEntries.EntryList.Empty | src/time_entry.c:52-54 | empty exactly when the list holds no entry |
| TimeEntries.EntryList.PushFront | src/time_entry.c:56-63 | the entry becomes the head, its next is the old head, the old head's prev is the entry, and no other link changes |
| TimeEntries.EntryList.PopFront | src/time_entry.c:65-76 | null on an empty list; otherwise the head, the list losing exactly its head, with the links kept well formed |
| TimeEntries.EntryList.Contains | src/time_entry.c:78-85 | the walk finds the entry exactly when it is in the list |
| TimeEntries.EntryList.Remove | src/time_entry.c:87-104 | the corrected removal leaves the list without the entry and everything else in order |
| TimeEntries.EntryList.RemoveAsWritten | src/time_entry.c:87-104 | the removal as written leaves the list RemovedAsWritten describes: empty after removing the head |
| TimeEntries.RemovedAsWritten | src/time_entry.c:92-95 | removing the head empties the list; removing any other entry cuts out just that one |
| TimeEntries.HeadRemovalDropsSuccessors | src/time_entry.c:92-95 | removing the first of two entries leaves nothing as written, where the second should remain |
| TimeDriver.Driver.constructor | src/time.c:168-170 | a new driver is well formed and is the empty wheel |
| TimeDriver.Driver.Insert | src/time.c:172-185 | the driver performs WheelModel.Insert and stays well formed for an entry it does not hold |
| TimeDriver.Driver.Remove | src/time.c:187-207 | the driver performs WheelModel.Remove, stays well formed and no longer holds the entry |
| TimeDriver.Driver.FindSlotLevel | src/time.c:196-201 | the search over the six candidate slots agrees with FindLevel |
| TimeDriver.Driver.UnlinkFrom | src/time.c:200-204 | slot_remove plus clearing the bit of an emptied slot is WheelModel.Unlink |
| TimeDriver.Driver.NextExpiration | src/time.c:209-220 | the result is WheelModel.NextExpiration of the driver's state |
| TimeDriver.Driver.NextPendingTask | src/time.c:252-260 | None exactly on an empty pending list; otherwise the old head, which leaves the driver; the driver stays well formed |
| TimeDriver.Driver.DrainEntry | src/time.c:130-135 | one pass of the pop loop is WheelModel.DrainOne |
| TimeDriver.Driver.DetachSlot | src/time.c:127-137 | the slot's list is returned and the slot emptied, as WheelModel.Detach |
| TimeDriver.Driver.DrainDetached | src/time.c:128-136 | the pop loop over the detached list is WheelModel.Drain |
| TimeDriver.Driver.ProcessSlot | src/time.c:124-138 | slot_process_expiration is WheelModel.ProcessSlot and keeps the driver well formed, so each entry of the slot ends as WheelModel.ProcessSlotFates states |
| TimeDriver.Driver.ProcessAt | src/time.c:222-250 | time_process_at is WheelModel.ProcessAt and keeps the driver well formed |
| TimeDriver.Driver.ProcessLevel | src/time.c:223-247 | one iteration of the level loop is WheelModel.ProcessLevel |
| TimeDriver.LevelOf | src/time.c:49-58 | level_for computed with clz64 equals LevelFor and is below 6 |
| TimeDriver.NextOccupied | src/time.c:113-122 | slot_next_occupied computed with rotate and ctz64 equals SlotNextOccupied; -1 exactly when the bitmap is 0 |
| TimeDriver.ScanPast | src/time.c:242-246 | the scan word after a visit is ScanNext and strictly smaller |
| Tasks.MoveFrom | src/task.c:36-52 | a transition guarded by its source bit lands exactly on its target state |
| Tasks.Fire | src/task.c:36-52 | every transition taken is one of the four allowed ones |
| Tasks.RunKeepsOneHot | src/task.c:36-52 | from a one-hot state, every state a run passes through has exactly one bit set, and consecutive states are allowed transitions |
| Tasks.CompleteIsFinal | src/task.c:48-52 | a complete task refuses every event |
| Tasks.Task.Init | src/task.c:66-79 | a new task is Runnable with one reference, no consumer, and a buffer of max(future, output) size |
| Tasks.NewTask | src/task.c:59-82 | null exactly when allocation fails; otherwise a fresh Runnable task with one reference, no consumer and a buffer of the larger size |
| Tasks.Task.RefInc | src/task.c:84-88 | requires a live count and adds one |
| Tasks.Task.RefDec | src/task.c:90-98 | requires a live count, subtracts one, and the task is freed exactly when the count reaches zero |
| Tasks.Task.HasOutput | src/task.c:100-103 | the output exists exactly when the output size is non-zero |
| Tasks.Task.Runnable | src/task.c:118-120 | true exactly in the Runnable state |
| Tasks.Task.MakeRunnable | src/task.c:122-127 | a Waiting task becomes Runnable, an allowed transition |
| Tasks.Task.RegisterConsumer | src/task.c:105-116 | the old consumer loses a reference, the new one gains one, and the task stores it; null clears it |
| Tasks.Task.Poll | src/task.c:129-146 | a suspending future leaves the task Waiting with its count; a finishing one leaves it Complete with its output written and one reference released; the consumer is reported |
| Tasks.Task.TryCopyOutput | src/task.c:148-160 | with a consumer registered, the output is copied exactly when the task is Complete, and the consumer stays |
| TaskRing.TaskQueue.constructor | include/task_queue.h:14-16 | a new queue has both counters zero and holds nothing |
| TaskRing.TaskQueue.Size | include/task_queue.h:18-22 | the size is the number of queued tasks, never above 8 |
| TaskRing.TaskQueue.Push | include/task_queue.h:24-32 | the task joins the back; only cell tail mod 8 is written and tail advances |
| TaskRing.TaskQueue.Pop | include/task_queue.h:34-41 | the oldest task is returned and head advances, so pops return tasks in push order |
| TaskRing.RingCellsDiffer | include/task_queue.h:29-31 | counters fewer than 8 apart address different cells, so a push never overwrites a queued task |
| TaskList.TaskList.constructor | src/task_queue.c:6-8 | a new list is empty |
| TaskList.TaskList.Empty | src/task_queue.c:10-13 | empty exactly when nothing is chained |
| TaskList.TaskList.Push | src/task_queue.c:15-21 | the task becomes the head, linked to the old head |
| TaskList.TaskList.Pop | src/task_queue.c:23-31 | null with nothing changed on an empty list; otherwise the most recently pushed task, the list losing its head |
| Runtime.PushedMembers | src/runtime.c:107-118 | a task ends on the ready list exactly when it was handed to the wake function and was waking, and it is there once |
| Runtime.PushedSnoc | src/runtime.c:114-117 | a waking task woken later, not woken before, is in front of those woken before; one woken before adds nothing |
| Runtime.PushStep | src/runtime.c:73-76 | one wake step keeps the ready list equal to the pushes of the tasks woken so far on top of the list the phase began with |
| Runtime.TasksOfSnoc | src/time.c:252-260 | popping one more pending entry adds its task at the end of the tasks popped |
| Runtime.TasksOfMembers | src/time.c:252-260 | the task of every popped entry is among the tasks popped |
| Runtime.Runtime.constructor | src/runtime.c:12-19 | the zeroed runtime has empty lists, no current or root task, and an empty timer driver at time zero |
| Runtime.Runtime.CurTask | src/runtime.c:102-105 | requires a current task and returns it |
| Runtime.Runtime.Wake | src/runtime.c:107-118 | a Runnable task is left alone; a Waiting one becomes Runnable and heads the ready list unless it is the root task |
| Runtime.Runtime.Defer | src/runtime.c:120-122 | the task heads the deferred list; its state and the ready list are untouched |
| Runtime.Runtime.Spawn | src/runtime.c:81-96 | on allocation failure a handle with no task and the out-of-memory state, ready list untouched; otherwise a fresh Runnable task heading the ready list with two references |
| Runtime.Runtime.PollRoot | src/runtime.c:39-45 | a Runnable root is polled as the current task; READY ends block_on, clearing the root and current tasks |
| Runtime.Runtime.DrainReady | src/runtime.c:48-53 | the ready list ends empty with no current task, and every task that was on it has been polled once |
| Runtime.Runtime.DrainDeferred | src/runtime.c:55-58 | the deferred list ends empty, every task on it is Runnable, and the Waiting ones other than the root head the ready list, the last popped first |
| Runtime.Runtime.FireTimers | src/runtime.c:71-76 | the wheel is advanced to `now` and its pending list drained; the task of every entry that expired is Runnable; the ready list gains, on top of what it held, each task of an expired entry that was Waiting and not the root task, once and the last woken first; no reference count changes |
| Runtime.Runtime.StartFiring | src/runtime.c:71-72 | time_process_at leaves the wheel `Expired` computes, and the tasks that will be pushed are the Waiting non-root ones among those the wheel may hold |
| Runtime.Runtime.FirePending | src/runtime.c:73-76 | the pop loop drains the pending list, makes every popped task Runnable and pushes the waking ones onto the ready list in wake order |
| Runtime.Runtime.WakeEntry | src/runtime.c:75 | waking one expired entry's task makes it Runnable, pushes it when it was waking and not yet woken, and leaves every other task's state alone |
| Runtime.Runtime.WakeDeferred | src/runtime.c:55-58 | the deferred pop loop empties the deferred list and leaves the ready list as the pushes of its waking tasks on top of what it held |
| Runtime.Runtime.RunReady | src/runtime.c:48-53 | the ready pop loop polls every task that was on the ready list once and ends with the list empty and no current task |
| Runtime.FiredPop | src/time.c:252-260 | each pop keeps the timer phase's bookkeeping; the pop loop ends exactly when the pending list is empty |
| Runtime.PendingWasHeld | src/time.c:222-250 | every entry left pending by time_process_at was held by the wheel before |
| Join.PollJoin | src/join.c:22-41 | PENDING exactly when the handle ends Registered, i.e. it was live and the task is not complete; a finished or failed handle keeps its state |
| Join.ReadyIsFinal | src/join.c:25-40 | once a poll returns READY, every later poll returns READY in the same state |
| Join.NoReleaseWhenDone | src/join.c:25 | a finished or failed handle never releases a reference again |
| Join.ReleasedAtMostOnce | src/join.c:36-40 | a handle releases its reference at most once, and exactly once when it ends Completed having started live |
| Join.JoinHandle.constructor | src/join.c:9-14 | a non-null task gains one reference; a null one gives a handle with no task |
| Join.JoinHandle.Detach | src/join.c:16-20 | the consumer is cleared, its reference and the handle's reference are released, and the handle no longer names the task |
| Join.JoinHandle.Poll | src/join.c:22-41 | state and result follow PollJoin; the output is copied exactly when the task is complete, the consumer then cleared and the reference released; registering takes a reference on the current task and releases the old consumer's, and clearing releases the current task's again; a finished or failed handle touches nothing |
| Sleep.PollSleep | src/sleep.c:18-37 | PENDING exactly when the handle owns its entry and it has not fired; a ready poll of an owning handle completes it; any other handle returns READY unchanged |
| Sleep.Step | src/sleep.c:18-65 | only an owning handle touches its entry; after a free it owns nothing; ownership is never regained; only a Created handle inserts |
| Sleep.FreedAtMostOnce | src/sleep.c:18-65 | whatever the operations, the entry is freed at most once and never by a handle that does not own it |
| Sleep.InsertedOncePerReset | src/sleep.c:22-26 | the entry goes into the wheel at most once per reset, plus once for a handle that starts Created |
| Sleep.ResetRearms | src/sleep.c:59-63 | a reset takes a Registered handle back to Created, and the next poll inserts the entry again |
| Sleep.Unregister | src/time.c:187-205 | the entry is unlinked from the wheel as WheelModel.Remove, which stays well formed and no longer holds it |
| Sleep.SleepHandle.constructor | src/sleep.c:8-16 | Created with an entry for the current task exactly when allocation succeeds, otherwise the out-of-memory state |
| Sleep.SleepHandle.Poll | src/sleep.c:18-37 | state and result follow PollSleep; a Created handle inserts its entry; a Registered one completes and frees it once fired |
| Sleep.SleepHandle.Cancel | src/sleep.c:39-52 | the handle ends Canceled without an entry; a Registered entry leaves the wheel; an owned entry is freed exactly once |
| Sleep.SleepHandle.Reset | src/sleep.c:54-65 | a Registered handle returns to Created with its entry out of the wheel; an owned entry gets the new deadline and is not freed |
| Yield.PollYield | src/yield.c:8-17 | the handle is yielded afterwards; PENDING, with the task deferred, exactly on the first poll |
| Yield.DefersOnce | src/yield.c:8-17 | a fresh handle defers its task exactly once however often it is polled, and a used one never |
| Yield.YieldHandle.constructor | src/yield.c:4-6 | a new handle has not yielded |
| Yield.YieldHandle.Poll | src/yield.c:8-17 | follows PollYield; the first poll pushes the current task on the deferred list and leaves the ready list alone |
| Async.Execute | include/async.h:33-54 | a PENDING result stores the label of a yield or await that was reached; a READY result that changes the label stores one that was reached |
| Async.FreshStartsAtTop | include/async.h:24-27 | a frame with label 0 starts at the top of its body |
| Async.FindsOwnCase | include/async.h:33-54 | with distinct labels, the case of a yield or an await is found at that very suspension point |
| Async.PendingResumes | include/async.h:33-54 | after a PENDING poll the next poll re-enters where that one stopped |
| Async.YieldResumesAfter | include/async.h:33-38 | a yield stores its label and returns PENDING; the next poll continues after it |
| Async.AwaitRepolls | include/async.h:48-54 | an await stores its label; while the child is PENDING so is the poll, and the next poll repolls the child; a READY child moves past it |
| Async.ReturnIsFinal | include/async.h:41-46 | a return writes its value (nothing for an empty return) and returns READY; a later poll matches no case and returns READY with nothing changed |
| Async.DuplicateLabelsMisresume | include/helpers.h:8 | without distinct labels a yield can resume at the wrong suspension point |
| Async.Frame.constructor | include/async.h:24-27 | a new frame has label 0 |
| Async.Frame.Poll | include/async.h:24-54 | the label, the output and the result after one poll are those Resume describes |
| MemoryDefects.PollAsWrittenUnsafe | src/task.c:142-145 | the poll as written is unsafe exactly when the future finishes on the task's last reference |
| MemoryDefects.PollAccessesSafe | src/task.c:129-146 | the corrected poll is safe whatever the future returns and whatever the count |
| MemoryDefects.PollFreesOnLastReference | src/task.c:129-146 | the corrected poll frees the task exactly when the future finishes on its last reference |
| MemoryDefects.EntryOf | src/sleep.c:8-16 | the handle holds no entry exactly after an allocation failure |
| MemoryDefects.UnlinkAccesses | src/time.c:188-205 | the unlinking half of time_remove_timeout is safe and frees nothing |
| MemoryDefects.RemoveAccesses | src/time.c:187-207 | time_remove_timeout frees the entry exactly once |
| MemoryDefects.CancelAsWrittenUnsafe | src/sleep.c:44-49 | cancel as written is safe only for a Created handle; a Registered entry is freed twice |
| MemoryDefects.CancelAccessesSafe | src/sleep.c:39-52 | the corrected cancel is safe in every state it accepts and frees the entry exactly when Step says so |
| MemoryDefects.ResetAsWrittenUnsafe | src/sleep.c:54-65 | reset as written is safe only for a Created handle |
| MemoryDefects.ResetAccessesSafe | src/sleep.c:54-65 | the corrected reset is safe in every state it accepts and frees nothing |

## Left out

- Input and output, and the clock: the `epoll_wait` and `clock_now` calls of `block_on` (src/runtime.c:60-72), `tachy_init` and `src/clock.c` are not modelled. The current time and the deadlines are parameters.
- The wait loop of `block_on` is modelled as its timer step alone, `Runtime.Runtime.FireTimers`. The outer `while (1)` that strings the phases together is not a method of its own.
- Memory allocation: `malloc` failing or succeeding is an `obtained` flag. `free` is a `freed` flag or a reference count reaching zero. `memcpy` of outputs copies one integer value.
- Byte buffers: a future's state and output are an integer; buffer sizes are numbers.
- Poll functions: a future's poll is its outcome (`Tasks.Step`, suspend or finish), supplied from outside.
- `src/runtime.c` calls `task_list_push_front` and `task_list_pop_front`; they are modelled by `TaskList`, the list of `src/task_queue.c` that pushes and pops at the head.
- TimeDriver.Driver.Remove: unlinks but does not free. The `time_entry_free` that ends `time_remove_timeout` is `TimeEntries.FreeEntry`, called by the caller. The driver holds entries as opaque values.
- TimeDriver.Driver: a fired entry is one the driver no longer holds in its deadline map; the tag write itself is `TimeEntries.Entry.MakeFired` on the entry object.
- TimeDriver.Driver: slot lists are sequences inside an array, not intrusive lists. The intrusive list and its links are `TimeEntries.EntryList`, proved on its own.
- Runtime.Runtime.FireTimers: requires the deferred list to be empty, as it is after the deferred phase.
- Runtime.Runtime.DrainReady: states what happens to each task polled, not the order in which they ran. A poll here is a pure outcome with no effect on the runtime: a polled task that yields (src/yield.c:15) would push onto the deferred list, and one that spawns (src/runtime.c:94) would push a new task that the same loop then polls. The contract's "deferred list unchanged" and "only tasks that were on the ready list are polled" hold for this abstraction, not for such polls.
- Runtime.Runtime.constructor: states the empty timers through their deadline map, pending list, woken list and elapsed time, rather than as `WheelModel.EmptyWheel`.
- Runtime.Runtime.PollRoot: the root task's own allocation in `block_on` (src/runtime.c:37) is not checked; the root task is given.
- Sleep: the source's `NO_ERROR` state is `Created`.
- Sleep.SleepHandle.Cancel: models cancel as corrected; the as-written double free is in `MemoryDefects`.
- Sleep.SleepHandle.Reset: models reset as corrected; the entry is unlinked and kept rather than freed.
- Async: the plain C code between suspension points is not modelled; a body is its sequence of suspension points. The `TACHY_LABEL` preprocessor machinery of `include/helpers.h` is the integer label.
- The unit tests with two timers at 100 and 200 (test/time_test.c:43-64), with two timers sharing slot (2, 1) at 4100 and 4500 (test/time_test.c:87-115), with timers on three levels (test/time_test.c:117-158), with timers advanced in deadline order (test/time_test.c:219-230) and with the `TIME_MAX_TIMEOUT_MS` boundary (test/time_test.c:160-177) are not restated as scenario lemmas; the scenario lemmas of `WheelCascade` cover a wheel holding one entry. `WheelModel.ProcessAtMoves` gives their no-early-firing half for every input.
- "Every due entry fires in one call" is not stated for `time_process_at`. As written it is false: the cursor defect (first row of Findings) makes the scan skip occupied slots, and a due entry in a skipped slot waits for a later call. For the corrected scan, `WheelScan.ScanComplete` visits every occupied slot that has started and `WheelModel.ProcessSlotFates` fires every due entry of a visited slot. The missing step is that a due entry's slot has started when its level is scanned. That needs an invariant tying each held deadline to elapsed and to the current rotation of its level, and the wheel invariant `WheelModel.WF` does not carry it. Cascading is no obstacle: an entry is re-inserted only when it is not yet due.
- `time_next_expiration` for an occupied slot behind the cursor (src/time.c:209-216 and 226-235): the slot's start is computed inside the current level window, so it lies before `elapsed` (at elapsed 4000, a deadline of 4200 lands in slot (1, 1), whose start is 64). The model computes the same value through `WheelMath.SlotStart` and states no property of it beyond `WheelExpiry.NextExpirationSpec`.
- Bits.RotateR64: for n = 0 the source shifts by 64, which C leaves undefined; its operand `num & 0` is zero, and the model takes the result as `num`.
- Integer widths: time values are natural numbers below 2^64. Slot start times wrap modulo 2^64 as `uint64_t` arithmetic does (`WheelMath.SlotStart`).

## Findings

| source | as written | input that shows it | evidently intended | confidence | as-written member | corrected member |
|---|---|---|---|---|---|---|
| src/time.c:231-246 | the cursor moves by `trailing_zeros` while the scan word shifts by `trailing_zeros + 1`, so every visit after the first addresses a slot one too early | slots 5, 10 and 20 of level 0 occupied, elapsed 0, `time_process_at(20)`: visits 5, 9, 18 | visit 5, 10, 20: every occupied slot that has started | not executed | WheelScan.ScanCursorAsWritten | WheelScan.ScanComplete |
| src/time.c:99-102 | removing the list head sets the head to NULL, dropping every successor | list [a, b], remove a | the list [b] | not executed | TimeEntries.HeadRemovalDropsSuccessors | TimeEntries.EntryList.Remove |
| src/time.c:196-201 | `time_remove_timeout` recomputes the slot from `deadline - elapsed` at removal time, not where the entry was inserted | deadline 4100 inserted at elapsed 0, `time_process_at(100)`, then remove: looks in slot (1, 0), entry is in slot (2, 1) | unlink the entry from the slot that holds it | not executed | WheelScenarios.RemoveRelocationAsWritten | WheelModel.RemoveSpec |
| src/time.c:128-136 | the pop loop re-inserts a not-yet-due entry into the slot it is draining when that is the entry's home slot again, so the loop never ends | deadline 2^36 + 5 inserted at elapsed 0 (slot (5, 0)), `time_process_at(10)` | take the slot's list out first, so each entry is handled once | not executed | WheelScenarios.SelfReinsert | WheelScenarios.SelfDrain |
| src/task.c:142-145 | `task->consumer` is read after the ref_dec that frees a finished task holding its last reference | a root task that finishes with one reference | read the consumer before releasing the reference | not executed | MemoryDefects.PollAsWrittenUnsafe | MemoryDefects.PollAccessesSafe |
| src/sleep.c:44-49 | cancel frees a Registered entry in `time_remove_timeout` and again with `time_entry_free`; an out-of-memory handle frees through NULL | cancel a Registered sleep | free the entry once | not executed | MemoryDefects.CancelAsWrittenUnsafe | MemoryDefects.CancelAccessesSafe |
| src/sleep.c:54-65 | reset removes (and so frees) a Registered entry, then writes its deadline; an out-of-memory handle writes through NULL | reset a Registered sleep | unlink the entry without freeing it, then write the deadline | not executed | MemoryDefects.ResetAsWrittenUnsafe | MemoryDefects.ResetAccessesSafe |

=== FILE: async.dfy ===
/**
 * The resume protocol of include/async.h. A future's poll function is a
 * switch on a label field: tachy_begin opens it with `case 0`, and every
 * suspension point stores its own label (its source line) in the field
 * before it returns, so that the next poll jumps back to it.
 *
 * A body is the sequence of suspension points between tachy_begin and
 * tachy_end; the plain C code between them is not modelled. Polling an
 * awaited child is an outcome supplied from outside, one per await reached.
 */
module Async {
  import opened Tasks

  /** A suspension point: tachy_yield, tachy_await(child) or tachy_return(v) (with no value for an empty return). */
  datatype Stmt = Yield(line: int) | Await(line: int) | Return(line: int, value: Option<int>)

  /** What a poll leaves behind: the label field, the output slot, and the result. */
  datatype Outcome = Outcome(line: int, output: int, poll: Poll)

  /** Labels are line numbers: positive, and two suspension points never share one (a duplicate case does not compile). */
  predicate WellLabelled(body: seq<Stmt>)
  {
    && (forall i | 0 <= i < |body| :: body[i].line > 0)
    && (forall i, j | 0 <= i < j < |body| :: body[i].line != body[j].line)
  }

  /** Where the code following a suspension point's case label starts: after a yield, at an await's own child poll. */
  function ResumeAt(body: seq<Stmt>, i: nat): (k: nat)
    requires i < |body| && !body[i].Return?
    ensures k <= |body|
  {
    if body[i].Yield? then i + 1 else i
  }

  /**
   * The first suspension point at or after `from` whose case label is
   * `line`; |body| if there is none (a return has no case label).
   */
  function Find(body: seq<Stmt>, line: int, from: nat): (k: nat)
    requires from <= |body|
    ensures from <= k <= |body|
    decreases |body| - from
  {
    if from == |body| then |body|
    else if !body[from].Return? && body[from].line == line then ResumeAt(body, from)
    else Find(body, line, from + 1)
  }

  /**
   * The switch of tachy_begin: label 0 enters at the top; a label stored
   * by a yield or an await enters at its case; any other label (a return's,
   * or one no case carries) matches nothing and leaves the switch, at
   * tachy_end.
   */
  function Entry(body: seq<Stmt>, line: int): (k: nat)
    ensures k <= |body|
  {
    if line == 0 then 0 else Find(body, line, 0)
  }

  /**
   * Running the body from statement `pc` with the label field holding
   * `line`: a yield stores its label and returns PENDING; an await stores
   * its label and returns PENDING while its child is pending; a return
   * stores its label, writes its value (if any) and returns READY; the end
   * of the body returns READY.
   */
  function Execute(body: seq<Stmt>, pc: nat, line: int, output: int, children: seq<Poll>): (r: Outcome)
    requires pc <= |body|
    ensures r.poll == Pending ==> exists j | pc <= j < |body| :: !body[j].Return? && body[j].line == r.line
    ensures r.poll == Ready && r.line != line ==> exists j | pc <= j < |body| :: body[j].line == r.line
    decreases |body| - pc
  {
    if pc == |body| then Outcome(line, output, Ready)
    else match body[pc]
      case Yield(l) => Outcome(l, output, Pending)
      case Return(l, v) => Outcome(l, if v.Some? then v.value else output, Ready)
      case Await(l) =>
        if children == [] || children[0] == Pending then Outcome(l, output, Pending)
        else Execute(body, pc + 1, l, output, children[1..])
  }

  /** One poll of a future whose label field holds `line`. */
  function Resume(body: seq<Stmt>, line: int, output: int, children: seq<Poll>): Outcome
  {
    Execute(body, Entry(body, line), line, output, children)
  }

  /** A fresh future (label 0) starts at the top of its body. */
  lemma FreshStartsAtTop(body: seq<Stmt>, output: int, children: seq<Poll>)
    ensures Resume(body, 0, output, children) == Execute(body, 0, 0, output, children)
  {
  }

  /** With distinct labels, the case of a yield or an await is found at that very suspension point. */
  lemma {:induction false} FindsOwnCase(body: seq<Stmt>, from: nat, i: nat)
    requires WellLabelled(body) && from <= i < |body| && !body[i].Return?
    ensures Find(body, body[i].line, from) == ResumeAt(body, i)
    decreases i - from
  {
    if from < i {
      assert body[from].line != body[i].line;
      FindsOwnCase(body, from + 1, i);
    }
  }

  /** No case carries a label that no yield or await carries: such a label leaves the switch. */
  lemma {:induction false} FindsNoCase(body: seq<Stmt>, line: int, from: nat)
    requires from <= |body|
    requires forall j | from <= j < |body| :: body[j].Return? || body[j].line != line
    ensures Find(body, line, from) == |body|
    decreases |body| - from
  {
    if from < |body| {
      FindsNoCase(body, line, from + 1);
    }
  }

  /**
   * After a poll that returned PENDING, the next poll re-enters where that
   * one stopped: just after the yield, or at the await's child poll.
   */
  lemma PendingResumes(body: seq<Stmt>, pc: nat, line: int, output: int, children: seq<Poll>)
    requires WellLabelled(body) && pc <= |body|
    requires Execute(body, pc, line, output, children).poll == Pending
    ensures var l := Execute(body, pc, line, output, children).line;
      exists j | pc <= j < |body| :: !body[j].Return? && body[j].line == l && Entry(body, l) == ResumeAt(body, j)
  {
    var l := Execute(body, pc, line, output, children).line;
    var j :| pc <= j < |body| && !body[j].Return? && body[j].line == l;
    FindsOwnCase(body, 0, j);
  }

  /** A yield stores its label and suspends; the next poll continues with the statement after it. */
  lemma YieldResumesAfter(body: seq<Stmt>, i: nat, line: int, output: int, children: seq<Poll>)
    requires WellLabelled(body) && i < |body| && body[i].Yield?
    ensures Execute(body, i, line, output, children) == Outcome(body[i].line, output, Pending)
    ensures Resume(body, body[i].line, output, children) == Execute(body, i + 1, body[i].line, output, children)
  {
    FindsOwnCase(body, 0, i);
  }

  /**
   * An await stores its label before polling its child; while the child is
   * pending the poll returns PENDING, and the next poll polls the child
   * again; once the child is ready, execution goes on past the await.
   */
  lemma AwaitRepolls(body: seq<Stmt>, i: nat, line: int, output: int, child: Poll, children: seq<Poll>)
    requires WellLabelled(body) && i < |body| && body[i].Await?
    ensures child == Pending ==> Execute(body, i, line, output, [child] + children) == Outcome(body[i].line, output, Pending)
    ensures child == Ready ==> Execute(body, i, line, output, [child] + children) == Execute(body, i + 1, body[i].line, output, children)
    ensures Resume(body, body[i].line, output, children) == Execute(body, i, body[i].line, output, children)
  {
    FindsOwnCase(body, 0, i);
    assert ([child] + children)[1..] == children;
  }

  /**
   * A return writes its value (an empty return writes nothing) and returns
   * READY; a poll after it matches no case and returns READY again with the
   * label and the output left as they are.
   */
  lemma ReturnIsFinal(body: seq<Stmt>, i: nat, line: int, output: int, later: int, children: seq<Poll>)
    requires WellLabelled(body) && i < |body| && body[i].Return?
    ensures var v := body[i].value;
      Execute(body, i, line, output, children) == Outcome(body[i].line, if v.Some? then v.value else output, Ready)
    ensures Resume(body, body[i].line, later, children) == Outcome(body[i].line, later, Ready)
  {
    forall j | 0 <= j < |body|
      ensures body[j].Return? || body[j].line != body[i].line
    {
      if j != i {
        if j < i {
          assert body[j].line != body[i].line;
        } else {
          assert body[i].line != body[j].line;
        }
      }
    }
    FindsNoCase(body, body[i].line, 0);
  }

  /** Without distinct labels a yield can resume at the wrong place: here the second yield resumes after the first. */
  lemma DuplicateLabelsMisresume()
    ensures var body := [Yield(7), Yield(7)];
      !WellLabelled(body) && Entry(body, 7) == 1 && ResumeAt(body, 1) == 2
  {
    var body := [Yield(7), Yield(7)];
    assert body[0].line == body[1].line;
    assert Find(body, 7, 0) == ResumeAt(body, 0) == 1;
  }

  /**
   * A future's state field (the label tachy_begin switches on) together
   * with the output slot its poll function writes.
   */
  class Frame {
    var line: int
    var output: int

    /** A future before its first poll: label 0. */
    constructor (output: int)
      ensures line == 0 && this.output == output
    {
      line := 0;
      this.output := output;
    }

    /**
     * One call of the poll function: the switch picks the entry point, and
     * the suspension points from there run in order, each storing its
     * label, until one returns. Label, output and result are those Resume
     * describes.
     */
    method Poll(body: seq<Stmt>, children: seq<Poll>) returns (r: Poll)
      modifies this
      ensures Outcome(line, output, r) == Resume(body, old(line), old(output), children)
    {
      var pc := Entry(body, line);
      var rest := children;
      ghost var goal := Resume(body, line, output, children);
      while pc < |body|
        invariant pc <= |body|
        invariant Execute(body, pc, line, output, rest) == goal
        decreases |body| - pc
      {
        match body[pc]
        case Yield(l) =>
          line := l;
          return Pending;
        case Return(l, v) =>
          line := l;
          if v.Some? {
            output := v.value;
          }
          return Ready;
        case Await(l) =>
          line := l;
          if rest == [] || rest[0] == Pending {
            return Pending;
          }
          rest := rest[1..];
          pc := pc + 1;
      }
      r := Ready;
    }
  }
}

=== FILE: bits.dfy ===
/**
 * Unsigned 64-bit words and the bit helpers of the timing wheel (clz64, ctz64,
 * rotate_r64 in src/time.c).
 *
 * A uint64_t is a natural number below 2^64. The bitwise operators the wheel
 * uses are written out arithmetically: `x >> n` is n halvings, bit i of x is
 * the parity of `x >> i`, `x & (2^n - 1)` keeps the n low bits, and `|` of two
 * words with no common bit is their sum.
 */
module Bits {

  const TWO_64: nat := 0x1_0000_0000_0000_0000

  /** uint64_t */
  type U64 = x: int | 0 <= x < TWO_64

  function Pow2(n: nat): (r: nat)
    ensures r >= 1
  {
    if n == 0 then 1 else 2 * Pow2(n - 1)
  }

  /** x >> n */
  function ShiftRight(x: nat, n: nat): (r: nat)
    ensures r <= x
  {
    if n == 0 then x else ShiftRight(x / 2, n - 1)
  }

  /** x << n, without truncation to 64 bits */
  function ShiftLeft(x: nat, n: nat): (r: nat)
    ensures r >= x
  {
    if n == 0 then x else 2 * ShiftLeft(x, n - 1)
  }

  /** (x >> i) & 1 */
  predicate Bit(x: nat, i: nat)
  {
    ShiftRight(x, i) % 2 == 1
  }

  /** x & (2^n - 1): the n low bits of x */
  function LowBits(x: nat, n: nat): (r: nat)
    ensures r < Pow2(n) && r <= x
  {
    if n == 0 then 0 else x % 2 + 2 * LowBits(x / 2, n - 1)
  }

  /** x & ~(2^n - 1): x with its n low bits cleared */
  function ClearLow(x: nat, n: nat): nat
  {
    x - LowBits(x, n)
  }

  /** x | (1 << i) */
  function SetBit(x: nat, i: nat): nat
  {
    if Bit(x, i) then x else x + Pow2(i)
  }

  /** x & ~(1 << i) */
  function ClearBit(x: nat, i: nat): nat
  {
    if Bit(x, i) then ShiftRightBoundBelow(x, i); x - Pow2(i) else x
  }

  // ---------------------------------------------------------------------
  // Basic facts about the encoding
  // ---------------------------------------------------------------------

  lemma Pow2Values()
    ensures Pow2(6) == 64 && Pow2(12) == 4096 && Pow2(18) == 262144
    ensures Pow2(24) == 0x100_0000 && Pow2(30) == 0x4000_0000 && Pow2(36) == 0x10_0000_0000
  {
    assert Pow2(6) == 64;
    assert Pow2(12) == 64 * 64 by { Pow2Add(6, 6); }
    assert Pow2(18) == 4096 * 64 by { Pow2Add(12, 6); }
    assert Pow2(24) == 4096 * 4096 by { Pow2Add(12, 12); }
    assert Pow2(30) == 0x100_0000 * 64 by { Pow2Add(24, 6); }
    assert Pow2(36) == 262144 * 262144 by { Pow2Add(18, 18); }
  }

  lemma Pow2Word()
    ensures Pow2(64) == TWO_64
  {
    Pow2Values();
    assert Pow2(64) == Pow2(36) * Pow2(28) by { Pow2Add(36, 28); }
    assert Pow2(28) == 0x1000_0000 by { Pow2Add(18, 10); }
  }

  lemma {:induction false} Pow2Add(a: nat, b: nat)
    ensures Pow2(a + b) == Pow2(a) * Pow2(b)
  {
    if a > 0 {
      Pow2Add(a - 1, b);
      assert Pow2(a + b) == 2 * Pow2(a - 1 + b);
    }
  }

  lemma {:induction false} Pow2Monotone(a: nat, b: nat)
    requires a <= b
    ensures Pow2(a) <= Pow2(b)
  {
    if a < b {
      Pow2Monotone(a, b - 1);
    }
  }

  lemma {:induction false} ShiftRightStep(x: nat, n: nat)
    ensures ShiftRight(x, n + 1) == ShiftRight(x, n) / 2
  {
    if n > 0 {
      ShiftRightStep(x / 2, n - 1);
    }
  }

  /** Bit k + 1 of x is bit k of x / 2. */
  lemma BitsOfHalf(x: nat)
    ensures forall k: nat :: k > 0 ==> Bit(x, k) == Bit(x / 2, k - 1)
  {
  }

  lemma {:induction false} ShiftRightCompose(x: nat, m: nat, n: nat)
    ensures ShiftRight(ShiftRight(x, m), n) == ShiftRight(x, m + n)
  {
    if m > 0 {
      ShiftRightCompose(x / 2, m - 1, n);
    }
  }

  /** 2^m >> n is 2^(m - n) for n <= m. */
  /** 2^n has none of its n low bits set. */
  lemma {:induction false} LowBitsOfPow2(n: nat)
    ensures LowBits(Pow2(n), n) == 0
  {
    if n > 0 {
      LowBitsOfPow2(n - 1);
      assert Pow2(n) / 2 == Pow2(n - 1) && Pow2(n) % 2 == 0;
    }
  }

  lemma {:induction false} ShiftRightPow2(m: nat, n: nat)
    requires n <= m
    ensures ShiftRight(Pow2(m), n) == Pow2(m - n)
  {
    if n > 0 {
      ShiftRightPow2(m - 1, n - 1);
    }
  }

  /** Bit k of x >> m is bit k + m of x. */
  lemma BitOfShift(x: nat, m: nat, k: nat)
    ensures Bit(ShiftRight(x, m), k) == Bit(x, k + m)
  {
    ShiftRightCompose(x, m, k);
  }

  /** x >> n is below 2^m when x is below 2^(m + n). */
  lemma {:induction false} ShiftRightBound(x: nat, m: nat, n: nat)
    requires x < Pow2(m + n)
    ensures ShiftRight(x, n) < Pow2(m)
  {
    if n > 0 {
      assert Pow2(m + n) == 2 * Pow2(m + n - 1);
      ShiftRightBound(x / 2, m, n - 1);
    }
  }

  /** A word below 2^m has no bit at or above m. */
  lemma {:induction false} NoHighBits(x: nat, m: nat, k: nat)
    requires x < Pow2(m) && m <= k
    ensures !Bit(x, k)
  {
    if m == 0 {
      assert x == 0;
      ZeroHasNoBits(k);
    } else {
      assert Pow2(m) == 2 * Pow2(m - 1);
      NoHighBits(x / 2, m - 1, k - 1);
    }
  }

  lemma {:induction false} ZeroHasNoBits(k: nat)
    ensures ShiftRight(0, k) == 0 && !Bit(0, k)
  {
    if k > 0 {
      ZeroHasNoBits(k - 1);
    }
  }

  /** A word below 2^m is zero exactly when none of its m low bits is set. */
  lemma {:induction false} ZeroIffNoBits(x: nat, m: nat)
    requires x < Pow2(m)
    ensures x == 0 <==> forall k: nat :: k < m ==> !Bit(x, k)
  {
    if x == 0 {
      forall k: nat | k < m ensures !Bit(x, k) {
        ZeroHasNoBits(k);
      }
    } else if x % 2 == 1 {
      assert m > 0 && Bit(x, 0);
    } else {
      assert m > 0 && x / 2 < Pow2(m - 1);
      ZeroIffNoBits(x / 2, m - 1);
      var k: nat :| k < m - 1 && Bit(x / 2, k);
      assert Bit(x, k + 1);
    }
  }

  /** Bit k of the n low bits of x. */
  lemma {:induction false} BitOfLowBits(x: nat, n: nat, k: nat)
    ensures Bit(LowBits(x, n), k) == (k < n && Bit(x, k))
  {
    if n == 0 {
      ZeroHasNoBits(k);
    } else {
      var r := LowBits(x / 2, n - 1);
      assert LowBits(x, n) / 2 == r;
      if k > 0 {
        BitOfLowBits(x / 2, n - 1, k - 1);
      }
    }
  }

  /** Bits of a + (b << m) when a occupies only the m low bits. */
  lemma {:induction false} BitOfSum(a: nat, b: nat, m: nat, k: nat)
    requires a < Pow2(m)
    ensures Bit(a + ShiftLeft(b, m), k) == if k < m then Bit(a, k) else Bit(b, k - m)
  {
    if m > 0 {
      var h := ShiftLeft(b, m - 1);
      assert Pow2(m) == 2 * Pow2(m - 1);
      assert (a + 2 * h) / 2 == a / 2 + h;
      assert (a + 2 * h) % 2 == a % 2;
      if k > 0 {
        BitOfSum(a / 2, b, m - 1, k - 1);
      }
    }
  }

  /** The n low bits and the shifted-out high part recompose x. */
  lemma {:induction false} LowHighSplit(x: nat, n: nat)
    ensures x == LowBits(x, n) + ShiftLeft(ShiftRight(x, n), n)
  {
    if n > 0 {
      LowHighSplit(x / 2, n - 1);
      ShiftLeftOuter(ShiftRight(x / 2, n - 1), n - 1);
    }
  }

  /** Shifting left by n + 1 is shifting left by n and doubling. */
  lemma {:induction false} ShiftLeftOuter(x: nat, n: nat)
    ensures ShiftLeft(x, n + 1) == ShiftLeft(2 * x, n)
  {
    if n > 0 {
      ShiftLeftOuter(x, n - 1);
    }
  }

  /** x << n is x * 2^n. */
  lemma {:induction false} ShiftLeftMul(x: nat, n: nat)
    ensures ShiftLeft(x, n) == x * Pow2(n)
  {
    if n > 0 {
      ShiftLeftMul(x, n - 1);
      MulTwice(x, Pow2(n - 1));
    }
  }

  lemma MulTwice(h: nat, p: nat)
    ensures h * (2 * p) == 2 * (h * p)
  {
  }

  lemma {:induction false} SetBitBits(x: nat, i: nat, k: nat)
    ensures Bit(SetBit(x, i), k) == (k == i || Bit(x, k))
  {
    if !Bit(x, i) {
      if i == 0 {
        assert x % 2 == 0;
        if k > 0 {
          assert (x + 1) / 2 == x / 2;
        }
      } else {
        assert (x + Pow2(i)) / 2 == x / 2 + Pow2(i - 1);
        assert (x + Pow2(i)) % 2 == x % 2;
        if k > 0 {
          SetBitBits(x / 2, i - 1, k - 1);
        }
      }
    }
  }

  lemma {:induction false} ClearBitBits(x: nat, i: nat, k: nat)
    ensures Bit(ClearBit(x, i), k) == (k != i && Bit(x, k))
  {
    if Bit(x, i) {
      var y := x - Pow2(i);
      if i == 0 {
        assert x % 2 == 1;
        if k > 0 {
          assert y / 2 == x / 2;
        }
      } else {
        assert x / 2 >= Pow2(i - 1) by {
          ShiftRightBoundBelow(x, i);
        }
        assert y / 2 == x / 2 - Pow2(i - 1);
        assert y % 2 == x % 2;
        if k > 0 {
          ClearBitBits(x / 2, i - 1, k - 1);
        }
      }
    }
  }

  /** A word with bit i set is at least 2^i. */
  lemma {:induction false} ShiftRightBoundBelow(x: nat, i: nat)
    requires Bit(x, i)
    ensures x >= Pow2(i)
  {
    if x < Pow2(i) {
      NoHighBits(x, i, i);
    }
  }

  /** Setting a clear bit below m keeps a word below 2^m. */
  lemma SetBitBound(x: nat, i: nat, m: nat)
    requires x < Pow2(m) && i < m
    ensures SetBit(x, i) < Pow2(m)
  {
    if !Bit(x, i) {
      AddBitBound(x, i, m);
    }
  }

  /** Adding 2^i to a word below 2^m whose bit i is clear keeps it below 2^m. */
  lemma {:induction false} AddBitBound(x: nat, i: nat, m: nat)
    requires x < Pow2(m) && i < m && !Bit(x, i)
    ensures x + Pow2(i) < Pow2(m)
  {
    var p := Pow2(m - 1);
    assert Pow2(m) == 2 * p;
    if i == 0 {
      assert x % 2 == 0;
    } else {
      var q := Pow2(i - 1);
      assert Pow2(i) == 2 * q;
      assert ShiftRight(x, i) == ShiftRight(x / 2, i - 1);
      AddBitBound(x / 2, i - 1, m - 1);
    }
  }

  // ---------------------------------------------------------------------
  // Counting zeros
  // ---------------------------------------------------------------------

  /** Number of trailing zero bits; 64 for a zero word, as ctz64 returns. */
  function Ctz(x: nat): (r: nat)
    ensures x == 0 ==> r == 64
    decreases x
  {
    if x == 0 then 64 else if x % 2 == 1 then 0 else 1 + Ctz(x / 2)
  }

  /** The trailing zero count of a non-zero word is a set bit with only clear bits below it. */
  lemma {:induction false} CtzSpec(x: nat)
    requires x != 0
    ensures Bit(x, Ctz(x)) && forall j: nat :: j < Ctz(x) ==> !Bit(x, j)
    decreases x
  {
    if x % 2 == 0 {
      CtzSpec(x / 2);
      BitsOfHalf(x);
    }
  }

  /** Position of the highest set bit plus one; 0 for a zero word. */
  function BitLength(x: nat): (r: nat)
    ensures x < Pow2(r)
    ensures x != 0 ==> r > 0 && Bit(x, r - 1)
    decreases x
  {
    if x == 0 then 0 else 1 + BitLength(x / 2)
  }

  lemma CtzBelow64(x: U64)
    requires x != 0
    ensures Ctz(x) < 64
  {
    Pow2Word();
    CtzSpec(x);
    if Ctz(x) >= 64 {
      NoHighBits(x, 64, Ctz(x));
    }
  }

  lemma BitLengthAtMost(x: nat, m: nat)
    requires x < Pow2(m)
    ensures BitLength(x) <= m
  {
    if x != 0 && BitLength(x) > m {
      NoHighBits(x, m, BitLength(x) - 1);
    }
  }

  /** ctz64 (src/time.c): shift right until the lowest bit is set. */
  method Ctz64(num: U64) returns (count: nat)
    ensures num == 0 ==> count == 64
    ensures num != 0 ==> count < 64 && Bit(num, count)
    ensures forall j: nat :: j < count && j < 64 ==> !Bit(num, j)
    ensures count == Ctz(num)
  {
    if num == 0 {
      return 64;
    }
    count := 0;
    var n: nat := num;
    while n % 2 == 0
      invariant n != 0 && n == ShiftRight(num, count)
      invariant forall j: nat :: j < count ==> !Bit(num, j)
      decreases n
    {
      ShiftRightStep(num, count);
      n := n / 2;
      count := count + 1;
    }
    CtzUnique(num, count);
    CtzBelow64(num);
  }

  /** The trailing zero count is the only position that is set with all lower bits clear. */
  lemma CtzUnique(x: nat, r: nat)
    requires x != 0 && Bit(x, r) && forall j: nat :: j < r ==> !Bit(x, j)
    ensures r == Ctz(x)
  {
    CtzSpec(x);
  }

  /** clz64 (src/time.c): count clear bits from bit 63 downwards. */
  method Clz64(num: U64) returns (count: nat)
    ensures num == 0 ==> count == 64
    ensures num != 0 ==> count < 64 && Bit(num, 63 - count)
    ensures forall j: nat :: 63 - count < j < 64 ==> !Bit(num, j)
    ensures count == 64 - BitLength(num)
  {
    count := 0;
    var i: int := 63;
    while i >= 0
      invariant -1 <= i <= 63 && count == 63 - i
      invariant forall j: nat :: i < j < 64 ==> !Bit(num, j)
    {
      if Bit(num, i) {
        break;
      }
      count := count + 1;
      i := i - 1;
    }
    Pow2Word();
    BitLengthAtMost(num, 64);
    if i < 0 {
      ZeroIffNoBits(num, 64);
      assert num == 0;
    } else {
      var b := BitLength(num);
      if b - 1 < i {
        NoHighBits(num, b, i);
      }
    }
  }

  // ---------------------------------------------------------------------
  // Rotation
  // ---------------------------------------------------------------------

  /**
   * rotate_r64 (src/time.c): (num >> n) | ((num & (2^n - 1)) << (64 - n)).
   * The two operands of `|` have no common bit, so `|` is `+`; for n == 0 the
   * second operand is zero.
   */
  function RotateR64(num: U64, n: nat): U64
    requires n < 64
  {
    RotateBound(num, n);
    ShiftRight(num, n) + ShiftLeft(LowBits(num, n), 64 - n)
  }

  lemma RotateBound(num: U64, n: nat)
    requires n < 64
    ensures ShiftRight(num, n) < Pow2(64 - n)
    ensures ShiftRight(num, n) + ShiftLeft(LowBits(num, n), 64 - n) < TWO_64
  {
    Pow2Word();
    ShiftRightBound(num, 64 - n, n);
    PackBound(ShiftRight(num, n), LowBits(num, n), 64 - n, n);
  }

  /** a + (b << m) fits in m + n bits when a fits in m bits and b in n bits. */
  lemma {:induction false} PackBound(a: nat, b: nat, m: nat, n: nat)
    requires a < Pow2(m) && b < Pow2(n)
    ensures a + ShiftLeft(b, m) < Pow2(m + n)
  {
    if m > 0 {
      assert Pow2(m) == 2 * Pow2(m - 1);
      assert Pow2(m + n) == 2 * Pow2(m - 1 + n);
      PackBound(a / 2, b, m - 1, n);
    }
  }

  /** Rotating right by n moves bit (k + n) mod 64 to position k. */
  lemma RotateBit(num: U64, n: nat, k: nat)
    requires n < 64 && k < 64
    ensures Bit(RotateR64(num, n), k) == Bit(num, (k + n) % 64)
  {
    RotateBound(num, n);
    PartsBit(num, n, k, ShiftRight(num, n), LowBits(num, n));
  }

  /** The bits of the two operands of rotate_r64's `|`. */
  lemma PartsBit(num: nat, n: nat, k: nat, a: nat, b: nat)
    requires n < 64 && k < 64 && a == ShiftRight(num, n) && b == LowBits(num, n) && a < Pow2(64 - n)
    ensures Bit(a + ShiftLeft(b, 64 - n), k) == Bit(num, (k + n) % 64)
  {
    var m := 64 - n;
    BitOfSum(a, b, m, k);
    if k < m {
      BitOfShift(num, n, k);
    } else {
      BitOfLowBits(num, n, k - m);
      assert k - m == (k + n) % 64;
    }
  }
}

=== FILE: join.dfy ===
/**
 * Join handles (src/join.c): a spawned task's handle holds one reference on
 * the task; the first poll registers the polling task as the consumer, later
 * polls copy the output out once the task is complete, and completion or
 * detaching gives the reference back.
 */
module Join {
  import opened Tasks

  /**
   * The handle's state field. The spawn path stores TACHY_NO_ERROR there,
   * which the poll compares with TACHY_FUTURE_CREATED: both are the zero
   * value, so it is Created here.
   */
  datatype JoinState = Created | Registered | Completed | OutOfMemory

  /**
   * One tachy_join_poll, given whether the task is complete when its output
   * is tried: the state after it and what it returns.
   */
  function PollJoin(s: JoinState, complete: bool): (r: (JoinState, Poll))
    ensures r.1 == Pending <==> r.0 == Registered
    ensures r.1 == Pending <==> (s == Created || s == Registered) && !complete
    ensures s == Completed || s == OutOfMemory ==> r.0 == s
  {
    match s
    case Created => if complete then (Completed, Ready) else (Registered, Pending)
    case Registered => if complete then (Completed, Ready) else (Registered, Pending)
    case Completed => (Completed, Ready)
    case OutOfMemory => (OutOfMemory, Ready)
  }

  /** A poll that returns READY leaves a handle that answers READY to every later poll, in the same state. */
  lemma ReadyIsFinal(s: JoinState, complete: bool, later: bool)
    requires PollJoin(s, complete).1 == Ready
    ensures PollJoin(PollJoin(s, complete).0, later) == (PollJoin(s, complete).0, Ready)
  {
  }

  /** The state after a run of polls, the task being complete or not at each. */
  function After(s: JoinState, completes: seq<bool>): JoinState
    decreases |completes|
  {
    if completes == [] then s else After(PollJoin(s, completes[0]).0, completes[1..])
  }

  /** How many polls of the run give the handle's reference back (each one that reaches Completed from a live state). */
  function Releases(s: JoinState, completes: seq<bool>): nat
    decreases |completes|
  {
    if completes == [] then 0
    else
      var s' := PollJoin(s, completes[0]).0;
      (if s' == Completed && s != Completed then 1 else 0) + Releases(s', completes[1..])
  }

  /** A finished or failed handle never releases anything again. */
  lemma {:induction false} NoReleaseWhenDone(s: JoinState, completes: seq<bool>)
    requires s == Completed || s == OutOfMemory
    ensures Releases(s, completes) == 0 && After(s, completes) == s
    decreases |completes|
  {
    if completes != [] {
      NoReleaseWhenDone(s, completes[1..]);
    }
  }

  /**
   * Whatever the task does, a handle gives its reference back at most once,
   * and exactly once if it ends Completed having started live.
   */
  lemma {:induction false} ReleasedAtMostOnce(s: JoinState, completes: seq<bool>)
    ensures Releases(s, completes) <= 1
    ensures (s == Created || s == Registered) ==>
      (Releases(s, completes) == 1 <==> After(s, completes) == Completed)
    decreases |completes|
  {
    if completes != [] {
      var s' := PollJoin(s, completes[0]).0;
      if s' == Completed || s' == OutOfMemory {
        NoReleaseWhenDone(s', completes[1..]);
      } else {
        ReleasedAtMostOnce(s', completes[1..]);
      }
    }
  }

  class JoinHandle {
    var task: Task?
    var state: JoinState

    /** tachy_join: takes one reference on a task; a null task gives a handle with no task. */
    constructor (t: Task?, outOfMemory: bool)
      requires t != null ==> t.refCount > 0
      modifies {t}`refCount
      ensures task == t && state == (if outOfMemory then OutOfMemory else Created)
      ensures t != null ==> t.refCount == old(t.refCount) + 1
    {
      if t != null {
        t.RefInc();
      }
      task := t;
      state := if outOfMemory then OutOfMemory else Created;
    }

    /**
     * tachy_join_detach: the task forgets its consumer, the handle's
     * reference goes back, and the handle no longer names the task.
     */
    method Detach()
      requires task != null && task.refCount > 0 && task.consumer != task
      requires task.consumer != null ==> task.consumer.refCount > 0
      modifies this`task, task`consumer, {task, task.consumer}`refCount
      ensures task == null && old(task).consumer == null
      ensures old(task).refCount == old(task.refCount) - 1
      ensures old(task.consumer) != null ==> old(task.consumer).refCount == old(task.consumer.refCount) - 1
    {
      task.RegisterConsumer(null);
      task.RefDec();
      task := null;
    }

    /**
     * tachy_join_poll, with `cur` the runtime's current task: state and
     * result follow PollJoin; the output is copied exactly when the task is
     * complete; on completion the consumer is cleared and the handle's
     * reference released; a finished or failed handle touches nothing.
     */
    method Poll(cur: Task) returns (r: Poll, copied: bool, value: int)
      requires (state == Created || state == Registered) ==>
        task != null && task.refCount > 0 && OneHot(task.state) && task != cur && task.consumer != task
      requires state == Created ==>
        cur.refCount > 0 && (task.consumer != null ==> task.consumer.refCount > (if task.consumer == cur then 1 else 0))
      requires state == Registered ==> task.consumer != null && task.consumer.refCount > 0
      modifies this`state, {task}`consumer, {task, cur}`refCount
      modifies if task != null then {task.consumer} else {}
      ensures task == old(task)
      ensures var live := old(state) == Created || old(state) == Registered;
        (state, r) == PollJoin(old(state), live && old(task.state) == COMPLETE)
      ensures copied <==> (old(state) == Created || old(state) == Registered) && old(task.state) == COMPLETE
      ensures copied ==> value == task.output && task.consumer == null && task.refCount == old(task.refCount) - 1
      ensures r == Pending && old(state) == Created ==> task.consumer == cur && task.refCount == old(task.refCount)
      ensures r == Pending && old(state) == Registered ==> task.consumer == old(task.consumer) && task.refCount == old(task.refCount)
      ensures (old(state) == Completed || old(state) == OutOfMemory) ==>
        !copied && r == Ready && (task == null || (task.consumer == old(task.consumer) && task.refCount == old(task.refCount)))
      // the references the consumer field holds: registering takes one on cur and releases the old consumer's
      ensures old(state) == Created && r == Pending ==> var c0 := old(task.consumer);
        && cur.refCount == old(cur.refCount) + (if c0 == cur then 0 else 1)
        && (c0 != null && c0 != cur ==> c0.refCount == old(c0.refCount) - 1)
      ensures old(state) == Created && copied ==> var c0 := old(task.consumer);
        && cur.refCount == old(cur.refCount) - (if c0 == cur then 1 else 0)
        && (c0 != null && c0 != cur ==> c0.refCount == old(c0.refCount) - 1)
      ensures old(state) == Registered && r == Pending ==> var c0 := old(task.consumer);
        c0.refCount == old(c0.refCount) && cur.refCount == old(cur.refCount)
      ensures old(state) == Registered && copied ==> var c0 := old(task.consumer);
        c0.refCount == old(c0.refCount) - 1 && (cur != c0 ==> cur.refCount == old(cur.refCount))
    {
      copied, value := false, 0;
      if state == Created {
        task.RegisterConsumer(cur);
        state := Registered;
      }
      if state == Registered {
        copied, value := task.TryCopyOutput();
        if !copied {
          return Pending, copied, value;
        }
        task.RegisterConsumer(null);
        state := Completed;
        task.RefDec();
      }
      r := Ready;
    }
  }
}

=== FILE: memory_defects.dfy ===
/**
 * The memory accesses of tachy_task_poll (src/task.c), tachy_sleep_cancel
 * and tachy_sleep_reset (src/sleep.c), as traces of reads, writes and frees
 * of the task and the timer entry. Each operation is given twice: as the C
 * code orders its accesses, and as it is evidently meant to. A trace is safe
 * when it never touches a null pointer and never touches an object after
 * freeing it; the lemmas say exactly which inputs make the code as written
 * unsafe and prove the corrected orders safe for all inputs.
 */
module MemoryDefects {
  import opened Sleep

  /** What an access goes through: the task, the sleep handle's entry, or a null pointer. */
  datatype Obj = TaskObj | EntryObj | NullObj

  datatype Access = Read(o: Obj) | Write(o: Obj) | Free(o: Obj)

  /** No access goes through null, and nothing is accessed (or freed again) once it is freed. */
  predicate Safe(t: seq<Access>)
  {
    && (forall i | 0 <= i < |t| :: t[i].o != NullObj)
    && (forall i, j | 0 <= i < j < |t| && t[i].Free? :: t[j].o != t[i].o)
  }

  /** How many times a trace frees `o`. */
  function FreeCount(t: seq<Access>, o: Obj): (n: nat)
    ensures n <= |t|
    ensures n == 0 <==> Free(o) !in t
    decreases |t|
  {
    if t == [] then 0 else (if t[0] == Free(o) then 1 else 0) + FreeCount(t[1..], o)
  }

  /** Appending traces appends their frees. */
  lemma {:induction false} FreeCountAppend(a: seq<Access>, b: seq<Access>, o: Obj)
    ensures FreeCount(a + b, o) == FreeCount(a, o) + FreeCount(b, o)
    decreases |a|
  {
    if a == [] {
      assert a + b == b;
    } else {
      assert (a + b)[0] == a[0] && (a + b)[1..] == a[1..] + b;
      FreeCountAppend(a[1..], b, o);
    }
  }

  /** A safe trace frees each object at most once. */
  lemma {:induction false} SafeFreesOnce(t: seq<Access>, o: Obj)
    requires Safe(t)
    ensures FreeCount(t, o) <= 1
    decreases |t|
  {
    if t != [] {
      assert Safe(t[1..]) by {
        forall i, j | 0 <= i < j < |t[1..]| && t[1..][i].Free?
          ensures t[1..][j].o != t[1..][i].o
        {
          assert t[i + 1].Free? && t[j + 1].o != t[i + 1].o;
        }
      }
      SafeFreesOnce(t[1..], o);
      if t[0] == Free(o) {
        forall k | 0 <= k < |t[1..]|
          ensures t[1..][k] != Free(o)
        {
          assert t[k + 1].o != t[0].o;
        }
      }
    }
  }

  /** Safety splits over a concatenation: each half safe, and nothing in the second half touches what the first freed. */
  lemma SafeAppend(a: seq<Access>, b: seq<Access>)
    requires Safe(a) && Safe(b)
    requires forall i, j | 0 <= i < |a| && 0 <= j < |b| && a[i].Free? :: b[j].o != a[i].o
    ensures Safe(a + b)
  {
    var t := a + b;
    forall i, j | 0 <= i < j < |t| && t[i].Free?
      ensures t[j].o != t[i].o
    {
      if j >= |a| && i < |a| {
        assert t[j] == b[j - |a|];
      }
    }
  }

  // --- tachy_task_poll (src/task.c) ---

  /** tachy_task_ref_dec: the count is read and written, and the task freed when that was the last reference. */
  function RefDecAccesses(last: bool): (t: seq<Access>)
    ensures FreeCount(t, TaskObj) == (if last then 1 else 0)
  {
    [Read(TaskObj), Write(TaskObj)] + (if last then [Free(TaskObj)] else [])
  }

  /**
   * tachy_task_poll as written: the state moves to running, the future is
   * polled, the state moves on (a finished task releasing the runtime's
   * reference), and only then is task->consumer read for the result.
   */
  function PollAccessesAsWritten(ready: bool, last: bool): seq<Access>
  {
    [Write(TaskObj), Read(TaskObj)]
    + (if ready then [Write(TaskObj)] + RefDecAccesses(last) else [Write(TaskObj)])
    + [Read(TaskObj)]
  }

  /**
   * The poll as written is unsafe exactly when the future finishes and its
   * task holds no reference besides the runtime's: the consumer is then read
   * from freed memory (block_on's root task, which nobody joins, is one).
   */
  lemma PollAsWrittenUnsafe(ready: bool, last: bool)
    ensures Safe(PollAccessesAsWritten(ready, last)) <==> !(ready && last)
  {
    var t := PollAccessesAsWritten(ready, last);
    if ready && last {
      assert t[5] == Free(TaskObj) && t[6] == Read(TaskObj);
    } else if ready {
      assert t == [Write(TaskObj), Read(TaskObj), Write(TaskObj), Read(TaskObj), Write(TaskObj), Read(TaskObj)];
    } else {
      assert t == [Write(TaskObj), Read(TaskObj), Write(TaskObj), Read(TaskObj)];
    }
  }

  /** tachy_task_poll as meant (and as Tasks.Task.Poll does it): the consumer is read before the reference is released. */
  function PollAccesses(ready: bool, last: bool): seq<Access>
  {
    [Write(TaskObj), Read(TaskObj), Read(TaskObj)]
    + (if ready then [Write(TaskObj)] + RefDecAccesses(last) else [Write(TaskObj)])
  }

  /** The corrected poll is safe whatever the future returns and whatever the count. */
  lemma PollAccessesSafe(ready: bool, last: bool)
    ensures Safe(PollAccesses(ready, last))
  {
    var t := PollAccesses(ready, last);
    if ready && last {
      assert t == [Write(TaskObj), Read(TaskObj), Read(TaskObj), Write(TaskObj), Read(TaskObj), Write(TaskObj), Free(TaskObj)];
    } else if ready {
      assert t == [Write(TaskObj), Read(TaskObj), Read(TaskObj), Write(TaskObj), Read(TaskObj), Write(TaskObj)];
    } else {
      assert t == [Write(TaskObj), Read(TaskObj), Read(TaskObj), Write(TaskObj)];
    }
  }

  /** The corrected poll frees the task exactly when the future finishes on the task's last reference. */
  lemma PollFreesOnLastReference(ready: bool, last: bool)
    ensures FreeCount(PollAccesses(ready, last), TaskObj) == (if ready && last then 1 else 0)
  {
    var head := [Write(TaskObj), Read(TaskObj), Read(TaskObj)];
    var tail := if ready then [Write(TaskObj)] + RefDecAccesses(last) else [Write(TaskObj)];
    FreeCountAppend(head, tail, TaskObj);
    if ready {
      FreeCountAppend([Write(TaskObj)], RefDecAccesses(last), TaskObj);
    }
  }

  // --- tachy_sleep_cancel and tachy_sleep_reset (src/sleep.c) ---

  /** The pointer a handle in state `s` holds: none after an allocation failure. */
  function EntryOf(s: SleepState): (o: Obj)
    ensures o == NullObj <==> s == OutOfMemory
  {
    if s == OutOfMemory then NullObj else EntryObj
  }

  /**
   * time_entry_free on `o`: entry->task is read (to drop the task's
   * reference, which is not part of the trace) and the entry freed.
   */
  function EntryFreeAccesses(o: Obj): (t: seq<Access>)
    ensures FreeCount(t, o) == 1
  {
    [Read(o), Free(o)]
  }

  /** The unlinking in time_remove_timeout: the tag is read, and an entry that has not fired is taken off its list. */
  function UnlinkAccesses(fired: bool): (t: seq<Access>)
    ensures Safe(t) && forall i | 0 <= i < |t| :: !t[i].Free?
  {
    [Read(EntryObj)] + (if fired then [] else [Read(EntryObj), Write(EntryObj)])
  }

  /** time_remove_timeout: the unlinking, then time_entry_free in either branch. */
  function RemoveAccesses(fired: bool): (t: seq<Access>)
    ensures FreeCount(t, EntryObj) == 1
  {
    FreeCountAppend(UnlinkAccesses(fired), EntryFreeAccesses(EntryObj), EntryObj);
    UnlinkAccesses(fired) + EntryFreeAccesses(EntryObj)
  }

  /**
   * tachy_sleep_cancel as written: a Registered entry is removed (which
   * frees it), and then time_entry_free is called on the handle's entry
   * whatever the state.
   */
  function CancelAccessesAsWritten(s: SleepState, fired: bool): seq<Access>
  {
    (if s == Registered then RemoveAccesses(fired) else []) + EntryFreeAccesses(EntryOf(s))
  }

  /**
   * Of the states cancel accepts, only Created is cancelled safely as
   * written: a Registered entry is freed twice and a handle whose
   * allocation failed frees through a null pointer.
   */
  lemma CancelAsWrittenUnsafe(s: SleepState, fired: bool)
    requires s != Canceled && s != Completed
    ensures Safe(CancelAccessesAsWritten(s, fired)) <==> s == Created
    ensures s == Registered ==> FreeCount(CancelAccessesAsWritten(s, fired), EntryObj) == 2
  {
    var t := CancelAccessesAsWritten(s, fired);
    if s == Registered {
      var r := RemoveAccesses(fired);
      FreeCountAppend(r, EntryFreeAccesses(EntryObj), EntryObj);
      assert r[|r| - 1] == Free(EntryObj);
      assert t[|r| - 1] == r[|r| - 1] && t[|r| + 1] == Free(EntryObj);
    } else if s == OutOfMemory {
      assert t[0].o == NullObj;
    } else {
      assert t == [Read(EntryObj), Free(EntryObj)];
    }
  }

  /**
   * tachy_sleep_cancel as meant (and as Sleep.SleepHandle.Cancel does it):
   * a Registered entry is removed, which frees it; a Created one is freed; a
   * handle without an entry touches nothing.
   */
  function CancelAccesses(s: SleepState, fired: bool): seq<Access>
  {
    if s == Registered then RemoveAccesses(fired)
    else if s == Created then EntryFreeAccesses(EntryObj)
    else []
  }

  /** The corrected cancel is safe in every state it accepts and frees the entry exactly when Step says it does. */
  lemma CancelAccessesSafe(s: SleepState, fired: bool)
    requires s != Canceled && s != Completed
    ensures Safe(CancelAccesses(s, fired))
    ensures FreeCount(CancelAccesses(s, fired), EntryObj) == (if Step(s, CancelEvent).1.free then 1 else 0)
  {
    if s == Registered {
      var u := UnlinkAccesses(fired);
      SafeAppend(u, EntryFreeAccesses(EntryObj));
    } else if s == Created {
      assert CancelAccesses(s, fired) == [Read(EntryObj), Free(EntryObj)];
    }
  }

  /**
   * tachy_sleep_reset as written: a Registered entry is removed (which
   * frees it), and then the new deadline is written into the handle's
   * entry whatever the state.
   */
  function ResetAccessesAsWritten(s: SleepState, fired: bool): seq<Access>
  {
    (if s == Registered then RemoveAccesses(fired) else []) + [Write(EntryOf(s))]
  }

  /**
   * Of the states reset accepts, only Created is reset safely as written:
   * a Registered entry is written after it is freed, and a handle whose
   * allocation failed is written through a null pointer.
   */
  lemma ResetAsWrittenUnsafe(s: SleepState, fired: bool)
    requires s != Canceled && s != Completed
    ensures Safe(ResetAccessesAsWritten(s, fired)) <==> s == Created
  {
    var t := ResetAccessesAsWritten(s, fired);
    if s == Registered {
      var r := RemoveAccesses(fired);
      assert r[|r| - 1] == Free(EntryObj);
      assert t[|r| - 1] == r[|r| - 1] && t[|r|] == Write(EntryObj);
    } else if s == OutOfMemory {
      assert t[0].o == NullObj;
    } else {
      assert t == [Write(EntryObj)];
    }
  }

  /**
   * tachy_sleep_reset as meant (and as Sleep.SleepHandle.Reset does it): a
   * Registered entry is unlinked without being freed, and the deadline is
   * written only into an entry the handle holds.
   */
  function ResetAccesses(s: SleepState, fired: bool): seq<Access>
  {
    (if s == Registered then UnlinkAccesses(fired) else []) + (if Owns(s) then [Write(EntryObj)] else [])
  }

  /** The corrected reset is safe in every state it accepts and frees nothing. */
  lemma ResetAccessesSafe(s: SleepState, fired: bool)
    requires s != Canceled && s != Completed
    ensures Safe(ResetAccesses(s, fired))
    ensures FreeCount(ResetAccesses(s, fired), EntryObj) == 0
  {
    var a := if s == Registered then UnlinkAccesses(fired) else [];
    var b := if Owns(s) then [Write(EntryObj)] else [];
    SafeAppend(a, b);
    FreeCountAppend(a, b, EntryObj);
  }
}

=== FILE: runtime.dfy ===
/**
 * The runtime of src/runtime.c: a list of ready tasks, a list of deferred
 * tasks, the timer driver, the task being polled and the root task that
 * block_on waits for.
 *
 * Both lists are intrusive task lists pushed and popped at the head, so each
 * is last in, first out. A task is on at most one of them: they share the
 * task's single `next` link. The futures' poll functions are abstract steps
 * chosen by `outcome`; what a future does to the runtime while it runs (wake,
 * defer, spawn) is what the other methods of this class model.
 */
module Runtime {
  import opened Tasks
  import TaskList
  import opened Bits
  import opened TimeEntries
  import TimeDriver
  import WheelModel
  import opened Join

  /**
   * What a run of rt_wake_task calls on the tasks `ts`, in order, pushes on
   * the ready list, the last pushed first: a task of `waking` is pushed by
   * its first wake only, since that wake makes it Runnable.
   */
  function Pushed(ts: seq<Task>, waking: set<Task>): (r: seq<Task>)
    ensures |r| <= |ts|
    decreases |ts|
  {
    if ts == [] then [] else Pushed(ts[1..], waking - {ts[0]}) + (if ts[0] in waking then [ts[0]] else [])
  }

  /** What a run of wakes pushes is exactly the woken tasks that are in `waking`, each once. */
  lemma {:induction false} PushedMembers(ts: seq<Task>, waking: set<Task>)
    ensures forall t | t in Pushed(ts, waking) :: t in ts && t in waking
    ensures forall t | t in ts && t in waking :: t in Pushed(ts, waking)
    ensures forall i, j | 0 <= i < j < |Pushed(ts, waking)| :: Pushed(ts, waking)[i] != Pushed(ts, waking)[j]
    decreases |ts|
  {
    if ts != [] {
      PushedMembers(ts[1..], waking - {ts[0]});
      assert ts == [ts[0]] + ts[1..];
    }
  }

  /** Waking one more task puts it, if this wake pushes it, in front of those pushed before. */
  lemma {:induction false} PushedSnoc(ts: seq<Task>, t: Task, waking: set<Task>)
    ensures Pushed(ts + [t], waking) == (if t in waking && t !in ts then [t] else []) + Pushed(ts, waking)
    decreases |ts|
  {
    if ts != [] {
      assert (ts + [t])[1..] == ts[1..] + [t];
      PushedSnoc(ts[1..], t, waking - {ts[0]});
      assert ts == [ts[0]] + ts[1..];
    }
  }

  /** One more wake, which pushes its task exactly when `pushes`, keeps the ready list equal to what the wakes so far pushed. */
  lemma PushStep(done: seq<Task>, t: Task, waking: set<Task>, base: seq<Task>, before: seq<Task>, after: seq<Task>, pushes: bool)
    requires before == Pushed(done, waking) + base
    requires pushes <==> t in waking && t !in done
    requires after == (if pushes then [t] else []) + before
    ensures after == Pushed(done + [t], waking) + base
  {
    PushedSnoc(done, t, waking);
  }

  /** The tasks of the entries `es`, in order. */
  function TasksOf(es: seq<Entry>): (r: seq<Task>)
    ensures |r| == |es|
  {
    if es == [] then [] else [es[0].task] + TasksOf(es[1..])
  }

  /** Taking one more entry adds its task at the end. */
  lemma {:induction false} TasksOfSnoc(es: seq<Entry>, e: Entry)
    ensures TasksOf(es + [e]) == TasksOf(es) + [e.task]
  {
    if es != [] {
      assert (es + [e])[1..] == es[1..] + [e];
      TasksOfSnoc(es[1..], e);
    }
  }

  /** The task of every entry is among the tasks of the entries. */
  lemma {:induction false} TasksOfMembers(es: seq<Entry>)
    ensures forall x | x in es :: x.task in TasksOf(es)
  {
    if es != [] {
      TasksOfMembers(es[1..]);
      assert es == [es[0]] + es[1..];
    }
  }

  /**
   * The wheel after the timer phase's pop loop, time_next_pending_task until
   * it returns nothing: the pending list is empty and its entries have left
   * the wheel (each is then tagged fired); nothing else changes.
   */
  function Drained<E>(w: WheelModel.Wheel<E>): WheelModel.Wheel<E>
  {
    w.(pending := [], deadline := w.deadline - set x | x in w.pending)
  }

  /**
   * What one poll leaves behind in a task whose future took `step`: Waiting
   * with its references as they were, or Complete, its output written and
   * the task's own reference released.
   */
  ghost predicate Ran(t: Task, step: Step, refCount: int)
    reads t`state, t`refCount, t`output
  {
    if step.Suspend? then t.state == WAITING && t.refCount == refCount
    else t.state == COMPLETE && t.refCount == refCount - 1 && t.output == step.value
  }

  /** The tasks of `ts` that are Waiting and are not `root`: the ones a wake puts on the ready list. */
  ghost function Sleepers(ts: set<Task>, root: Task?): set<Task>
    reads ts
  {
    set t | t in ts && t.state == WAITING && t != root
  }

  /**
   * The wheel's side of the timer phase part way through: `w1` was the
   * wheel after time_process_at, all of whose pending entries are among
   * `keys`; the entries of `fired` have been taken, `e` (if any) has just
   * been, and `w` still holds the rest on its pending list.
   */
  ghost predicate Fired(w: WheelModel.Wheel<Entry>, e: WheelModel.Option<Entry>, keys: set<Entry>, w1: WheelModel.Wheel<Entry>, fired: seq<Entry>)
  {
    var taken := fired + (if e.Some? then [e.value] else []);
    && (forall x | x in w1.pending :: x in keys)
    && w1.pending == taken + w.pending
    && w == w1.(pending := w.pending, deadline := w1.deadline - set x | x in taken)
  }

  /** Taking the next pending entry keeps the timer phase's bookkeeping. */
  lemma FiredPop(w: WheelModel.Wheel<Entry>, keys: set<Entry>, w1: WheelModel.Wheel<Entry>, fired: seq<Entry>)
    requires Fired(w, WheelModel.None, keys, w1, fired)
    ensures Fired(WheelModel.NextPending(w).0, WheelModel.NextPending(w).1, keys, w1, fired)
    ensures WheelModel.NextPending(w).1.None? ==> w.pending == [] && w == Drained(w1)
    ensures |WheelModel.NextPending(w).0.pending| + (if WheelModel.NextPending(w).1.Some? then 1 else 0) == |w.pending|
  {
    if w.pending != [] {
      var e := w.pending[0];
      assert w.pending == [e] + w.pending[1..];
      assert (set x | x in fired + [e]) == (set x | x in fired) + {e};
      assert w1.pending == (fired + [e]) + w.pending[1..];
    } else {
      assert fired == w1.pending;
    }
  }

  /** Before the first pop, nothing has been taken from the wheel time_process_at left. */
  lemma StartFired(w1: WheelModel.Wheel<Entry>, keys: set<Entry>)
    requires forall x | x in w1.pending :: x in keys
    ensures Fired(w1, WheelModel.None, keys, w1, [])
  {
    assert (set x: Entry | x in []) == {};
    assert w1.deadline - {} == w1.deadline;
  }

  /**
   * The wheel after time_process_at at `now` moves the expired entries to
   * the pending list (a wheel that is not well formed is left as it is).
   */
  ghost function Expired(w0: WheelModel.Wheel<Entry>, now: U64): WheelModel.Wheel<Entry>
  {
    if WheelModel.WF(w0) then WheelModel.ProcessAt(w0, now, WheelModel.ToPending) else w0
  }

  /** Every entry time_process_at leaves pending was in the wheel before. */
  lemma PendingWasHeld(w0: WheelModel.Wheel<Entry>, now: U64)
    ensures WheelModel.WF(w0) ==> forall x | x in Expired(w0, now).pending :: x in w0.deadline
  {
    if WheelModel.WF(w0) {
      var w1 := WheelModel.ProcessAt(w0, now, WheelModel.ToPending);
      WheelModel.ProcessAtMoves(w0, now, 1, WheelModel.ToPending);
      assert WheelModel.Tagged(w1);
    }
  }

  /** The time driver as the runtime struct starts it: well formed, holding no entry, at time zero. */
  method NewTimers() returns (d: TimeDriver.Driver<Entry>)
    ensures fresh(d) && d.Valid() && d.deadline == map[] && d.pending == [] && d.woken == [] && d.elapsed == 0
  {
    d := new TimeDriver.Driver();
  }

  class Runtime {
    const ready: TaskList.TaskList
    const deferred: TaskList.TaskList
    const timers: TimeDriver.Driver<Entry>
    var curTask: Task?
    var blockedTask: Task?

    /**
     * Both lists are well linked and apart; a ready task is Runnable, alive,
     * not the root task and not deferred.
     */
    ghost predicate Valid()
      reads this, ready, deferred, ready.Items`next, ready.Items`state, ready.Items`refCount, deferred.Items`next
    {
      && ready.Valid() && deferred.Valid() && ready != deferred
      && (forall t | t in ready.Items :: t.state == RUNNABLE && t.refCount > 0 && t != blockedTask && t !in deferred.Items)
    }

    /** A task rt_wake_task may be given: Runnable or Waiting, and alive. */
    ghost predicate Wakeable(t: Task)
      reads t`state, t`refCount
    {
      (t.state == RUNNABLE || t.state == WAITING) && t.refCount > 0
    }

    /** The zero-initialised runtime struct. */
    constructor ()
      ensures Valid() && ready.Items == [] && deferred.Items == []
      ensures curTask == null && blockedTask == null
      ensures timers.Valid() && timers.deadline == map[] && timers.pending == [] && timers.woken == [] && timers.elapsed == 0
    {
      var d := NewTimers();
      timers := d;
      ready := new TaskList.TaskList();
      deferred := new TaskList.TaskList();
      curTask, blockedTask := null, null;
    }

    /** rt_cur_task: there must be a current task. */
    method CurTask() returns (t: Task)
      requires curTask != null
      ensures t == curTask
    {
      t := curTask;
    }

    /**
     * rt_wake_task: a Runnable task is left alone; a Waiting one becomes
     * Runnable and goes on the ready list unless it is the root task.
     */
    method Wake(t: Task)
      requires Valid() && Wakeable(t) && t !in deferred.Items
      modifies ready, t`state, t`next
      ensures Valid() && t.state == RUNNABLE && deferred.Items == old(deferred.Items)
      ensures old(t.state) == RUNNABLE ==> ready.Items == old(ready.Items) && t.next == old(t.next)
      ensures old(t.state) == WAITING ==>
        ready.Items == (if t != blockedTask then [t] + old(ready.Items) else old(ready.Items))
    {
      var runnable := t.Runnable();
      if runnable {
        return;
      }
      t.MakeRunnable();
      if t != blockedTask {
        ready.Push(t);
      }
    }

    /** rt_defer_task: the task goes on the deferred list; its state is not touched. */
    method Defer(t: Task)
      requires Valid() && t !in deferred.Items && t !in ready.Items
      modifies deferred, t`next
      ensures Valid() && deferred.Items == [t] + old(deferred.Items) && ready.Items == old(ready.Items)
    {
      deferred.Push(t);
    }

    /**
     * tachy__spawn: a failed allocation gives a handle with no task and the
     * out-of-memory state, the ready list untouched; otherwise the new task
     * heads the ready list and the handle holds a second reference on it.
     */
    method Spawn(obtained: bool, futureSize: nat, outputSize: nat) returns (h: JoinHandle)
      requires Valid() && futureSize > 0
      modifies ready
      ensures Valid() && fresh(h) && deferred.Items == old(deferred.Items)
      ensures !obtained ==> h.task == null && h.state == OutOfMemory && ready.Items == old(ready.Items)
      ensures obtained ==>
        && h.task != null && fresh(h.task) && h.state == Created
        && h.task.refCount == 2 && h.task.state == RUNNABLE
        && ready.Items == [h.task] + old(ready.Items)
    {
      var t := NewTask(obtained, futureSize, outputSize);
      if t == null {
        h := new JoinHandle(null, true);
        return;
      }
      ready.Push(t);
      h := new JoinHandle(t, false);
    }

    /**
     * The root task's turn in block_on: if it is Runnable it becomes the
     * current task and is polled; a READY result ends block_on, clearing
     * the root and current tasks.
     */
    method PollRoot(step: Step) returns (done: bool)
      requires Valid() && blockedTask != null && OneHot(blockedTask.state) && blockedTask.refCount > 0
      modifies this`curTask, this`blockedTask, blockedTask`state, blockedTask`refCount, blockedTask`output
      ensures Valid() && ready.Items == old(ready.Items) && deferred.Items == old(deferred.Items)
      ensures done <==> old(blockedTask.state) == RUNNABLE && step.Finish?
      ensures done ==> blockedTask == null && curTask == null && old(blockedTask).state == COMPLETE
      ensures !done ==> blockedTask == old(blockedTask)
      ensures old(blockedTask.state) == RUNNABLE && !done ==> curTask == blockedTask && blockedTask.state == WAITING
      ensures old(blockedTask.state) != RUNNABLE ==> curTask == old(curTask) && blockedTask.state == old(blockedTask.state)
    {
      var runnable := blockedTask.Runnable();
      done := false;
      if runnable {
        curTask := blockedTask;
        var r, _ := curTask.Poll(step);
        if r == Ready {
          blockedTask := null;
          curTask := null;
          done := true;
        }
      }
    }

    /**
     * Part way through the ready phase: `all` was the ready list, the tasks
     * of `done` have been polled, `cur` (if any) is about to be and the rest
     * are still on the list; `refs` holds each task's count from the start.
     */
    ghost predicate Draining(cur: Task?, outcome: Task -> Step, all: seq<Task>, done: seq<Task>, refs: map<Task, int>)
      reads this, ready, deferred, ready.Items`next, ready.Items`state, ready.Items`refCount, deferred.Items`next
      reads done`state, done`refCount, done`output, {cur}`state, {cur}`refCount
    {
      var holds :=
        && Valid() && all == done + (if cur == null then [] else [cur]) + ready.Items
        && (cur != null ==>
             && cur.state == RUNNABLE && cur.refCount > 0 && cur in refs && cur.refCount == refs[cur]
             && cur !in ready.Items && cur !in deferred.Items && cur !in done)
        && (forall t | t in ready.Items :: t !in done && t in refs && t.refCount == refs[t])
        && (forall t | t in done :: t in refs && Ran(t, outcome(t), refs[t]));
      holds
    }

    /** A turn of the ready phase: the current task is polled, its future taking its step. */
    method PollStep(outcome: Task -> Step, ghost all: seq<Task>, ghost done: seq<Task>, ghost refs: map<Task, int>)
      returns (ghost done': seq<Task>)
      requires curTask != null && Draining(curTask, outcome, all, done, refs)
      modifies curTask`state, curTask`refCount, curTask`output
      ensures Draining(null, outcome, all, done', refs)
    {
      var _, _ := curTask.Poll(outcome(curTask));
      done' := done + [curTask];
    }

    /** The ready phase's next pop: the head of the ready list becomes the current task. */
    method PopReady(outcome: Task -> Step, ghost all: seq<Task>, ghost done: seq<Task>, ghost refs: map<Task, int>)
      requires Draining(null, outcome, all, done, refs)
      modifies this`curTask, ready
      ensures Draining(curTask, outcome, all, done, refs) && (curTask == null ==> ready.Items == [])
      ensures deferred.Items == old(deferred.Items) && (curTask != null ==> curTask in all)
      ensures |ready.Items| + (if curTask == null then 0 else 1) == |old(ready.Items)|
    {
      curTask := ready.Pop();
      assert curTask != null ==> old(ready.Items) == [curTask] + ready.Items;
    }

    /** One pass of the ready phase's loop: poll the current task, pop the next. */
    method DrainStep(outcome: Task -> Step, ghost all: seq<Task>, ghost done: seq<Task>, ghost refs: map<Task, int>)
      returns (ghost done': seq<Task>)
      requires curTask != null && Draining(curTask, outcome, all, done, refs)
      modifies this`curTask, ready, curTask`state, curTask`refCount, curTask`output
      ensures Draining(curTask, outcome, all, done', refs) && (curTask == null ==> ready.Items == [])
      ensures deferred.Items == old(deferred.Items) && (curTask != null ==> curTask in all)
      ensures |ready.Items| + (if curTask == null then 0 else 1) < |old(ready.Items)| + 1
    {
      done' := PollStep(outcome, all, done, refs);
      PopReady(outcome, all, done', refs);
    }

    /** The reference count of each task of `ts`, as it stands. */
    ghost method CountRefs(ts: seq<Task>) returns (refs: map<Task, int>)
      ensures forall t | t in ts :: t in refs && refs[t] == t.refCount
    {
      refs := map[];
      var i := 0;
      while i < |ts|
        invariant 0 <= i <= |ts|
        invariant forall j | 0 <= j < i :: ts[j] in refs && refs[ts[j]] == ts[j].refCount
      {
        refs := refs[ts[i] := ts[i].refCount];
        i := i + 1;
      }
    }

    /**
     * block_on's ready phase: every ready task is popped, made current and
     * polled once, until the list is empty; a task whose future suspends is
     * left Waiting, one whose future finishes is Complete with one reference
     * released.
     */
    method DrainReady(outcome: Task -> Step)
      requires Valid()
      modifies this`curTask, ready, ready.Items`state, ready.Items`refCount, ready.Items`output
      ensures Valid() && ready.Items == [] && curTask == null && deferred.Items == old(deferred.Items)
      ensures forall t | t in old(ready.Items) :: Ran(t, outcome(t), old(t.refCount))
    {
      ghost var all := ready.Items;
      ghost var refs := CountRefs(all);
      PopReady(outcome, all, [], refs);
      RunReady(outcome, all, refs);
    }

    /** The ready phase's loop: poll the current task and pop the next, until the list is empty. */
    method RunReady(outcome: Task -> Step, ghost all: seq<Task>, ghost refs: map<Task, int>)
      requires Draining(curTask, outcome, all, [], refs) && (curTask == null ==> ready.Items == [])
      requires curTask != null ==> curTask in all
      modifies this`curTask, ready, all`state, all`refCount, all`output
      ensures Draining(null, outcome, all, all, refs) && ready.Items == [] && curTask == null
      ensures deferred.Items == old(deferred.Items)
    {
      ghost var done: seq<Task> := [];
      while curTask != null
        invariant Draining(curTask, outcome, all, done, refs) && (curTask == null ==> ready.Items == [])
        invariant deferred.Items == old(deferred.Items) && (curTask != null ==> curTask in all)
        decreases |ready.Items| + (if curTask == null then 0 else 1)
      {
        done := DrainStep(outcome, all, done, refs);
      }
      assert all == done;
    }

    /**
     * Part way through the deferred phase: `all` was the deferred list, the
     * tasks of `done` have been woken, `t` (if any) is about to be and the
     * rest are still deferred; `waking` holds the tasks that were Waiting
     * and are not the root task.
     */
    ghost predicate Waking(t: Task?, all: seq<Task>, done: seq<Task>, waking: set<Task>)
      reads this, ready, deferred, ready.Items`next, ready.Items`state, ready.Items`refCount, deferred.Items`next
      reads deferred.Items`state, deferred.Items`refCount, done`state, {t}`state, {t}`refCount
    {
      var holds :=
        && Valid() && all == done + (if t == null then [] else [t]) + deferred.Items
        && (t != null ==> Wakeable(t) && t !in deferred.Items && t !in done && (t.state == WAITING && t != blockedTask <==> t in waking))
        && (forall x | x in deferred.Items :: Wakeable(x) && x !in done && (x.state == WAITING && x != blockedTask <==> x in waking))
        && (forall x | x in done :: x.state == RUNNABLE);
      holds
    }

    /** A turn of the deferred phase: the popped task is woken. */
    method WakeStep(t: Task, ghost all: seq<Task>, ghost done: seq<Task>, ghost waking: set<Task>)
      returns (ghost done': seq<Task>)
      requires Waking(t, all, done, waking)
      modifies ready, t`state, t`next
      ensures Waking(null, all, done', waking) && done' == done + [t]
      ensures ready.Items == (if t in waking then [t] else []) + old(ready.Items)
    {
      Wake(t);
      done' := done + [t];
    }

    /** The deferred phase's next pop. */
    method PopDeferred(ghost all: seq<Task>, ghost done: seq<Task>, ghost waking: set<Task>)
      returns (t: Task?)
      requires Waking(null, all, done, waking)
      modifies deferred
      ensures Waking(t, all, done, waking) && (t == null ==> deferred.Items == [])
      ensures ready.Items == old(ready.Items)
      ensures |deferred.Items| + (if t == null then 0 else 1) == |old(deferred.Items)|
    {
      t := deferred.Pop();
      assert t != null ==> old(deferred.Items) == [t] + deferred.Items;
    }

    /**
     * block_on's deferred phase: every deferred task is popped and woken,
     * until the list is empty. Each ends Runnable, and the ones that were
     * Waiting (other than the root task) are now on the ready list, the
     * last popped first.
     */
    method DrainDeferred()
      requires Valid()
      requires forall t | t in deferred.Items :: Wakeable(t)
      modifies ready, deferred, deferred.Items
      ensures Valid() && deferred.Items == []
      ensures forall t | t in old(deferred.Items) :: t.state == RUNNABLE
      ensures ready.Items == Pushed(old(deferred.Items), old(Sleepers((set t | t in deferred.Items), blockedTask))) + old(ready.Items)
    {
      ghost var all := deferred.Items;
      ghost var waking := Sleepers((set t | t in deferred.Items), blockedTask);
      assert Waking(null, all, [], waking);
      WakeDeferred(all, waking, ready.Items);
    }

    /** The deferred phase's loop: pop and wake until the deferred list is empty. */
    method WakeDeferred(ghost all: seq<Task>, ghost waking: set<Task>, ghost base: seq<Task>)
      requires Waking(null, all, [], waking) && ready.Items == base
      modifies ready, deferred, deferred.Items`state, deferred.Items`next
      ensures Waking(null, all, all, waking) && deferred.Items == []
      ensures ready.Items == Pushed(all, waking) + base
    {
      ghost var done: seq<Task> := [];
      var t := PopDeferred(all, done, waking);
      while t != null
        invariant Waking(t, all, done, waking) && (t == null ==> deferred.Items == [])
        invariant ready.Items == Pushed(done, waking) + base
        decreases |deferred.Items| + (if t == null then 0 else 1)
      {
        assert t in all;
        ghost var before, done0 := ready.Items, done;
        done := WakeStep(t, all, done, waking);
        PushStep(done0, t, waking, base, before, ready.Items, t in waking);
        t := PopDeferred(all, done, waking);
      }
      assert all == done;
    }

    /**
     * Part way through the timer phase: `w1` was the wheel after
     * time_process_at and `keys` its entries before; the entries of `fired`
     * have had their tasks woken, `e` (if any) is about to be, and the rest
     * are still pending. `tasks` holds the tasks of all those entries.
     */
    ghost predicate Firing(e: WheelModel.Option<Entry>, keys: set<Entry>, tasks: set<Task>, w1: WheelModel.Wheel<Entry>, fired: seq<Entry>)
      reads this, ready, deferred, ready.Items`next, ready.Items`state, ready.Items`refCount, deferred.Items`next
      reads timers, timers.slots, timers.bitmap
    {
      var holds :=
        && Valid() && deferred.Items == [] && timers.Valid()
        && Fired(timers.State(), e, keys, w1, fired)
        && (e.Some? ==> e.value in keys)
        && (forall x | x in keys :: x.task in tasks);
      holds
    }

    /**
     * The tasks' side of the timer phase: every task of `tasks` may be woken,
     * those of the entries of `fired` are Runnable, and the task of an entry
     * of `pending` is Waiting (and not the root task) exactly when it is in
     * `waking` and is not among the tasks `woken` so far: `waking` holds the
     * tasks that were so when the timer phase began.
     */
    ghost predicate Asleep(tasks: set<Task>, pending: seq<Entry>, fired: seq<Entry>, woken: seq<Task>, waking: set<Task>)
      reads this, tasks`state, tasks`refCount
    {
      var holds :=
        && (forall t | t in tasks :: Wakeable(t))
        && (forall x | x in fired && x.task in tasks :: x.task.state == RUNNABLE)
        && (forall x {:trigger x in pending} | x in pending && x.task in tasks ::
              (x.task.state == WAITING && x.task != blockedTask) <==> (x.task in waking && x.task !in woken));
      holds
    }

    /**
     * rt_wake_task on the task of the pending entry `e`: it is pushed exactly
     * when it is among `waking` and was not woken before.
     */
    method WakeEntry(e: Entry, ghost tasks: set<Task>, ghost pending: seq<Entry>, ghost fired: seq<Entry>, ghost woken: seq<Task>,
                     ghost waking: set<Task>)
      requires Valid() && deferred.Items == [] && e in pending && e.task in tasks
      requires Asleep(tasks, pending, fired, woken, waking)
      modifies ready, e.task`state, e.task`next
      ensures Valid() && deferred.Items == []
      ensures Asleep(tasks, pending, fired + [e], woken + [e.task], waking)
      ensures ready.Items == (if e.task in waking && e.task !in woken then [e.task] else []) + old(ready.Items)
    {
      Wake(e.task);
      forall x | x in pending && x.task in tasks
        ensures (x.task.state == WAITING && x.task != blockedTask) <==> (x.task in waking && x.task !in woken + [e.task])
      {
        if x.task != e.task {
          assert x.task.state == old(x.task.state);
        }
      }
    }

    /** A turn of the timer phase: the task of the entry just taken is woken. */
    method WakeFired(e: Entry, ghost keys: set<Entry>, ghost tasks: set<Task>, ghost w1: WheelModel.Wheel<Entry>, ghost fired: seq<Entry>,
                     ghost woken: seq<Task>, ghost waking: set<Task>)
      returns (ghost fired': seq<Entry>)
      requires Firing(WheelModel.Some(e), keys, tasks, w1, fired) && Asleep(tasks, w1.pending, fired, woken, waking)
      modifies ready, e.task`state, e.task`next
      ensures Firing(WheelModel.None, keys, tasks, w1, fired') && Asleep(tasks, w1.pending, fired', woken + [e.task], waking) && fired' == fired + [e]
      ensures ready.Items == (if e.task in waking && e.task !in woken then [e.task] else []) + old(ready.Items)
    {
      assert e in w1.pending;
      WakeEntry(e, tasks, w1.pending, fired, woken, waking);
      fired' := fired + [e];
      assert w1.pending == fired' + timers.pending;
    }

    /** The timer phase's next time_next_pending_task. */
    method PopFired(ghost keys: set<Entry>, ghost tasks: set<Task>, ghost w1: WheelModel.Wheel<Entry>, ghost fired: seq<Entry>)
      returns (next: WheelModel.Option<Entry>)
      requires Firing(WheelModel.None, keys, tasks, w1, fired)
      modifies timers
      ensures Firing(next, keys, tasks, w1, fired) && (next.None? ==> timers.State() == Drained(w1))
      ensures |timers.pending| + (if next.Some? then 1 else 0) == |old(timers.pending)|
    {
      FiredPop(timers.State(), keys, w1, fired);
      next := timers.NextPendingTask();
    }

    /** One turn of the timer phase's loop: the entry's task is woken and the next entry taken. */
    method FireStep(e: Entry, ghost keys: set<Entry>, ghost tasks: set<Task>, ghost w1: WheelModel.Wheel<Entry>, ghost fired: seq<Entry>,
                    ghost woken: seq<Task>, ghost waking: set<Task>)
      returns (next: WheelModel.Option<Entry>, ghost fired': seq<Entry>)
      requires Firing(WheelModel.Some(e), keys, tasks, w1, fired) && Asleep(tasks, w1.pending, fired, woken, waking)
      modifies timers, ready, e.task`state, e.task`next
      ensures Firing(next, keys, tasks, w1, fired') && Asleep(tasks, w1.pending, fired', woken + [e.task], waking)
      ensures next.None? ==> timers.State() == Drained(w1)
      ensures |timers.pending| + (if next.Some? then 1 else 0) < |old(timers.pending)| + 1
      ensures fired' == fired + [e]
      ensures ready.Items == (if e.task in waking && e.task !in woken then [e.task] else []) + old(ready.Items)
    {
      fired' := WakeFired(e, keys, tasks, w1, fired, woken, waking);
      next := PopFired(keys, tasks, w1, fired');
    }

    /** time_process_at in the timer phase, expired entries going to the pending list. */
    method ProcessTimers(now: U64, ghost keys: set<Entry>, ghost tasks: set<Task>) returns (ghost w1: WheelModel.Wheel<Entry>)
      requires timers.Valid() && keys == timers.deadline.Keys
      modifies timers, timers.slots, timers.bitmap
      ensures w1 == timers.State() && timers.Valid() && Fired(w1, WheelModel.None, keys, w1, [])
      ensures forall n | n == now :: w1 == Expired(old(timers.State()), n)
    {
      PendingWasHeld(timers.State(), now);
      timers.ProcessAt(now, WheelModel.ToPending);
      w1 := timers.State();
      StartFired(w1, keys);
    }

    /** time_process_at at `now`, and the timer phase's bookkeeping before the first pop. */
    method StartFiring(now: U64, ghost tasks: set<Task>)
      returns (ghost keys: set<Entry>, ghost w1: WheelModel.Wheel<Entry>, ghost waking: set<Task>)
      requires Valid() && deferred.Items == [] && timers.Valid()
      requires (forall e | e in timers.deadline :: e.task in tasks) && (forall t | t in tasks :: Wakeable(t))
      modifies timers, timers.slots, timers.bitmap
      ensures Firing(WheelModel.None, keys, tasks, w1, []) && Asleep(tasks, w1.pending, [], [], waking)
      ensures forall n | n == now :: w1 == Expired(old(timers.State()), n)
      ensures waking == old(Sleepers(tasks, blockedTask))
    {
      keys := timers.deadline.Keys;
      waking := Sleepers(tasks, blockedTask);
      assert Asleep(tasks, [], [], [], waking);
      w1 := ProcessTimers(now, keys, tasks);
    }

    /**
     * The loop over time_next_pending_task: every entry left pending is
     * taken in turn and its task woken, until the pending list is empty.
     * The ready list ends with the tasks pushed on top of `base`.
     */
    method FirePending(ghost keys: set<Entry>, ghost tasks: set<Task>, ghost w1: WheelModel.Wheel<Entry>,
                       ghost waking: set<Task>, ghost base: seq<Task>)
      returns (ghost fired: seq<Entry>)
      requires Firing(WheelModel.None, keys, tasks, w1, []) && Asleep(tasks, w1.pending, [], [], waking) && ready.Items == base
      modifies timers, ready, tasks`state, tasks`next
      ensures Firing(WheelModel.None, keys, tasks, w1, fired) && timers.State() == Drained(w1)
      ensures ready.Items == Pushed(TasksOf(fired), waking) + base
      ensures forall x | x in fired :: x.task.state == RUNNABLE
    {
      fired := [];
      ghost var woken: seq<Task> := [];
      var e := PopFired(keys, tasks, w1, fired);
      while e.Some?
        invariant Firing(e, keys, tasks, w1, fired) && Asleep(tasks, w1.pending, fired, woken, waking)
        invariant e.None? ==> timers.State() == Drained(w1)
        invariant woken == TasksOf(fired) && ready.Items == Pushed(woken, waking) + base
        decreases |timers.pending| + (if e.Some? then 1 else 0)
      {
        ghost var before, fired0, t := ready.Items, fired, e.value.task;
        TasksOfSnoc(fired, e.value);
        e, fired := FireStep(e.value, keys, tasks, w1, fired, woken, waking);
        PushStep(woken, t, waking, base, before, ready.Items, t in waking && t !in woken);
        woken := woken + [t];
      }
    }

    /**
     * The timer phase of block_on at time `now`: time_process_at, then
     * time_next_pending_task until it returns nothing, waking the task of
     * each entry it returns. `tasks` holds the tasks of the entries in the
     * wheel. The deferred list is empty here, as block_on drains it first.
     * `expired` is the wheel time_process_at leaves, its expired entries on
     * the pending list; the wheel ends with that list drained. Each task of
     * an expired entry ends Runnable, and the ones that were
     * Waiting (other than the root task) are pushed on the ready list once
     * each, in the order of their first entries, the last pushed first.
     * No reference count changes.
     */
    method FireTimers(now: U64, ghost tasks: set<Task>) returns (ghost expired: WheelModel.Wheel<Entry>)
      requires Valid() && deferred.Items == [] && timers.Valid()
      requires (forall e | e in timers.deadline :: e.task in tasks) && (forall t | t in tasks :: Wakeable(t))
      modifies timers, timers.slots, timers.bitmap, ready, tasks`state, tasks`next
      ensures forall n | n == now :: expired == Expired(old(timers.State()), n)
      ensures Valid() && timers.Valid() && deferred.Items == [] && timers.State() == Drained(expired)
      ensures forall e | e in expired.pending :: e.task.state == RUNNABLE
      ensures ready.Items == Pushed(TasksOf(expired.pending), old(Sleepers(tasks, blockedTask))) + old(ready.Items)
      ensures forall t | t in tasks :: t.refCount == old(t.refCount)
    {
      ghost var keys, waking;
      keys, expired, waking := StartFiring(now, tasks);
      ghost var fired := FirePending(keys, tasks, expired, waking, ready.Items);
      assert expired.pending == fired;
    }
  }
}

=== FILE: sleep.dfy ===
/**
 * Sleep handles (src/sleep.c): a handle owns one timer entry for the
 * current task. The first poll inserts the entry into the wheel, later polls
 * wait for it to fire, and cancel and reset take it out again.
 *
 * The entry has fired exactly when the wheel no longer holds it: the wheel
 * forgets an entry when it tags it fired, either at insertion (its deadline
 * has passed) or when time_next_pending_task hands it out.
 */
module Sleep {
  import opened Bits
  import opened Tasks
  import opened TimeEntries
  import TimeDriver
  import WheelModel
  import opened WheelMath

  /** The handle's state field; OutOfMemory is TACHY_OUT_OF_MEMORY_ERROR. */
  datatype SleepState = Created | Registered | Completed | Canceled | OutOfMemory

  /** An operation on a handle: a poll (with whether the entry is fired when it is checked), cancel or reset. */
  datatype Event = PollEvent(fired: bool) | CancelEvent | ResetEvent

  /** What an operation does to the entry: insert it into the wheel, take it out, free it. */
  datatype Effect = Effect(insert: bool, remove: bool, free: bool)

  /** The entry is allocated and still the handle's: it has been neither freed nor given up. */
  predicate Owns(s: SleepState)
  {
    s == Created || s == Registered
  }

  /** The assertions at the top of each operation: nothing after cancel, no cancel or reset once completed. */
  predicate Permitted(s: SleepState, ev: Event)
  {
    s != Canceled && (ev.PollEvent? || s != Completed)
  }

  /**
   * tachy_sleep_poll, given whether the entry is fired when it is checked:
   * the state after it and what it returns.
   */
  function PollSleep(s: SleepState, fired: bool): (r: (SleepState, Poll))
    requires s != Canceled
    ensures r.1 == Pending <==> r.0 == Registered
    ensures r.1 == Pending <==> Owns(s) && !fired
    ensures r.1 == Ready && Owns(s) ==> r.0 == Completed
    ensures !Owns(s) ==> r == (s, Ready)
  {
    match s
    case Created => if fired then (Completed, Ready) else (Registered, Pending)
    case Registered => if fired then (Completed, Ready) else (Registered, Pending)
    case Completed => (Completed, Ready)
    case OutOfMemory => (OutOfMemory, Ready)
  }

  /**
   * One operation on a handle in state `s`, with cancel and reset as they
   * are meant to work (see the Findings): the new state and what happens to
   * the entry.
   */
  function Step(s: SleepState, ev: Event): (r: (SleepState, Effect))
    requires Permitted(s, ev)
    ensures r.1.insert || r.1.remove || r.1.free ==> Owns(s)
    ensures r.1.free ==> !Owns(r.0)
    ensures !Owns(s) ==> !Owns(r.0)
    ensures r.1.insert ==> s == Created
    ensures r.0 == Created ==> ev.ResetEvent? || s == Created
  {
    match ev
    case PollEvent(fired) =>
      (PollSleep(s, fired).0, Effect(s == Created, false, Owns(s) && fired))
    case CancelEvent =>
      (Canceled, Effect(false, s == Registered, Owns(s)))
    case ResetEvent =>
      (if s == Registered then Created else s, Effect(false, s == Registered, false))
  }

  /** How many times a run of operations frees the entry; the run stops at the first operation not permitted. */
  function Frees(s: SleepState, evs: seq<Event>): nat
    decreases |evs|
  {
    if evs == [] || !Permitted(s, evs[0]) then 0
    else
      var (s', e) := Step(s, evs[0]);
      (if e.free then 1 else 0) + Frees(s', evs[1..])
  }

  /** How many times a run of operations inserts the entry into the wheel. */
  function Inserts(s: SleepState, evs: seq<Event>): nat
    decreases |evs|
  {
    if evs == [] || !Permitted(s, evs[0]) then 0
    else
      var (s', e) := Step(s, evs[0]);
      (if e.insert then 1 else 0) + Inserts(s', evs[1..])
  }

  /** How many resets a run holds. */
  function Resets(evs: seq<Event>): nat
    decreases |evs|
  {
    if evs == [] then 0 else (if evs[0].ResetEvent? then 1 else 0) + Resets(evs[1..])
  }

  /** Whatever the operations, the entry is freed at most once, and never by a handle that no longer owns it. */
  lemma {:induction false} FreedAtMostOnce(s: SleepState, evs: seq<Event>)
    ensures Frees(s, evs) <= (if Owns(s) then 1 else 0)
    decreases |evs|
  {
    if evs != [] && Permitted(s, evs[0]) {
      FreedAtMostOnce(Step(s, evs[0]).0, evs[1..]);
    }
  }

  /**
   * The entry goes into the wheel once per reset at most (plus once for a
   * handle that starts Created): a Registered handle is never inserted again
   * until a reset returns it to Created.
   */
  lemma {:induction false} InsertedOncePerReset(s: SleepState, evs: seq<Event>)
    ensures Inserts(s, evs) <= (if s == Created then 1 else 0) + Resets(evs)
    decreases |evs|
  {
    if evs != [] && Permitted(s, evs[0]) {
      InsertedOncePerReset(Step(s, evs[0]).0, evs[1..]);
    }
  }

  /** A reset takes a Registered handle back to Created, so the poll after it inserts the entry again. */
  lemma ResetRearms(fired: bool)
    ensures Step(Registered, ResetEvent) == (Created, Effect(false, true, false))
    ensures Step(Created, PollEvent(fired)).1.insert
  {
  }

  /**
   * The unlinking half of time_remove_timeout: the entry leaves the wheel
   * (its slot list or the pending list) and the wheel forgets it. The free
   * that time_remove_timeout ends with is FreeEntry, called by the caller.
   */
  method Unregister(timers: TimeDriver.Driver<Entry>, e: Entry)
    requires timers.Valid()
    modifies timers, timers.slots, timers.bitmap
    ensures timers.Valid() && timers.State() == WheelModel.Remove(old(timers.State()), e) && e !in timers.deadline
  {
    timers.Remove(e);
  }

  class SleepHandle {
    var entry: Entry?
    var state: SleepState

    /**
     * tachy_sleep: an entry for the current task with the given deadline;
     * the handle is Created if it was allocated and OutOfMemory if not.
     */
    constructor (cur: Task, deadline: U64, obtained: bool)
      requires cur.refCount > 0
      modifies cur`refCount
      ensures (entry != null <==> obtained) && (state == Created <==> obtained)
      ensures !obtained ==> state == OutOfMemory && cur.refCount == old(cur.refCount)
      ensures obtained ==>
        fresh(entry) && entry.task == cur && entry.deadline == deadline && !entry.freed &&
        cur.refCount == old(cur.refCount) + 1
    {
      var e := NewEntry(cur, deadline, obtained);
      entry := e;
      state := if e != null then Created else OutOfMemory;
    }

    /**
     * tachy_sleep_poll: a Created handle inserts its entry into the wheel
     * and becomes Registered; a Registered one returns PENDING until the
     * entry has fired, then completes, frees the entry and returns READY.
     * Any other handle returns READY and touches nothing.
     */
    method Poll(timers: TimeDriver.Driver<Entry>) returns (r: Poll)
      requires state != Canceled && timers.Valid()
      requires Owns(state) ==> entry != null && !entry.freed && entry.task.refCount > 0
      requires state == Created ==> entry !in timers.deadline && entry.deadline < TIMEOUT_PENDING
      modifies this`state, timers, timers.slots, timers.bitmap
      modifies if entry != null then {entry} else {}, if entry != null then {entry.task} else {}
      ensures timers.Valid() && entry == old(entry)
      ensures (state, r) == PollSleep(old(state), Owns(old(state)) && entry !in timers.deadline)
      ensures old(state) == Created ==> timers.State() == WheelModel.Insert(old(timers.State()), entry, entry.deadline)
      ensures old(state) != Created ==> timers.State() == old(timers.State())
      ensures Owns(old(state)) ==>
        (entry.freed <==> state == Completed) &&
        entry.task.refCount == old(entry.task.refCount) - (if state == Completed then 1 else 0)
    {
      if state == Created {
        state := Registered;
        timers.Insert(entry, entry.deadline);
      }
      if state == Registered {
        var fired := entry !in timers.deadline;
        if !fired {
          return Pending;
        }
        state := Completed;
        FreeEntry(entry);
      }
      r := Ready;
    }

    /**
     * tachy_sleep_cancel, as meant: a Registered entry is taken out of the
     * wheel and freed once (time_remove_timeout frees it), a Created one is
     * freed, a handle without an entry frees nothing; the handle ends
     * Canceled without an entry. As written the Registered entry is freed a
     * second time and a missing one dereferenced (see MemoryDefects).
     */
    method Cancel(timers: TimeDriver.Driver<Entry>)
      requires state != Canceled && state != Completed && timers.Valid()
      requires Owns(state) ==> entry != null && !entry.freed && entry.task.refCount > 0
      modifies this, timers, timers.slots, timers.bitmap
      modifies if entry != null then {entry} else {}, if entry != null then {entry.task} else {}
      ensures state == Canceled && entry == null && timers.Valid()
      ensures old(state) == Registered ==> timers.State() == WheelModel.Remove(old(timers.State()), old(entry))
      ensures old(state) != Registered ==> timers.State() == old(timers.State())
      ensures Owns(old(state)) ==> old(entry).freed && old(entry).task.refCount == old(entry.task.refCount) - 1
    {
      if state == Registered {
        Unregister(timers, entry);
        FreeEntry(entry);
      } else if state == Created {
        FreeEntry(entry);
      }
      entry := null;
      state := Canceled;
    }

    /**
     * tachy_sleep_reset with the new deadline `d`, as meant: a Registered
     * entry is taken out of the wheel (and kept) and the handle returns to
     * Created, so the next poll inserts it again; the entry's deadline
     * becomes d. A handle without an entry is left alone. As written the
     * entry is freed by the removal before its deadline is written (see
     * MemoryDefects).
     */
    method Reset(timers: TimeDriver.Driver<Entry>, d: U64)
      requires state != Canceled && state != Completed && timers.Valid()
      requires Owns(state) ==> entry != null && !entry.freed
      modifies this`state, timers, timers.slots, timers.bitmap
      modifies if entry != null && Owns(state) then {entry} else {}
      ensures timers.Valid() && entry == old(entry)
      ensures state == (if old(state) == Registered then Created else old(state))
      ensures old(state) == Registered ==>
        timers.State() == WheelModel.Remove(old(timers.State()), entry) && entry !in timers.deadline
      ensures old(state) != Registered ==> timers.State() == old(timers.State())
      ensures Owns(old(state)) ==> entry.deadline == d && !entry.freed
    {
      if state == Registered {
        Unregister(timers, entry);
        state := Created;
      }
      if Owns(state) {
        entry.deadline := d;
      }
    }
  }
}

=== FILE: task_list.dfy ===
/**
 * The intrusive task list of src/task_queue.c: tasks chained through their
 * own `next` field from `head`. Push and pop both work at the head, so the
 * list is last in, first out.
 */
module TaskList {
  import opened Tasks

  class TaskList {
    var head: Task?
    /** The chained tasks, from head to tail. */
    ghost var Items: seq<Task>

    ghost predicate Valid()
      reads this, Items`next
    {
      && (head == null <==> Items == [])
      && (Items != [] ==> head == Items[0] && Items[|Items| - 1].next == null)
      && (forall i :: 0 <= i < |Items| - 1 ==> Items[i].next == Items[i + 1])
      && (forall i, j :: 0 <= i < j < |Items| ==> Items[i] != Items[j])
    }

    /** task_queue(): an empty list. */
    constructor ()
      ensures Valid() && Items == []
    {
      head := null;
      Items := [];
    }

    /** task_queue_empty: the head is null exactly when nothing is chained. */
    method Empty() returns (b: bool)
      requires Valid()
      ensures b <==> Items == []
    {
      b := head == null;
    }

    /** task_queue_push: the task becomes the head, linked to the old head. */
    method Push(t: Task)
      requires Valid() && t !in Items
      modifies this, t`next
      ensures Valid()
      ensures Items == [t] + old(Items) && t.next == old(head)
    {
      t.next := head;
      head := t;
      Items := [t] + Items;
    }

    /**
     * task_queue_pop: the most recently pushed task, with head advanced to
     * its successor; null, with nothing changed, when the list is empty.
     */
    method Pop() returns (t: Task?)
      requires Valid()
      modifies this
      ensures Valid()
      ensures old(Items) == [] ==> t == null && Items == []
      ensures old(Items) != [] ==> t == old(Items)[0] && Items == old(Items)[1..] && t !in Items
    {
      t := head;
      if t != null {
        head := t.next;
        assert |Items| > 1 ==> head == Items[1];
        Items := Items[1..];
      }
    }
  }
}

=== FILE: task_ring.dfy ===
/**
 * The bounded task queue of include/task_queue.h: eight task slots used as a
 * ring, addressed by two counters that only grow; the queue holds the tasks
 * pushed at counters head .. tail - 1.
 */
module TaskRing {
  import opened Tasks

  const CAPACITY: nat := 8

  class TaskQueue {
    var tasks: array<Task?>
    var head: nat
    var tail: nat
    /** The queued tasks, oldest first. */
    ghost var Contents: seq<Task>

    ghost predicate Valid()
      reads this, tasks
    {
      && tasks.Length == CAPACITY
      && head <= tail && tail - head == |Contents| <= CAPACITY
      && forall i :: 0 <= i < |Contents| ==> tasks[(head + i) % CAPACITY] == Contents[i]
    }

    /** task_queue_new: both counters zero, nothing queued. */
    constructor ()
      ensures Valid() && fresh(tasks)
      ensures head == 0 && tail == 0 && Contents == []
    {
      tasks := new Task?[CAPACITY](_ => null);
      head, tail := 0, 0;
      Contents := [];
    }

    /** task_queue_size: tail - head, never above the capacity. */
    method Size() returns (n: nat)
      requires Valid()
      ensures n == |Contents| && n <= CAPACITY
    {
      n := tail - head;
    }

    /**
     * task_queue_push: writes the one cell tasks[tail mod 8] and advances
     * tail; the task joins the back of the queue.
     */
    method Push(t: Task)
      requires Valid() && |Contents| < CAPACITY
      modifies this, tasks
      ensures Valid() && tasks == old(tasks)
      ensures Contents == old(Contents) + [t]
      ensures head == old(head) && tail == old(tail) + 1
      ensures tasks[old(tail) % CAPACITY] == t
      ensures forall i :: 0 <= i < CAPACITY && i != old(tail) % CAPACITY ==> tasks[i] == old(tasks[i])
    {
      var slot := tail % CAPACITY;
      tail := tail + 1;
      tasks[slot] := t;
      Contents := Contents + [t];
      forall i | 0 <= i < |Contents| - 1
        ensures tasks[(head + i) % CAPACITY] == Contents[i]
      {
        RingCellsDiffer(head, i, |Contents| - 1);
      }
    }

    /** task_queue_pop: returns tasks[head mod 8], the oldest task, and advances head. */
    method Pop() returns (t: Task)
      requires Valid() && |Contents| > 0
      modifies this
      ensures Valid() && tasks == old(tasks)
      ensures t == old(Contents)[0] && Contents == old(Contents)[1..]
      ensures head == old(head) + 1 && tail == old(tail)
    {
      var slot := head % CAPACITY;
      head := head + 1;
      assert tasks[(old(head) + 0) % CAPACITY] == Contents[0];
      var cell := tasks[slot];
      assert cell == Contents[0];
      t := cell;
      Contents := Contents[1..];
      forall i | 0 <= i < |Contents|
        ensures tasks[(head + i) % CAPACITY] == Contents[i]
      {
        assert head + i == old(head) + (i + 1);
      }
    }
  }

  /** Two counters fewer than CAPACITY apart address different cells. */
  lemma RingCellsDiffer(h: nat, i: nat, k: nat)
    requires i < k <= CAPACITY - 1 + i && k < CAPACITY
    ensures (h + i) % CAPACITY != (h + k) % CAPACITY
  {
    assert (h + k) - (h + i) == k - i;
  }
}

=== FILE: tasks.dfy ===
/**
 * Tasks of the runtime (src/task.c): a one-hot state bitmask, a reference
 * count, an optional consumer that waits for the output, and the buffer that
 * first holds the future and then its output.
 *
 * The future itself is not modelled: one call of its poll function is a
 * `Step`, either suspending or finishing with an output value, which the task
 * keeps in `output`. A task is freed when its count drops to zero; the model
 * keeps the object and reads a count of zero as "freed".
 */
module Tasks {
  const RUNNABLE: bv8 := 0x1
  const RUNNING: bv8 := 0x2
  const WAITING: bv8 := 0x4
  const COMPLETE: bv8 := 0x8

  /** enum tachy_poll */
  datatype Poll = Pending | Ready

  /** One call of a task's poll function: it suspends, or finishes writing its output. */
  datatype Step = Suspend | Finish(value: int)

  /** Exactly one of the four state bits is set. */
  predicate OneHot(s: bv8)
  {
    s == RUNNABLE || s == RUNNING || s == WAITING || s == COMPLETE
  }

  /** `state &= ~from; state |= to`: the shape of every transition in src/task.c. */
  function Move(s: bv8, from: bv8, to: bv8): bv8
  {
    (s & !from) | to
  }

  /** The four transitions of src/task.c: to running, to waiting, to complete, and make_runnable. */
  predicate Allowed(from: bv8, to: bv8)
  {
    || (from == RUNNABLE && to == RUNNING)
    || (from == RUNNING && to == WAITING)
    || (from == RUNNING && to == COMPLETE)
    || (from == WAITING && to == RUNNABLE)
  }

  /** A transition guarded by its source bit lands exactly on its target state. */
  lemma MoveFrom(s: bv8, from: bv8, to: bv8)
    requires OneHot(s) && OneHot(from) && OneHot(to) && s & from != 0
    ensures s == from && Move(s, from, to) == to
  {
  }

  /** What the task's state machine does on each event, and None where src/task.c asserts. */
  datatype Event = Start | Suspended | Finished | Woken

  function Fire(s: bv8, ev: Event): (r: Option<bv8>)
    ensures r.Some? ==> Allowed(s, r.value)
  {
    match ev
    case Start => if s & RUNNABLE != 0 && OneHot(s) then MoveFrom(s, RUNNABLE, RUNNING); Some(Move(s, RUNNABLE, RUNNING)) else None
    case Suspended => if s & RUNNING != 0 && OneHot(s) then MoveFrom(s, RUNNING, WAITING); Some(Move(s, RUNNING, WAITING)) else None
    case Finished => if s & RUNNING != 0 && OneHot(s) then MoveFrom(s, RUNNING, COMPLETE); Some(Move(s, RUNNING, COMPLETE)) else None
    case Woken => if s & WAITING != 0 && OneHot(s) then MoveFrom(s, WAITING, RUNNABLE); Some(Move(s, WAITING, RUNNABLE)) else None
  }

  datatype Option<T> = None | Some(value: T)

  /** The states a task passes through on a sequence of events, or None once an event is refused. */
  function Run(s: bv8, evs: seq<Event>): Option<seq<bv8>>
    decreases |evs|
  {
    if evs == [] then Some([s])
    else
      match Fire(s, evs[0])
      case None => None
      case Some(t) =>
        match Run(t, evs[1..])
        case None => None
        case Some(rest) => Some([s] + rest)
  }

  /**
   * Starting from a one-hot state, every state a run passes through has
   * exactly one bit set and consecutive states are one of the four
   * transitions.
   */
  lemma {:induction false} RunKeepsOneHot(s: bv8, evs: seq<Event>)
    requires OneHot(s)
    ensures Run(s, evs).Some? ==>
      var ss := Run(s, evs).value;
      |ss| == |evs| + 1 && ss[0] == s &&
      (forall i :: 0 <= i < |ss| ==> OneHot(ss[i])) &&
      (forall i :: 0 <= i < |evs| ==> Allowed(ss[i], ss[i + 1]))
    decreases |evs|
  {
    if evs != [] {
      match Fire(s, evs[0])
      case None =>
      case Some(t) =>
        assert OneHot(t);
        RunKeepsOneHot(t, evs[1..]);
    }
  }

  /** A complete task refuses every event: nothing leaves COMPLETE. */
  lemma {:induction false} CompleteIsFinal(evs: seq<Event>)
    requires evs != []
    ensures Run(COMPLETE, evs) == None
  {
    assert Fire(COMPLETE, evs[0]) == None;
  }

  class Task {
    var state: bv8
    var refCount: int
    var consumer: Task?
    var next: Task?       // the intrusive link of a task list (struct task.next)
    var output: int       // what the future wrote through its output pointer
    const futureSize: nat
    const outputSize: nat
    const bufferSize: nat

    /** tachy_task_new's initialisation, after a successful allocation. */
    constructor Init(futureSize: nat, outputSize: nat)
      ensures state == RUNNABLE && refCount == 1 && consumer == null && next == null
      ensures this.futureSize == futureSize && this.outputSize == outputSize
      ensures bufferSize == if futureSize >= outputSize then futureSize else outputSize
    {
      state := RUNNABLE;
      refCount := 1;
      consumer := null;
      next := null;
      output := 0;
      this.futureSize := futureSize;
      this.outputSize := outputSize;
      bufferSize := if futureSize >= outputSize then futureSize else outputSize;
    }

    /** The task has been freed (its count reached zero). */
    predicate Freed()
      reads this
    {
      refCount <= 0
    }

    /** tachy_task_ref_inc */
    method RefInc()
      requires refCount > 0
      modifies this`refCount
      ensures refCount == old(refCount) + 1
    {
      refCount := refCount + 1;
    }

    /** tachy_task_ref_dec: the task is freed exactly when the count reaches zero. */
    method RefDec()
      requires refCount > 0
      modifies this`refCount
      ensures refCount == old(refCount) - 1
      ensures Freed() <==> old(refCount) == 1
    {
      refCount := refCount - 1;
    }

    /** tachy_task_output: the output buffer exists only for a task with a non-empty output. */
    method HasOutput() returns (present: bool)
      ensures present <==> outputSize > 0
    {
      present := outputSize > 0;
    }

    /** tachy_task_runnable */
    method Runnable() returns (r: bool)
      requires OneHot(state)
      ensures r <==> state == RUNNABLE
    {
      r := state & RUNNABLE != 0;
    }

    /** tachy_task_make_runnable: Waiting to Runnable. */
    method MakeRunnable()
      requires OneHot(state) && state & WAITING != 0
      modifies this`state
      ensures state == RUNNABLE && Allowed(old(state), state)
    {
      MoveFrom(state, WAITING, RUNNABLE);
      state := (state & !WAITING) | RUNNABLE;
    }

    /**
     * tachy_task_register_consumer: the previous consumer loses the reference
     * the task held on it, the new one gains one, and the task stores it
     * (null clears it).
     */
    method RegisterConsumer(c: Task?)
      requires consumer != null ==> consumer.refCount > 0
      requires c != null ==> c.refCount > (if c == consumer then 1 else 0)
      modifies {consumer, c}`refCount, this`consumer
      ensures consumer == c
      ensures old(consumer) != null && old(consumer) != c ==> old(consumer).refCount == old(consumer.refCount) - 1
      ensures c != null && c != old(consumer) ==> c.refCount == old(c.refCount) + 1
      ensures c != null && c == old(consumer) ==> c.refCount == old(c.refCount)
      ensures this != old(consumer) && this != c ==> refCount == old(refCount)
      ensures state == old(state) && output == old(output) && next == old(next)
    {
      if consumer != null {
        consumer.RefDec();
      }
      if c != null {
        c.RefInc();
      }
      consumer := c;
    }

    /**
     * tachy_task_poll: the task runs one step of its future; a suspended
     * task is left Waiting, a finished one Complete with one reference
     * released. The consumer is read before that release (as written the
     * read comes after it; see MemoryDefects.PollAccessesAsWritten).
     */
    method Poll(step: Step) returns (r: Poll, waiter: Task?)
      requires OneHot(state) && state & RUNNABLE != 0 && refCount > 0
      modifies this`state, this`refCount, this`output
      ensures waiter == consumer
      ensures step.Suspend? ==> r == Pending && state == WAITING && refCount == old(refCount)
      ensures step.Finish? ==>
        r == Ready && state == COMPLETE && refCount == old(refCount) - 1 && output == step.value
      ensures Allowed(RUNNING, state) && output == (if step.Finish? then step.value else old(output))
    {
      MoveFrom(state, RUNNABLE, RUNNING);
      state := (state & !RUNNABLE) | RUNNING;
      waiter := consumer;
      match step
      case Suspend =>
        MoveFrom(state, RUNNING, WAITING);
        state := (state & !RUNNING) | WAITING;
        r := Pending;
      case Finish(v) =>
        output := v;
        MoveFrom(state, RUNNING, COMPLETE);
        state := (state & !RUNNING) | COMPLETE;
        RefDec();
        r := Ready;
    }

    /**
     * tachy_task_try_copy_output: with a consumer registered, the output is
     * copied exactly when the task is complete; the consumer stays.
     */
    method TryCopyOutput() returns (copied: bool, value: int)
      requires consumer != null && OneHot(state)
      ensures copied <==> state == COMPLETE
      ensures copied ==> value == output
    {
      copied := state & COMPLETE != 0;
      value := if copied then output else 0;
    }
  }

  /** tachy_task_new: a fresh Runnable task with one reference, or null when allocation fails. */
  method NewTask(obtained: bool, futureSize: nat, outputSize: nat) returns (t: Task?)
    requires futureSize > 0
    ensures !obtained <==> t == null
    ensures t != null ==>
      fresh(t) && t.state == RUNNABLE && t.refCount == 1 && t.consumer == null &&
      t.futureSize == futureSize && t.outputSize == outputSize &&
      t.bufferSize >= futureSize && t.bufferSize >= outputSize &&
      (t.bufferSize == futureSize || t.bufferSize == outputSize)
  {
    if !obtained {
      return null;
    }
    t := new Task.Init(futureSize, outputSize);
  }
}

=== FILE: time_driver.dfy ===
/**
 * The timer driver of src/time.c as an object: six levels of 64 slot lists
 * (`slots`, indexed by Idx(level, slot)), one occupancy bitmap per level,
 * the pending list, the elapsed time, and the deadline of every entry it
 * holds. Every method is proved to leave the driver in the state the value
 * model WheelModel computes from the state it found, so the properties
 * proved there (the invariant WF, conservation of entries, no early firing)
 * hold of the driver.
 *
 * Entries are opaque values; freeing a removed entry and waking the task of
 * an expired one belong to the callers (modules Sleep and Runtime). In mode
 * WakeDirectly (src/time_driver.c) an expired entry is recorded in `woken`,
 * which stands for the rt_wake_task call made at that point.
 */
module TimeDriver {
  import opened Bits
  import opened WheelMath
  import opened WheelModel
  import WheelScenarios
  import opened WheelScan

  /** level_for, with the leading zeros counted by clz64. */
  method LevelOf(timeout: U64) returns (l: nat)
    ensures l == LevelFor(timeout) && l < LEVELS
  {
    LevelForRange(timeout);
    var masked := ClearLow(timeout, 6) + 63;
    if masked >= MAX_TIMEOUT {
      masked := MAX_TIMEOUT - 1;
    }
    var leadingZeros := Clz64(masked);
    l := (63 - leadingZeros) / LEVELS;
  }

  /** The home slot of a deadline is its slot on the level level_for gives its timeout. */
  lemma HomeOf(elapsed: U64, d: U64, l: nat)
    requires elapsed < d && l == LevelFor(d - elapsed)
    ensures Home(elapsed, d) == (l, SlotFor(l, d))
  {
  }

  /** slot_next_occupied, with the trailing zeros counted by ctz64. */
  method NextOccupied(level: nat, now: U64, bitmap: U64) returns (slot: int)
    ensures slot == SlotNextOccupied(level, now, bitmap)
    ensures slot == -1 <==> bitmap == 0
    ensures -1 <= slot < SLOTS
  {
    if bitmap == 0 {
      return -1;
    }
    var nowSlot := SlotFor(level, now);
    var trailingZeros := Ctz64(RotateR64(bitmap, nowSlot));
    slot := (nowSlot + trailingZeros) % SLOTS;
  }

  /** The scan word after its lowest set bit is consumed: time_process_at's shift by trailing_zeros + 1. */
  method ScanPast(adjusted: U64, trailingZeros: nat) returns (next: U64)
    requires adjusted != 0 && trailingZeros == Ctz(adjusted)
    ensures next == ScanNext(adjusted) && next < adjusted
  {
    ScanShrinks(adjusted);
    if trailingZeros < 63 {
      next := ShiftRight(adjusted, trailingZeros + 1);
    } else {
      next := 0;
    }
  }

  /** A driver whose slot lists are all empty and whose bitmaps are all zero holds the empty wheel. */
  lemma EmptyState<E>(ss: seq<seq<E>>, bm: seq<U64>)
    requires |ss| == NUM_SLOT_LISTS && (forall i :: 0 <= i < |ss| ==> ss[i] == [])
    requires |bm| == LEVELS && (forall i :: 0 <= i < |bm| ==> bm[i] == 0)
    ensures Wheel(0, ss, bm, [], [], map[]) == EmptyWheel() && WF(Wheel(0, ss, bm, [], [], map[]))
  {
    assert ss == EmptyWheel<E>().slots;
    assert bm == EmptyWheel<E>().bitmap;
    WheelScenarios.EmptyWF<E>();
  }

  class Driver<E(==)> {
    var elapsed: U64
    /** wheel_levels[l].slots[s] is slots[Idx(l, s)], head first */
    const slots: array<seq<E>>
    /** active_slot_bitmap */
    const bitmap: array<U64>
    /** pending_list_head, head first */
    var pending: seq<E>
    /** entries woken directly (src/time_driver.c), oldest first */
    var woken: seq<E>
    /** entry->deadline of every entry the driver holds */
    var deadline: map<E, U64>

    /** The driver as a value of the model. */
    ghost function State(): Wheel<E>
      reads this, slots, bitmap
    {
      Wheel(elapsed, slots[..], bitmap[..], pending, woken, deadline)
    }

    /** The arrays have the sizes of struct time_driver. */
    ghost predicate Sized()
      reads this
    {
      slots.Length == NUM_SLOT_LISTS && bitmap.Length == LEVELS
    }

    ghost predicate Valid()
      reads this, slots, bitmap
    {
      Sized() && WF(State())
    }

    /** time_driver(): every list empty, every bitmap zero, elapsed zero. */
    constructor ()
      ensures Valid() && State() == EmptyWheel()
      ensures fresh(slots) && fresh(bitmap)
    {
      elapsed := 0;
      slots := new seq<E>[NUM_SLOT_LISTS](_ => []);
      bitmap := new U64[LEVELS](_ => 0);
      pending, woken, deadline := [], [], map[];
      new;
      assert State() == Wheel(0, slots[..], bitmap[..], [], [], map[]);
      EmptyState(slots[..], bitmap[..]);
    }

    /**
     * time_insert_timeout for an entry with deadline d: an entry that is
     * already due is tagged fired and left out; any other goes to the front
     * of the slot level_for and slot_for choose, whose bit is set. The
     * invariant is kept for an entry the driver does not hold yet.
     */
    method Insert(e: E, d: U64)
      requires Sized()
      modifies this, slots, bitmap
      ensures Sized()
      ensures State() == WheelModel.Insert(old(State()), e, d)
      ensures old(WF(State())) && e !in old(deadline) && d < TIMEOUT_PENDING ==> WF(State())
    {
      ghost var w := State();
      if elapsed >= d {
        deadline := deadline - {e};
        assert State() == w.(deadline := w.deadline - {e});
      } else {
        var l := LevelOf(d - elapsed);
        var s := SlotFor(l, d);
        HomeOf(w.elapsed, d, l);
        var i := Idx(l, s);
        slots[i] := [e] + slots[i];
        bitmap[l] := SetSlotBit(bitmap[l], s);
        deadline := deadline[e := d];
        assert State() == Push(w, l, s, e, d);
      }
      if WF(w) && e !in w.deadline && d < TIMEOUT_PENDING {
        InsertKeepsWF(w, e, d);
      }
    }

    /**
     * time_remove_timeout: a fired entry (one the driver does not hold) is
     * left alone, a pending one is unlinked from the pending list, any other
     * is unlinked from the slot among its six candidates that holds it, and
     * that slot's bit is cleared if the list empties.
     */
    method Remove(e: E)
      requires Valid()
      modifies this, slots, bitmap
      ensures Valid() && State() == WheelModel.Remove(old(State()), e)
      ensures Contents(State()) == Contents(old(State())) - multiset{e}
      ensures e !in deadline
    {
      RemoveSpec(State(), e);
      if e !in deadline {
        return;
      }
      if deadline[e] == TIMEOUT_PENDING {
        RemovePending(e);
      } else {
        RemoveLinked(e);
      }
    }

    /** time_remove_timeout for a pending entry: it leaves the pending list and the driver. */
    method RemovePending(e: E)
      requires Valid() && e in deadline && deadline[e] == TIMEOUT_PENDING
      modifies this
      ensures Valid() && State() == WheelModel.Remove(old(State()), e)
    {
      RemoveSpec(State(), e);
      pending := Without(pending, e);
      deadline := deadline - {e};
    }

    /** time_remove_timeout for an entry in a slot list: the list of its level and slot loses it. */
    method RemoveLinked(e: E)
      requires Valid() && e in deadline && deadline[e] != TIMEOUT_PENDING
      modifies this, slots, bitmap
      ensures Valid() && State() == WheelModel.Remove(old(State()), e)
    {
      ghost var w := State();
      RemoveSpec(w, e);
      var d := deadline[e];
      FindLevelHolds(w, e);
      var l := FindSlotLevel(e, d);
      UnlinkFrom(l, SlotFor(l, d), e);
    }

    /** The first of the six candidate slots (l, slot_for(l, d)) whose list holds e; LEVELS if none does. */
    method FindSlotLevel(e: E, d: U64) returns (l: nat)
      requires Sized()
      ensures l == FindLevel(State(), e, d, 0)
    {
      l := 0;
      while l < LEVELS && e !in slots[Idx(l, SlotFor(l, d))]
        invariant l <= LEVELS && FindLevel(State(), e, d, l) == FindLevel(State(), e, d, 0)
        decreases LEVELS - l
      {
        l := l + 1;
      }
    }

    /** slot_remove on slot (l, s), then the bit is cleared if the list is empty; the entry leaves the driver. */
    method UnlinkFrom(l: nat, s: nat, e: E)
      requires Sized() && l < LEVELS && s < SLOTS
      modifies this, slots, bitmap
      ensures Sized() && State() == Unlink(old(State()), l, s, e)
    {
      var i := Idx(l, s);
      var rest := Without(slots[i], e);
      slots[i] := rest;
      if rest == [] {
        bitmap[l] := ClearSlotBit(bitmap[l], s);
      }
      deadline := deadline - {e};
    }

    /** time_next_expiration: the start of the first occupied slot, finest level first; 0 if none. */
    method NextExpiration() returns (t: U64)
      requires Sized()
      ensures t == WheelModel.NextExpiration(State())
    {
      var level := 0;
      while level < LEVELS
        invariant level <= LEVELS
        invariant NextExpirationFrom(State(), level) == WheelModel.NextExpiration(State())
        decreases LEVELS - level
      {
        var slot := NextOccupied(level, elapsed, bitmap[level]);
        if slot != -1 {
          return SlotStart(LevelStart(elapsed, level), level, slot);
        }
        level := level + 1;
      }
      return 0;
    }

    /**
     * time_next_pending_task: pops the front of the pending list and tags it
     * fired (it leaves the driver); None when the list is empty.
     */
    method NextPendingTask() returns (r: Option<E>)
      requires Valid()
      modifies this
      ensures Valid() && (State(), r) == NextPending(old(State()))
      ensures r.None? <==> old(pending) == []
      ensures r.Some? ==>
        r.value == old(pending)[0] && r.value !in deadline &&
        Contents(State()) + multiset{r.value} == Contents(old(State()))
    {
      ghost var w := State();
      NextPendingSpec(w);
      if pending == [] {
        return None;
      }
      var e := pending[0];
      pending := pending[1..];
      deadline := deadline - {e};
      r := Some(e);
    }

    /** One pass of slot_process_expiration's loop body, for an entry taken from the slot. */
    method DrainEntry(e: E, now: U64, mode: Expiry)
      requires Sized() && e in deadline
      modifies this, slots, bitmap
      ensures Sized() && State() == WheelModel.DrainOne(old(State()), e, now, mode)
    {
      var d := deadline[e];
      if now >= d {
        match mode
        case ToPending =>
          pending := [e] + pending;
          deadline := deadline[e := TIMEOUT_PENDING];
        case WakeDirectly =>
          woken := woken + [e];
          deadline := deadline - {e};
      } else {
        Insert(e, d);
      }
    }

    /** Empties slot (level, slot) and clears its bit, returning the list it held. */
    method DetachSlot(level: nat, slot: nat) returns (detached: seq<E>)
      requires Sized() && level < LEVELS && slot < SLOTS
      modifies slots, bitmap
      ensures Sized() && detached == old(slots[Idx(level, slot)])
      ensures State() == WheelModel.Detach(old(State()), level, slot)
    {
      var i := Idx(level, slot);
      detached := slots[i];
      slots[i] := [];
      bitmap[level] := ClearSlotBit(bitmap[level], slot);
    }

    /** The loop of slot_process_expiration: the detached entries are disposed of from the front. */
    method DrainDetached(detached: seq<E>, now: U64, mode: Expiry)
      requires Sized() && (forall x | x in detached :: x in deadline) && NoDup(multiset(detached))
      modifies this, slots, bitmap
      ensures Sized() && State() == WheelModel.Drain(old(State()), detached, now, mode)
    {
      ghost var target := WheelModel.Drain(State(), detached, now, mode);
      var rest := detached;
      while rest != []
        invariant Sized() && (forall x | x in rest :: x in deadline) && NoDup(multiset(rest))
        invariant WheelModel.Drain(State(), rest, now, mode) == target
        decreases |rest|
      {
        var e := rest[0];
        DistinctTail(rest);
        DrainEntry(e, now, mode);
        rest := rest[1..];
      }
    }

    /**
     * slot_process_expiration, with the slot's list detached and its bit
     * cleared before its entries are disposed of one by one from the front.
     */
    method ProcessSlot(level: nat, slot: nat, now: U64, mode: Expiry)
      requires Valid() && level < LEVELS && slot < SLOTS
      modifies this, slots, bitmap
      ensures Valid() && State() == WheelModel.ProcessSlot(old(State()), level, slot, now, mode)
    {
      ghost var w := State();
      DetachHolds(w, level, slot);
      DrainHolds(WheelModel.Detach(w, level, slot), w.slots[Idx(level, slot)], now, mode);
      var detached := DetachSlot(level, slot);
      DrainDetached(detached, now, mode);
    }

    /**
     * time_process_at with the corrected cursor: for each level, the
     * occupied slots from the slot of `elapsed` on are visited in rotation
     * order while they start no later than `now`; elapsed moves to each
     * visited slot's start before it is processed, and to `now` at the end.
     */
    method ProcessAt(now: U64, mode: Expiry)
      requires Valid()
      modifies this, slots, bitmap
      ensures Valid() && State() == WheelModel.ProcessAt(old(State()), now, mode)
    {
      ghost var w0 := State();
      ProcessAllLevels(now, mode);
      AtEnd(w0, State(), now, mode);
      MoveTo(now);
    }

    /** elapsed moves to `t`; the invariant does not mention it. */
    method MoveTo(t: U64)
      requires Valid()
      modifies this`elapsed
      ensures Valid() && State() == old(State()).(elapsed := t)
    {
      ElapsedWF(State(), t);
      elapsed := t;
    }

    /** time_process_at's level loop: each level in turn, from the finest. */
    method ProcessAllLevels(now: U64, mode: Expiry)
      requires Valid()
      modifies this, slots, bitmap
      ensures Valid() && ProcessLevels(State(), LEVELS, now, 1, mode) == ProcessLevels(old(State()), 0, now, 1, mode)
    {
      ghost var target := ProcessLevels(State(), 0, now, 1, mode);
      var level := 0;
      while level < LEVELS
        invariant level <= LEVELS && Valid()
        invariant ProcessLevels(State(), level, now, 1, mode) == target
        decreases LEVELS - level
      {
        ProcessNextLevel(level, now, mode, target);
        level := level + 1;
      }
    }

    /** ProcessLevel, seen from the level loop: what is left of the loop after it is the rest of the levels. */
    method ProcessNextLevel(level: nat, now: U64, mode: Expiry, ghost target: Wheel<E>)
      requires Valid() && level < LEVELS && ProcessLevels(State(), level, now, 1, mode) == target
      modifies this, slots, bitmap
      ensures Valid() && ProcessLevels(State(), level + 1, now, 1, mode) == target
    {
      ghost var before := State();
      ProcessLevel(level, now, mode);
      LevelsStep(before, State(), level, now, mode);
    }

    /** One iteration of time_process_at's level loop. */
    method ProcessLevel(level: nat, now: U64, mode: Expiry)
      requires Valid() && level < LEVELS
      modifies this, slots, bitmap
      ensures Valid() && State() == WheelModel.ProcessLevel(old(State()), level, now, 1, mode)
    {
      ghost var target := WheelModel.ProcessLevel(State(), level, now, 1, mode);
      var levelStart := LevelStart(elapsed, level);
      var cursor: nat := SlotFor(level, elapsed);
      var adjusted: U64 := RotateR64(bitmap[level], cursor);
      while adjusted != 0
        invariant Valid()
        invariant ProcessSlots(State(), level, ScanSlots(adjusted, cursor, levelStart, level, now, 1), levelStart, now, mode) == target
        decreases adjusted
      {
        var stop;
        stop, adjusted, cursor := VisitFirst(level, adjusted, cursor, levelStart, now, mode);
        if stop {
          break;
        }
      }
      NoVisits(State(), level, levelStart, now, mode);
    }

    /**
     * One pass of time_process_at's inner loop: the first occupied slot at
     * or after the cursor either starts after `now` (the scan stops) or is
     * visited, and the cursor moves past it.
     */
    method VisitFirst(level: nat, adjusted: U64, cursor: nat, levelStart: nat, now: U64, mode: Expiry)
      returns (stop: bool, adjusted': U64, cursor': nat)
      requires Valid() && level < LEVELS && adjusted != 0
      modifies this, slots, bitmap
      ensures Valid() && (stop || adjusted' < adjusted)
      ensures stop ==> ScanSlots(adjusted, cursor, levelStart, level, now, 1) == [] && State() == old(State())
      ensures ProcessSlots(State(), level, ScanSlots(adjusted', cursor', levelStart, level, now, 1), levelStart, now, mode) ==
        ProcessSlots(old(State()), level, ScanSlots(adjusted, cursor, levelStart, level, now, 1), levelStart, now, mode)
    {
      var trailingZeros := Ctz64(adjusted);
      var slot := (cursor + trailingZeros) % SLOTS;
      var start := SlotStart(levelStart, level, slot);
      if start > now {
        VisitStop(adjusted, cursor, levelStart, level, now);
        stop, adjusted', cursor' := true, adjusted, cursor;
      } else {
        adjusted', cursor' := VisitDue(level, adjusted, cursor, levelStart, now, mode, trailingZeros, slot, start);
        stop := false;
      }
    }

    /** VisitFirst's branch for a slot that is due. */
    method VisitDue(level: nat, adjusted: U64, cursor: nat, levelStart: nat, now: U64, mode: Expiry,
                    trailingZeros: nat, slot: nat, start: U64)
      returns (adjusted': U64, cursor': nat)
      requires Valid() && level < LEVELS && adjusted != 0 && trailingZeros == Ctz(adjusted)
      requires slot == (cursor + trailingZeros) % SLOTS && start == SlotStart(levelStart, level, slot) <= now
      modifies this, slots, bitmap
      ensures Valid() && adjusted' < adjusted
      ensures ProcessSlots(State(), level, ScanSlots(adjusted', cursor', levelStart, level, now, 1), levelStart, now, mode) ==
        ProcessSlots(old(State()), level, ScanSlots(adjusted, cursor, levelStart, level, now, 1), levelStart, now, mode)
    {
      ghost var w := State();
      VisitSlot(level, slot, start, now, mode);
      adjusted' := ScanPast(adjusted, trailingZeros);
      cursor' := cursor + trailingZeros + 1;
      VisitStep(w, State(), level, adjusted, adjusted', cursor, cursor', levelStart, now, mode, trailingZeros, slot, start);
    }

    /** The body of time_process_at's inner loop for a due slot: elapsed moves to its start, then it is processed. */
    method VisitSlot(level: nat, slot: nat, start: U64, now: U64, mode: Expiry)
      requires Valid() && level < LEVELS && slot < SLOTS
      modifies this, slots, bitmap
      ensures Valid() && WF(old(State()).(elapsed := start))
      ensures State() == WheelModel.ProcessSlot(old(State()).(elapsed := start), level, slot, now, mode)
    {
      ElapsedWF(State(), start);
      MoveTo(start);
      ProcessSlot(level, slot, now, mode);
    }
  }

  /** The scan stops at a slot that starts after `now`. */
  lemma VisitStop(adjusted: U64, cursor: nat, levelStart: nat, level: nat, now: U64)
    requires adjusted != 0
    requires SlotStart(levelStart, level, (cursor + Ctz(adjusted)) % SLOTS) > now
    ensures ScanSlots(adjusted, cursor, levelStart, level, now, 1) == []
  {
  }

  /** A due slot is visited first: elapsed moves to its start, it is processed, and the scan goes on past it. */
  lemma VisitNext<E>(w: Wheel<E>, level: nat, adjusted: U64, cursor: nat, levelStart: nat, now: U64, mode: Expiry,
                     slot: nat, start: U64, next: nat)
    requires WF(w) && level < LEVELS && adjusted != 0
    requires next == cursor + Ctz(adjusted) + 1 && slot == (next - 1) % SLOTS
    requires start == SlotStart(levelStart, level, slot) <= now
    ensures WF(w.(elapsed := start))
    ensures ProcessSlots(w, level, ScanSlots(adjusted, cursor, levelStart, level, now, 1), levelStart, now, mode) ==
      ProcessSlots(ProcessSlot(w.(elapsed := start), level, slot, now, mode), level,
        ScanSlots(ScanNext(adjusted), next, levelStart, level, now, 1), levelStart, now, mode)
  {
    ElapsedWF(w, start);
    ScanUnfold(adjusted, cursor, levelStart, level, now, 1);
    var visits := ScanSlots(adjusted, cursor, levelStart, level, now, 1);
    var rest := ScanSlots(ScanNext(adjusted), next, levelStart, level, now, 1);
    assert visits == [slot] + rest;
    assert visits[0] == slot && visits[1..] == rest;
  }

  /** VisitNext restated for the state and scan position after the visit. */
  lemma VisitStep<E>(w: Wheel<E>, w': Wheel<E>, level: nat, adjusted: U64, adjusted': U64, cursor: nat, cursor': nat,
                     levelStart: nat, now: U64, mode: Expiry, trailingZeros: nat, slot: nat, start: U64)
    requires WF(w) && level < LEVELS && adjusted != 0 && trailingZeros == Ctz(adjusted)
    requires slot == (cursor + trailingZeros) % SLOTS && cursor' == cursor + trailingZeros + 1
    requires start == SlotStart(levelStart, level, slot) <= now
    requires WF(w.(elapsed := start)) && w' == ProcessSlot(w.(elapsed := start), level, slot, now, mode)
    requires adjusted' == ScanNext(adjusted)
    ensures ProcessSlots(w', level, ScanSlots(adjusted', cursor', levelStart, level, now, 1), levelStart, now, mode) ==
      ProcessSlots(w, level, ScanSlots(adjusted, cursor, levelStart, level, now, 1), levelStart, now, mode)
  {
    VisitNext(w, level, adjusted, cursor, levelStart, now, mode, slot, start, cursor');
  }

  /** time_process_at's level loop, one level at a time. */
  lemma LevelsStep<E>(w: Wheel<E>, w': Wheel<E>, level: nat, now: U64, mode: Expiry)
    requires WF(w) && level < LEVELS && w' == ProcessLevel(w, level, now, 1, mode)
    ensures ProcessLevels(w', level + 1, now, 1, mode) == ProcessLevels(w, level, now, 1, mode)
  {
  }

  /** After the last level, time_process_at only moves elapsed to `now`. */
  lemma AtEnd<E>(w0: Wheel<E>, w1: Wheel<E>, now: U64, mode: Expiry)
    requires WF(w0) && WF(w1) && ProcessLevels(w1, LEVELS, now, 1, mode) == ProcessLevels(w0, 0, now, 1, mode)
    ensures WheelModel.ProcessAt(w0, now, mode) == w1.(elapsed := now)
  {
  }

  /** A level with nothing to visit is left as it is. */
  lemma NoVisits<E>(w: Wheel<E>, level: nat, levelStart: nat, now: U64, mode: Expiry)
    requires WF(w) && level < LEVELS
    ensures ProcessSlots(w, level, [], levelStart, now, mode) == w
  {
  }
}

=== FILE: time_entry.dfy ===
/**
 * Timer entries and their intrusive doubly-linked list (src/time_entry.c).
 *
 * An entry holds one reference on its task. Its deadline field doubles as a
 * tag: TIMEOUT_PENDING once it has expired and waits on the pending list,
 * TIMEOUT_FIRED once it has fired. A list is a head pointer; entries are
 * chained through `next` and back through `prev`. The head's `prev` is not
 * maintained (push_front leaves it as it was), and nothing reads it.
 */
module TimeEntries {
  import opened Bits
  import opened WheelMath
  import opened Tasks
  import WheelModel

  class Entry {
    var prev: Entry?
    var next: Entry?
    const task: Task
    var deadline: U64
    /** free() has been called on the entry. */
    var freed: bool

    /** The initialisation in time_entry_new. */
    constructor Init(task: Task, deadline: U64)
      ensures this.task == task && this.deadline == deadline
      ensures prev == null && next == null && !freed
    {
      this.task := task;
      this.deadline := deadline;
      prev, next := null, null;
      freed := false;
    }

    /** time_entry_pending */
    predicate Pending()
      reads this
    {
      deadline == TIMEOUT_PENDING
    }

    /** time_entry_fired */
    predicate Fired()
      reads this
    {
      deadline == TIMEOUT_FIRED
    }

    /** time_entry_make_pending: only an entry that is neither pending nor fired. */
    method MakePending()
      requires !Pending() && !Fired()
      modifies this`deadline
      ensures Pending() && !Fired()
    {
      deadline := TIMEOUT_PENDING;
    }

    /** time_entry_make_fired: only an entry that has not fired yet. */
    method MakeFired()
      requires !Fired()
      modifies this`deadline
      ensures Fired() && !Pending()
    {
      deadline := TIMEOUT_FIRED;
    }
  }

  /** The two tags are distinct from each other and from every deadline the wheel accepts. */
  lemma TagsDistinct(d: U64)
    requires d <= MAX_TIMEOUT
    ensures TIMEOUT_PENDING != TIMEOUT_FIRED && d != TIMEOUT_PENDING && d != TIMEOUT_FIRED
  {
  }

  /**
   * time_entry_new: takes one reference on the task and sets null links and
   * the deadline; on allocation failure returns null and leaves the count.
   */
  method NewEntry(task: Task, deadline: U64, obtained: bool) returns (e: Entry?)
    requires task.refCount > 0
    modifies task`refCount
    ensures obtained <==> e != null
    ensures e != null ==>
      fresh(e) && e.task == task && e.deadline == deadline &&
      e.prev == null && e.next == null && !e.freed &&
      task.refCount == old(task.refCount) + 1
    ensures e == null ==> task.refCount == old(task.refCount)
  {
    if !obtained {
      return null;
    }
    task.RefInc();
    e := new Entry.Init(task, deadline);
  }

  /** time_entry_free: releases exactly one task reference and frees the entry. */
  method FreeEntry(e: Entry)
    requires !e.freed && e.task.refCount > 0
    modifies e`freed, e.task`refCount
    ensures e.freed && e.task.refCount == old(e.task.refCount) - 1
  {
    e.task.RefDec();
    e.freed := true;
  }

  /**
   * The list time_entry_list_remove leaves, as written: removing the head
   * empties the list, whatever follows it.
   */
  function RemovedAsWritten<T(==)>(s: seq<T>, x: T): (r: seq<T>)
    requires x in s
    ensures s[0] == x ==> r == []
    ensures s[0] != x ==> r == WheelModel.Without(s, x)
  {
    if s[0] == x then [] else WheelModel.Without(s, x)
  }

  /**
   * The as-written removal loses every successor of the head: with two
   * entries, removing the first leaves nothing instead of the second.
   */
  lemma HeadRemovalDropsSuccessors<T>(a: T, b: T)
    requires a != b
    ensures RemovedAsWritten([a, b], a) == []
    ensures WheelModel.Without([a, b], a) == [b]
  {
  }

  /** Without removes the first occurrence, which is at index k. */
  lemma {:induction false} WithoutAt<T>(s: seq<T>, x: T, k: nat)
    requires k < |s| && s[k] == x && x !in s[..k]
    ensures WheelModel.Without(s, x) == s[..k] + s[k + 1..]
  {
    if k == 0 {
      assert s[0] == x;
    } else {
      var t := s[1..];
      assert s[0] != x by { assert s[0] == s[..k][0]; }
      assert x !in t[..k - 1] by { assert t[..k - 1] == s[1..k]; }
      WithoutAt(t, x, k - 1);
      WithoutHead(s, x);
      assert s[..k] == [s[0]] + t[..k - 1];
      assert s[k + 1..] == t[k..];
    }
  }

  lemma WithoutHead<T>(s: seq<T>, x: T)
    requires s != [] && s[0] != x
    ensures WheelModel.Without(s, x) == [s[0]] + WheelModel.Without(s[1..], x)
  {
  }

  /** No element occurs twice. */
  ghost predicate Distinct<T>(s: seq<T>)
  {
    forall i, j :: 0 <= i < j < |s| ==> s[i] != s[j]
  }

  /** Where the elements of `s` land once index k is cut out. */
  lemma CutIndex<T>(s: seq<T>, k: nat, r: seq<T>)
    requires k < |s| && r == s[..k] + s[k + 1..]
    ensures |r| == |s| - 1
    ensures forall i :: 0 <= i < k ==> r[i] == s[i]
    ensures forall i :: k <= i < |r| ==> r[i] == s[i + 1]
  {
  }

  /** Cutting an element out of a sequence without repetitions leaves none. */
  lemma CutDistinct<T>(s: seq<T>, k: nat)
    requires k < |s| && Distinct(s)
    ensures Distinct(s[..k] + s[k + 1..])
  {
    var r := s[..k] + s[k + 1..];
    CutIndex(s, k, r);
    forall i, j | 0 <= i < j < |r|
      ensures r[i] != r[j]
    {
      var i' := if i < k then i else i + 1;
      var j' := if j < k then j else j + 1;
      assert r[i] == s[i'] && r[j] == s[j'];
    }
  }

  /** Each entry's next is its successor in `s`. */
  ghost predicate NextChain(s: seq<Entry>)
    reads s
  {
    forall i :: 0 <= i < |s| - 1 ==> s[i].next == s[i + 1]
  }

  /** Each entry but the first has its predecessor in `s` as prev. */
  ghost predicate PrevChain(s: seq<Entry>)
    reads s
  {
    forall i :: 0 < i < |s| ==> s[i].prev == s[i - 1]
  }

  /** `p->next = e->next` in time_entry_list_remove, for the entry at index k > 0. */
  method JoinNext(p: Entry, n: Entry?, ghost s: seq<Entry>, ghost k: nat, ghost r: seq<Entry>)
    requires 0 < k < |s| && Distinct(s) && NextChain(s) && s[|s| - 1].next == null
    requires p == s[k - 1] && n == s[k].next && r == s[..k] + s[k + 1..]
    modifies p`next
    ensures NextChain(r) && r[|r| - 1].next == null
    ensures PrevChain(s) == old(PrevChain(s))
  {
    p.next := n;
    CutIndex(s, k, r);
    forall i | 0 <= i < |r| - 1
      ensures r[i].next == r[i + 1]
    {
      if i < k - 1 {
        assert r[i] == s[i] != p;
      } else if i >= k {
        assert r[i] == s[i + 1] != p;
      }
    }
    if k + 1 < |s| {
      assert r[|r| - 1] == s[|s| - 1] != p;
    }
  }

  /** Cutting off the last entry keeps the prev links of the others. */
  lemma PrevChainPrefix(s: seq<Entry>, k: nat, r: seq<Entry>)
    requires k == |s| - 1 && PrevChain(s) && r == s[..k] + s[k + 1..]
    ensures PrevChain(r)
  {
    assert r == s[..k];
  }

  /** `e->next->prev = p` in time_entry_list_remove, for the entry at index k > 0. */
  method JoinPrev(p: Entry?, n: Entry, ghost s: seq<Entry>, ghost k: nat, ghost r: seq<Entry>)
    requires 0 < k < |s| - 1 && Distinct(s) && PrevChain(s)
    requires n == s[k + 1] && p == s[k - 1] && r == s[..k] + s[k + 1..]
    requires NextChain(r) && r[|r| - 1].next == null
    modifies n`prev
    ensures NextChain(r) && r[|r| - 1].next == null && PrevChain(r)
  {
    CutIndex(s, k, r);
    n.prev := p;
    forall i | 0 < i < |r|
      ensures r[i].prev == r[i - 1]
    {
      if i < k {
        assert r[i] == s[i] != n;
      } else if i > k {
        assert r[i] == s[i + 1] != n;
      }
    }
  }

  /** Cutting out an inner element of a sequence without repetitions: what Splice needs of the result. */
  lemma CutInner<T>(s: seq<T>, k: nat, r: seq<T>)
    requires 0 < k < |s| && Distinct(s) && r == s[..k] + s[k + 1..]
    ensures r != [] && r[0] == s[0] && Distinct(r)
  {
    CutDistinct(s, k);
  }

  class EntryList {
    var head: Entry?
    /** The chained entries, from head to tail. */
    ghost var Items: seq<Entry>

    ghost predicate Valid()
      reads this, Items
    {
      && (head == null <==> Items == [])
      && (Items != [] ==> head == Items[0] && Items[|Items| - 1].next == null)
      && NextChain(Items)
      && PrevChain(Items)
      && Distinct(Items)
    }

    constructor ()
      ensures Valid() && Items == []
    {
      head := null;
      Items := [];
    }

    /** time_entry_list_empty */
    method Empty() returns (b: bool)
      requires Valid()
      ensures b <==> Items == []
    {
      b := head == null;
    }

    /**
     * time_entry_list_push_front: the entry becomes the head, its next is the
     * old head and the old head's prev is the entry.
     */
    method PushFront(e: Entry)
      requires Valid() && e !in Items
      modifies this, e`next, Items
      ensures Valid()
      ensures Items == [e] + old(Items) && e.next == old(head)
      ensures old(head) != null ==> old(head).prev == e
      ensures forall x :: x in old(Items) ==> x.next == old(x.next)
    {
      var cur := head;
      e.next := cur;
      if cur != null {
        cur.prev := e;
      }
      head := e;
      Items := [e] + Items;
    }

    /**
     * time_entry_list_pop_front: null on an empty list; otherwise the head,
     * with head advanced and the new head's prev cleared.
     */
    method PopFront() returns (e: Entry?)
      requires Valid()
      modifies this, Items
      ensures Valid()
      ensures old(Items) == [] ==> e == null && Items == []
      ensures old(Items) != [] ==> e == old(Items)[0] && Items == old(Items)[1..]
      ensures forall x :: x in old(Items) ==> x.next == old(x.next)
    {
      e := head;
      if e == null {
        return;
      }
      ghost var before := Items;
      var n := e.next;
      head := n;
      if n != null {
        assert n == before[1];
        n.prev := null;
      }
      Items := before[1..];
      forall i | 0 < i < |Items|
        ensures Items[i].prev == Items[i - 1]
      {
        assert Items[i] == before[i + 1] != before[1];
      }
    }

    /** entry_in_list: walks the list from the head looking for the entry. */
    method Contains(e: Entry) returns (found: bool)
      requires Valid()
      ensures found <==> e in Items
    {
      var cur := head;
      ghost var k := 0;
      while cur != null
        invariant 0 <= k <= |Items|
        invariant cur == if k < |Items| then Items[k] else null
        invariant e !in Items[..k]
        decreases |Items| - k
      {
        if cur == e {
          return true;
        }
        assert Items[..k + 1] == Items[..k] + [cur];
        cur := cur.next;
        k := k + 1;
      }
      return false;
    }

    /** The index of a listed entry other than the head, at which Without cuts. */
    ghost method Locate(e: Entry) returns (k: nat)
      requires Valid() && e in Items && head != e
      ensures 0 < k < |Items| && Items[k] == e
      ensures WheelModel.Without(Items, e) == Items[..k] + Items[k + 1..]
    {
      k :| 0 <= k < |Items| && Items[k] == e;
      assert e !in Items[..k];
      WithoutAt(Items, e, k);
    }

    /**
     * time_entry_list_remove as written: a non-head entry is spliced out,
     * but removing the head sets head to null and drops its successors.
     */
    method RemoveAsWritten(e: Entry)
      requires Valid() && e in Items
      modifies this, Items
      ensures Valid()
      ensures Items == RemovedAsWritten(old(Items), e)
    {
      if head == e {
        head := null;
        Items := [];
        return;
      }
      ghost var k := Locate(e);
      Splice(e, k);
    }

    /** time_entry_list_remove with the head case corrected: the head's successor becomes the head. */
    method Remove(e: Entry)
      requires Valid() && e in Items
      modifies this, Items
      ensures Valid()
      ensures Items == WheelModel.Without(old(Items), e)
    {
      if head == e {
        var popped := PopFront();
        return;
      }
      ghost var k := Locate(e);
      Splice(e, k);
    }

    /**
     * The non-head case of time_entry_list_remove, for the entry at index
     * k > 0: prev and next are joined around it.
     */
    method Splice(e: Entry, ghost k: nat)
      requires Valid() && 0 < k < |Items| && Items[k] == e
      modifies this, Items
      ensures Valid() && head == old(head)
      ensures Items == old(Items)[..k] + old(Items)[k + 1..]
    {
      ghost var before := Items;
      var p, n := e.prev, e.next;
      assert p == before[k - 1];
      assert n == if k + 1 < |before| then before[k + 1] else null;
      ghost var after := before[..k] + before[k + 1..];
      CutInner(before, k, after);
      assert PrevChain(before);
      Items := after;
      JoinNext(p, n, before, k, after);
      if n != null {
        JoinPrev(p, n, before, k, after);
      } else {
        PrevChainPrefix(before, k, after);
      }
    }
  }
}

=== FILE: wheel_cascade.dfy ===
/**
 * A wheel holding a single entry, followed through time_process_at and
 * time_next_expiration: the level cascade of test_level_cascade
 * (test/time_test.c:66-85).
 */
module WheelCascade {
  import opened Bits
  import opened WheelMath
  import opened WheelModel
  import opened WheelScan
  import opened WheelExpiry
  import opened WheelScenarios

  /** A well-formed wheel whose only entry is e, alone in slot (l, s), with nothing pending. */
  predicate Lone<E>(w: Wheel<E>, l: nat, s: nat, e: E)
  {
    && WF(w) && l < LEVELS && s < SLOTS
    && w.slots[Idx(l, s)] == [e] && w.pending == [] && e in w.deadline
    && forall i :: 0 <= i < NUM_SLOT_LISTS && i != Idx(l, s) ==> w.slots[i] == []
  }

  /** The bitmaps of a lone-entry wheel: every level other than l is zero and level l has only bit s. */
  lemma LoneBits<E>(w: Wheel<E>, l: nat, s: nat, e: E)
    requires Lone(w, l, s, e)
    ensures forall k :: 0 <= k < LEVELS && k != l ==> w.bitmap[k] == 0
    ensures forall j: nat :: Bit(w.bitmap[l], j) <==> j == s
  {
    Pow2Word();
    forall k | 0 <= k < LEVELS && k != l
      ensures w.bitmap[k] == 0
    {
      forall j: nat | j < 64 ensures !Bit(w.bitmap[k], j) {
        assert Idx(k, j) != Idx(l, s);
      }
      ZeroIffNoBits(w.bitmap[k], 64);
    }
    forall j: nat
      ensures Bit(w.bitmap[l], j) <==> j == s
    {
      if j < 64 {
        assert j != s ==> Idx(l, j) != Idx(l, s);
      } else {
        NoHighBits(w.bitmap[l], 64, j);
      }
    }
  }

  /** A word rotated so that its only set bit s lands at position (s - c) mod 64. */
  lemma RotateLone(bm: U64, c: nat, s: nat)
    requires c < SLOTS && s < SLOTS
    requires forall j: nat :: Bit(bm, j) <==> j == s
    ensures forall k: nat :: Bit(RotateR64(bm, c), k) <==> k == (s - c) % SLOTS
  {
    var rot := RotateR64(bm, c);
    Pow2Word();
    forall k: nat
      ensures Bit(rot, k) <==> k == (s - c) % SLOTS
    {
      if k < 64 {
        RotateBit(bm, c, k);
        RotatedIndex(c, s, k);
      } else {
        NoHighBits(rot, 64, k);
      }
    }
  }

  /** Position k of a word rotated by c holds bit s exactly when k is (s - c) mod 64. */
  lemma RotatedIndex(c: nat, s: nat, k: nat)
    requires c < SLOTS && s < SLOTS && k < SLOTS
    ensures (k + c) % SLOTS == s <==> k == (s - c) % SLOTS
  {
  }

  /** A word whose only set bit is tz: the scan visits tz and nothing after it. */
  lemma ScanLone(rot: U64, tz: nat)
    requires forall k: nat :: Bit(rot, k) <==> k == tz
    ensures rot != 0 && Ctz(rot) == tz && ScanNext(rot) == 0
  {
    ZeroHasNoBits(tz);
    CtzUnique(rot, tz);
    if tz < 63 {
      forall k: nat ensures !Bit(ScanNext(rot), k) {
        BitOfShift(rot, tz + 1, k);
      }
      NoBitsZero(ScanNext(rot));
    }
  }

  /**
   * A level whose only occupied slot is s visits exactly that slot when it
   * has started by `now`, and nothing otherwise.
   */
  lemma LoneVisits<E>(w: Wheel<E>, l: nat, s: nat, now: U64, advance: nat)
    requires Shaped(w) && l < LEVELS && s < SLOTS
    requires forall j: nat :: Bit(w.bitmap[l], j) <==> j == s
    ensures LevelVisits(w, l, now, advance) ==
      if SlotStart(LevelStart(w.elapsed, l), l, s) <= now then [s] else []
  {
    var c := SlotFor(l, w.elapsed);
    var rot := RotateR64(w.bitmap[l], c);
    var tz := (s - c) % SLOTS;
    RotateLone(w.bitmap[l], c, s);
    ScanLone(rot, tz);
    CyclicBack(c, s);
    ScanOne(rot, c, LevelStart(w.elapsed, l), l, now, advance, s);
  }

  /** A scan whose first visit is slot s and whose bitmap is then exhausted. */
  lemma ScanOne(rot: U64, c: nat, levelStart: nat, l: nat, now: U64, advance: nat, s: nat)
    requires rot != 0 && (c + Ctz(rot)) % SLOTS == s && ScanNext(rot) == 0
    ensures ScanSlots(rot, c, levelStart, l, now, advance) ==
      if SlotStart(levelStart, l, s) <= now then [s] else []
  {
    ScanUnfold(rot, c, levelStart, l, now, advance);
  }

  /** The next expiration of a lone-entry wheel is the start of the entry's slot in the current rotation. */
  lemma LoneNextExpiration<E>(w: Wheel<E>, l: nat, s: nat, e: E)
    requires Lone(w, l, s, e)
    ensures NextExpiration(w) == SlotStart(LevelStart(w.elapsed, l), l, s)
  {
    var l', s' := NextExpirationSpec(w);
    assert w.slots[Idx(l, s)] != [];
    if l' == LEVELS || l' < l {
      assert false;
    }
    assert Idx(l', s') == Idx(l, s);
  }

  /** The levels from k up to l that visit no slot leave the wheel to the levels from l on. */
  lemma {:induction false} QuietUpTo<E>(w: Wheel<E>, k: nat, l: nat, now: U64, advance: nat, mode: Expiry)
    requires WF(w) && k <= l <= LEVELS
    requires forall j :: k <= j < l ==> LevelVisits(w, j, now, advance) == []
    ensures ProcessLevels(w, k, now, advance, mode) == ProcessLevels(w, l, now, advance, mode)
    decreases l - k
  {
    if k < l {
      assert ProcessLevel(w, k, now, advance, mode) == w;
      QuietUpTo(w, k + 1, l, now, advance, mode);
    }
  }

  /** The slot a lone entry is taken from when its slot is visited. */
  function LoneStart<E>(w: Wheel<E>, l: nat, s: nat): U64
  {
    SlotStart(LevelStart(w.elapsed, l), l, s)
  }

  /** What slot_process_expiration leaves when it visits the lone entry's slot at elapsed `start`. */
  function LoneDrained<E>(w: Wheel<E>, l: nat, s: nat, e: E, now: U64, mode: Expiry): (w': Wheel<E>)
    requires Lone(w, l, s, e)
    ensures Shaped(w')
  {
    DrainOne(Detach(w.(elapsed := LoneStart(w, l, s)), l, s), e, now, mode)
  }

  /**
   * time_process_at on a lone-entry wheel whose slot has started by `now`:
   * the finer levels are empty, the entry's slot is the one slot visited on
   * its level, and when the entry is re-inserted it goes no higher than its
   * level, so the coarser levels stay empty: the result is the slot
   * processing alone, with elapsed set to `now`.
   */
  lemma LoneProcessAt<E>(w: Wheel<E>, l: nat, s: nat, e: E, now: U64, mode: Expiry)
    requires Lone(w, l, s, e) && LoneStart(w, l, s) <= now
    requires now < w.deadline[e] ==> Home(LoneStart(w, l, s), w.deadline[e]).0 <= l
    ensures ProcessAt(w, now, mode) == LoneDrained(w, l, s, e, now, mode).(elapsed := now)
  {
    LoneBits(w, l, s, e);
    forall j | 0 <= j < l ensures LevelVisits(w, j, now, 1) == [] {
      EmptyLevelVisits(w, j, now, 1);
    }
    QuietUpTo(w, 0, l, now, 1, mode);
    LoneVisits(w, l, s, now, 1);
    var w0 := w.(elapsed := LoneStart(w, l, s));
    ElapsedWF(w, w0.elapsed);
    var w2 := ProcessSlot(w0, l, s, now, mode);
    assert LevelVisits(w, l, now, 1) == [s];
    ProcessOneSlot(w, l, s, LevelStart(w.elapsed, l), now, mode);
    assert ProcessLevel(w, l, now, 1, mode) == ProcessSlots(w, l, [s], LevelStart(w.elapsed, l), now, mode);
    assert ProcessSlots(w, l, [s], LevelStart(w.elapsed, l), now, mode) == w2;
    ProcessSlotOne(w0, l, s, e, now, mode);
    assert w2 == LoneDrained(w, l, s, e, now, mode);
    LoneDrainedHigh(w, l, s, e, now, mode);
    forall j | l + 1 <= j < LEVELS ensures LevelVisits(w2, j, now, 1) == [] {
      EmptyLevelVisits(w2, j, now, 1);
    }
    QuietLevels(w2, l + 1, now, 1, mode);
  }

  /** Visiting a single slot is processing that slot with elapsed at its start. */
  lemma ProcessOneSlot<E>(w: Wheel<E>, l: nat, s: nat, levelStart: nat, now: U64, mode: Expiry)
    requires WF(w) && l < LEVELS && s < SLOTS
    ensures WF(w.(elapsed := SlotStart(levelStart, l, s)))
    ensures ProcessSlots(w, l, [s], levelStart, now, mode) ==
      ProcessSlot(w.(elapsed := SlotStart(levelStart, l, s)), l, s, now, mode)
  {
    var w0 := w.(elapsed := SlotStart(levelStart, l, s));
    ElapsedWF(w, w0.elapsed);
    assert [s][1..] == [];
  }

  /** Processing a slot that holds one entry disposes of that entry, with the slot detached. */
  lemma ProcessSlotOne<E>(w: Wheel<E>, l: nat, s: nat, e: E, now: U64, mode: Expiry)
    requires WF(w) && l < LEVELS && s < SLOTS && w.slots[Idx(l, s)] == [e] && e in w.deadline
    ensures ProcessSlot(w, l, s, now, mode) == DrainOne(Detach(w, l, s), e, now, mode)
  {
    var d := Detach(w, l, s);
    assert Drain(d, [e], now, mode) == DrainOne(d, e, now, mode);
  }

  /** Processing the lone entry's slot leaves every level above l empty. */
  lemma LoneDrainedHigh<E>(w: Wheel<E>, l: nat, s: nat, e: E, now: U64, mode: Expiry)
    requires Lone(w, l, s, e)
    requires now < w.deadline[e] ==> LoneStart(w, l, s) < w.deadline[e] && Home(LoneStart(w, l, s), w.deadline[e]).0 <= l
    requires forall k :: 0 <= k < LEVELS && k != l ==> w.bitmap[k] == 0
    ensures forall k :: l < k < LEVELS ==> LoneDrained(w, l, s, e, now, mode).bitmap[k] == 0
  {
  }

  /** The lone-entry shape does not depend on elapsed. */
  lemma ElapsedLone<E>(w: Wheel<E>, l: nat, s: nat, e: E, t: U64)
    requires Lone(w, l, s, e)
    ensures Lone(w.(elapsed := t), l, s, e)
  {
    ElapsedWF(w, t);
  }

  /** The drained lone wheel is well formed. */
  lemma LoneDrainedWF<E>(w: Wheel<E>, l: nat, s: nat, e: E, now: U64, mode: Expiry)
    requires Lone(w, l, s, e)
    ensures WF(LoneDrained(w, l, s, e, now, mode))
  {
    var w0 := w.(elapsed := LoneStart(w, l, s));
    ElapsedWF(w, w0.elapsed);
    ProcessSlotOne(w0, l, s, e, now, mode);
  }

  /**
   * A lone entry due by `now` fires when its slot is processed: every slot
   * is then empty, and the entry is the whole pending list (tagged
   * TIMEOUT_PENDING) or the last woken entry (and off the deadline map).
   */
  lemma LoneFires<E>(w: Wheel<E>, l: nat, s: nat, e: E, now: U64, mode: Expiry)
    requires Lone(w, l, s, e) && w.deadline[e] <= now
    ensures var w' := LoneDrained(w, l, s, e, now, mode);
      && (forall i :: 0 <= i < NUM_SLOT_LISTS ==> w'.slots[i] == [])
      && (mode == ToPending ==> w'.pending == [e] && w'.woken == w.woken && e in w'.deadline && w'.deadline[e] == TIMEOUT_PENDING)
      && (mode == WakeDirectly ==> w'.pending == [] && w'.woken == w.woken + [e] && e !in w'.deadline)
  {
  }

  /**
   * A lone entry not yet due is cascaded: after its slot is processed it is
   * the lone entry of its Home slot for the slot's start time, with its
   * deadline unchanged.
   */
  lemma LoneCascades<E>(w: Wheel<E>, l: nat, s: nat, e: E, now: U64, mode: Expiry)
    requires Lone(w, l, s, e) && now < w.deadline[e] && LoneStart(w, l, s) < w.deadline[e]
    ensures var w' := LoneDrained(w, l, s, e, now, mode);
      var h := Home(LoneStart(w, l, s), w.deadline[e]);
      && w'.elapsed == LoneStart(w, l, s)
      && Lone(w', h.0, h.1, e) && w'.deadline[e] == w.deadline[e]
  {
    LoneDrainedWF(w, l, s, e, now, mode);
  }

  /** Deadline 5000 at elapsed 0 is a level-2 timeout in slot 1; at elapsed 4096 it is a level-1 timeout in slot 14. */
  lemma HomesOf5000()
    ensures Home(0, 5000) == (2, 1) && Home(4096, 5000) == (1, 14)
  {
    Pow2Values();
    LevelForExact(5000, 2);
    LevelForExact(904, 1);
    assert ShiftRight(5000, 12) == 1;
    assert ShiftRight(5000, 6) == 78;
  }

  /** Slot 1 of level 2 starts at 4096 in the rotation of elapsed 0. */
  lemma FirstStart()
    ensures SlotStart(LevelStart(0, 2), 2, 1) == 4096
  {
    LevelStartZero(2);
    SlotStartOf(2, 1);
    ResolutionsAgree(2);
  }

  /** Slot 14 of level 1 starts at 4992 in the rotation of elapsed 4096. */
  lemma SecondStart()
    ensures SlotStart(LevelStart(4096, 1), 1, 14) == 4992
  {
    AlignedLevelStart();
    SlotFourteen();
  }

  lemma SlotFourteen()
    ensures SlotStart(4096, 1, 14) == 4992
  {
    ResolutionsAgree(1);
  }

  /** At elapsed 4096 = 2^12 level 1 is at the start of a rotation. */
  lemma AlignedLevelStart()
    ensures LevelStart(4096, 1) == 4096
  {
    Pow2Values();
    LowBitsOfPow2(12);
  }

  /**
   * test_level_cascade: deadline 5000 inserted at elapsed 0 sits in slot
   * (2, 1) and the next expiration is 4096; time_process_at(4096) visits
   * that slot and, the entry not being due, cascades it to slot (1, 14),
   * so the next expiration becomes 4992; time_process_at(5000) visits that
   * slot and fires the entry, leaving every slot empty and the next
   * expiration 0.
   */
  lemma LevelCascade<E>(e: E, mode: Expiry) returns (w0: Wheel<E>, w1: Wheel<E>, w2: Wheel<E>)
    ensures w0 == Insert(EmptyWheel<E>(), e, 5000) && WF(w0)
    ensures NextExpiration(w0) == 4096
    ensures w1 == ProcessAt(w0, 4096, mode)
    ensures e in w1.deadline && w1.deadline[e] == 5000 && w1.slots[Idx(1, 14)] == [e]
    ensures NextExpiration(w1) == 4992
    ensures WF(w1) && w2 == ProcessAt(w1, 5000, mode)
    ensures forall i :: 0 <= i < NUM_SLOT_LISTS ==> w2.slots[i] == []
    ensures mode == ToPending ==> w2.pending == [e] && w2.deadline[e] == TIMEOUT_PENDING
    ensures mode == WakeDirectly ==> w2.woken == w1.woken + [e] && e !in w2.deadline
    ensures NextExpiration(w2) == 0
  {
    w0, w1 := CascadeDown(e, mode);
    w2 := CascadeFire(w1, e, mode);
  }

  /** The first half of test_level_cascade: insertion, then time_process_at(4096). */
  lemma CascadeDown<E>(e: E, mode: Expiry) returns (w0: Wheel<E>, w1: Wheel<E>)
    ensures w0 == Insert(EmptyWheel<E>(), e, 5000) && WF(w0)
    ensures NextExpiration(w0) == 4096
    ensures w1 == ProcessAt(w0, 4096, mode)
    ensures Lone(w1, 1, 14, e) && w1.elapsed == 4096 && w1.deadline[e] == 5000
  {
    HomesOf5000();
    FirstStart();
    InsertIntoEmpty(e, 5000, 2, 1);
    w0 := Insert(EmptyWheel<E>(), e, 5000);
    assert Lone(w0, 2, 1, e);
    LoneNextExpiration(w0, 2, 1, e);
    LoneProcessAt(w0, 2, 1, e, 4096, mode);
    LoneCascades(w0, 2, 1, e, 4096, mode);
    w1 := ProcessAt(w0, 4096, mode);
    ElapsedLone(LoneDrained(w0, 2, 1, e, 4096, mode), 1, 14, e, 4096);
  }

  /** The second half of test_level_cascade: time_process_at(5000) from the cascaded wheel. */
  lemma CascadeFire<E>(w1: Wheel<E>, e: E, mode: Expiry) returns (w2: Wheel<E>)
    requires Lone(w1, 1, 14, e) && w1.elapsed == 4096 && w1.deadline[e] == 5000
    ensures NextExpiration(w1) == 4992
    ensures w2 == ProcessAt(w1, 5000, mode)
    ensures forall i :: 0 <= i < NUM_SLOT_LISTS ==> w2.slots[i] == []
    ensures mode == ToPending ==> w2.pending == [e] && w2.deadline[e] == TIMEOUT_PENDING
    ensures mode == WakeDirectly ==> w2.woken == w1.woken + [e] && e !in w2.deadline
    ensures NextExpiration(w2) == 0
  {
    SecondStart();
    LoneNextExpiration(w1, 1, 14, e);
    LoneProcessAt(w1, 1, 14, e, 5000, mode);
    LoneFires(w1, 1, 14, e, 5000, mode);
    w2 := ProcessAt(w1, 5000, mode);
    EmptyExpiry(w2);
  }

  /** A well-formed wheel with every slot empty has next expiration 0. */
  lemma EmptyExpiry<E>(w: Wheel<E>)
    requires WF(w) && forall i :: 0 <= i < NUM_SLOT_LISTS ==> w.slots[i] == []
    ensures NextExpiration(w) == 0
  {
    var l, s := NextExpirationSpec(w);
    if l < LEVELS {
      assert false;
    }
  }
}

=== FILE: wheel_expiry.dfy ===
/**
 * time_next_expiration (src/time.c:209-220, src/time_driver.c:104-115): the
 * start of the first occupied slot, found level by level from the finest.
 */
module WheelExpiry {
  import opened Bits
  import opened WheelMath
  import opened WheelModel
  import opened WheelScan

  /** The level loop of time_next_expiration stops at the first level from `level` on with an occupied slot. */
  lemma {:induction false} NextExpirationFromSpec<E>(w: Wheel<E>, level: nat) returns (l: nat)
    requires Shaped(w) && level <= LEVELS
    ensures level <= l <= LEVELS
    ensures forall k :: level <= k < l ==> w.bitmap[k] == 0
    ensures l == LEVELS ==> NextExpirationFrom(w, level) == 0
    ensures l < LEVELS ==>
      w.bitmap[l] != 0 &&
      NextExpirationFrom(w, level) == SlotStart(LevelStart(w.elapsed, l), l, SlotNextOccupied(l, w.elapsed, w.bitmap[l]))
    decreases LEVELS - level
  {
    if level == LEVELS {
      l := LEVELS;
    } else {
      SlotNextOccupiedSpec(level, w.elapsed, w.bitmap[level]);
      if w.bitmap[level] != 0 {
        l := level;
      } else {
        l := NextExpirationFromSpec(w, level + 1);
      }
    }
  }

  /**
   * time_next_expiration on a well-formed wheel: every slot list of the levels
   * below l is empty; if l is LEVELS (no slot holds an entry) the result is 0;
   * otherwise slot s of level l holds an entry, every slot passed over going
   * round from the slot of `elapsed` is empty, and the result is the start of
   * slot s in the current rotation of level l.
   */
  lemma NextExpirationSpec<E>(w: Wheel<E>) returns (l: nat, s: nat)
    requires Shaped(w) && BitsAgree(w)
    ensures l <= LEVELS
    ensures forall k: nat, j: nat :: k < l && j < SLOTS ==> w.slots[Idx(k, j)] == []
    ensures l == LEVELS ==> NextExpiration(w) == 0
    ensures l < LEVELS ==>
      var c := SlotFor(l, w.elapsed);
      && s < SLOTS && w.slots[Idx(l, s)] != []
      && (forall j: nat :: j < (s - c) % SLOTS ==> w.slots[Idx(l, Cyclic(c, j))] == [])
      && NextExpiration(w) == SlotStart(LevelStart(w.elapsed, l), l, s)
  {
    s := 0;
    l := NextExpirationFromSpec(w, 0);
    forall k: nat, j: nat | k < l && j < SLOTS
      ensures w.slots[Idx(k, j)] == []
    {
      ZeroHasNoBits(j);
    }
    if l < LEVELS {
      SlotNextOccupiedSpec(l, w.elapsed, w.bitmap[l]);
      s := SlotNextOccupied(l, w.elapsed, w.bitmap[l]);
    }
  }

  /** A fresh driver has no next expiration. */
  lemma EmptyNextExpiration<E>()
    ensures NextExpiration(EmptyWheel<E>()) == 0
  {
    var w := EmptyWheel<E>();
    var l := NextExpirationFromSpec(w, 0);
    assert forall k :: 0 <= k < LEVELS ==> w.bitmap[k] == 0;
  }

  /**
   * An entry whose deadline is not after `elapsed` fires on insertion: it
   * leaves the deadline map and the next expiration does not change
   * (test_insert_expired).
   */
  lemma InsertExpired<E>(w: Wheel<E>, e: E, d: U64)
    requires Shaped(w) && w.elapsed >= d
    ensures e !in Insert(w, e, d).deadline
    ensures NextExpiration(Insert(w, e, d)) == NextExpiration(w)
  {
    var w' := Insert(w, e, d);
    assert w'.bitmap == w.bitmap && w'.elapsed == w.elapsed;
    NextExpirationSame(w, w', 0);
  }

  /** The next expiration depends only on elapsed and the bitmaps. */
  lemma {:induction false} NextExpirationSame<E>(w: Wheel<E>, w': Wheel<E>, level: nat)
    requires Shaped(w) && Shaped(w') && level <= LEVELS
    requires w'.bitmap == w.bitmap && w'.elapsed == w.elapsed
    ensures NextExpirationFrom(w', level) == NextExpirationFrom(w, level)
    decreases LEVELS - level
  {
    if level < LEVELS {
      NextExpirationSame(w, w', level + 1);
    }
  }

  /** test_insert_timeout_and_expiration: deadline 500 inserted at elapsed 0 goes to level 1, slot 7, which starts at 448. */
  lemma InsertNextExpiration500<E>(e: E)
    ensures Insert(EmptyWheel<E>(), e, 500).slots[Idx(1, 7)] == [e]
    ensures NextExpiration(Insert(EmptyWheel<E>(), e, 500)) == 448
  {
    var w0 := EmptyWheel<E>();
    HomeOf500();
    var w := Insert(w0, e, 500);
    assert w == Push(w0, 1, 7, e, 500);
    PushEmptyExpiry(e, 1, 7, 500);
    ResolutionsAgree(1);
  }

  /** One entry pushed on slot (l, s) of a fresh driver is the next to expire, at s slot widths of level l. */
  lemma PushEmptyExpiry<E>(e: E, l: nat, s: nat, d: U64)
    requires l < LEVELS && s < SLOTS
    ensures NextExpiration(Push(EmptyWheel<E>(), l, s, e, d)) == s * SlotResolution(l)
  {
    var w := Push(EmptyWheel<E>(), l, s, e, d);
    assert forall k :: 0 <= k < l ==> w.bitmap[k] == 0;
    SingleSlotExpiry(w, l, s);
  }

  /**
   * At elapsed 0, when the levels below l are empty and slot s is the only
   * occupied slot of level l, the next expiration is s slot widths of level l.
   */
  lemma SingleSlotExpiry<E>(w: Wheel<E>, l: nat, s: nat)
    requires Shaped(w) && w.elapsed == 0 && l < LEVELS && s < SLOTS
    requires forall k :: 0 <= k < l ==> w.bitmap[k] == 0
    requires forall j: nat :: Bit(w.bitmap[l], j) <==> j == s || Bit(0, j)
    ensures NextExpiration(w) == s * SlotResolution(l)
  {
    var bm := w.bitmap[l];
    OnlyBit(bm, s);
    var first := NextExpirationFromSpec(w, 0);
    assert first == l;
    SlotNextOccupiedAtZero(l, bm, s);
    LevelStartZero(l);
    SlotStartOf(l, s);
  }

  /** At elapsed 0 every level's cursor is slot 0, so the first occupied slot is the lowest set bit. */
  lemma SlotNextOccupiedAtZero(l: nat, bm: U64, s: nat)
    requires bm != 0 && Ctz(bm) == s && s < SLOTS
    ensures SlotNextOccupied(l, 0, bm) == s
  {
    assert SlotFor(l, 0) == 0 by { ZeroHasNoBits(6 * l); }
    RotateZero(bm);
  }

  lemma HomeOf500()
    ensures Home(0, 500) == (1, 7)
  {
    Pow2Values();
    LevelForExact(500, 1);
    assert ShiftRight(500, 6) == 7;
  }

  /** A word whose only set bit is k has k trailing zeros. */
  lemma OnlyBit(x: U64, k: nat)
    requires forall j: nat :: Bit(x, j) <==> j == k || Bit(0, j)
    ensures x != 0 && Ctz(x) == k
  {
    forall j: nat ensures !Bit(0, j) {
      ZeroHasNoBits(j);
    }
    ZeroHasNoBits(k);
    CtzUnique(x, k);
  }

  /** Every level of a driver at elapsed 0 starts at 0. */
  lemma LevelStartZero(level: nat)
    ensures LevelStart(0, level) == 0
  {
    LowBitsZero(6 * level + 6);
  }

  /** Slot s of level l in a rotation starting at 0 starts at s * 64^l. */
  lemma SlotStartOf(l: nat, s: nat)
    requires l < LEVELS && s < SLOTS
    ensures SlotStart(0, l, s) == s * SlotResolution(l)
  {
    Pow2Monotone(6 * l, 30);
    Pow2Values();
    var r := SlotResolution(l);
    assert r <= 0x4000_0000;
    assert s * r <= 63 * 0x4000_0000;
  }
}

=== FILE: wheel_math.dfy ===
/**
 * The index arithmetic of the hierarchical timing wheel (src/time.c,
 * src/time_driver.c): which level and slot a deadline belongs to, the
 * resolution of slots and levels, and the search for the next occupied slot.
 *
 * `x & SLOT_MASK` (SLOT_MASK = 63) is written `x % SLOTS`; `x >> n`,
 * `x & ~(2^n - 1)` and bit tests use the helpers of module Bits.
 */
module WheelMath {
  import opened Bits

  const LEVELS: nat := 6
  const SLOTS: nat := 64
  /** TIME_MAX_TIMEOUT_MS = 2^36 - 1 (include/time.h) */
  const MAX_TIMEOUT: nat := 0xF_FFFF_FFFF

  /** Number of slot lists in the wheel; list (level, slot) is at index Idx(level, slot). */
  const NUM_SLOT_LISTS: nat := 384

  function Idx(level: nat, slot: nat): (i: nat)
    requires level < LEVELS && slot < SLOTS
    ensures i < NUM_SLOT_LISTS
  {
    SLOTS * level + slot
  }

  /** TIMEOUT_FIRED and TIMEOUT_PENDING: deadline values that mark an entry as fired or queued for wake-up. */
  const TIMEOUT_FIRED: U64 := TWO_64 - 1
  const TIMEOUT_PENDING: U64 := TWO_64 - 2

  /** active_slot_bitmap[l] |= BIT_SET(s) */
  function SetSlotBit(bitmap: U64, s: nat): (r: U64)
    requires s < SLOTS
    ensures forall k: nat :: Bit(r, k) <==> k == s || Bit(bitmap, k)
  {
    Pow2Word();
    SetBitBound(bitmap, s, 64);
    forall k: nat ensures Bit(SetBit(bitmap, s), k) <==> k == s || Bit(bitmap, k) {
      SetBitBits(bitmap, s, k);
    }
    SetBit(bitmap, s)
  }

  /** active_slot_bitmap[l] &= ~BIT_SET(s) */
  function ClearSlotBit(bitmap: U64, s: nat): (r: U64)
    requires s < SLOTS
    ensures forall k: nat :: Bit(r, k) <==> k != s && Bit(bitmap, k)
  {
    forall k: nat ensures Bit(ClearBit(bitmap, s), k) <==> k != s && Bit(bitmap, k) {
      ClearBitBits(bitmap, s, k);
    }
    ClearBit(bitmap, s)
  }

  /** level_for: the level whose slots are the right granularity for a timeout. */
  function LevelFor(timeout: U64): nat
  {
    var masked := ClearLow(timeout, 6) + 63;
    var clamped := if masked >= MAX_TIMEOUT then MAX_TIMEOUT - 1 else masked;
    var leadingZeros := 64 - BitLength(clamped);
    (63 - leadingZeros) / LEVELS
  }

  /** slot_for: bits 6 * level .. 6 * level + 5 of the deadline. */
  function SlotFor(level: nat, deadline: U64): (s: nat)
    ensures s < SLOTS
  {
    ShiftRight(deadline, 6 * level) % SLOTS
  }

  /** slot_resolution: milliseconds covered by one slot of a level. */
  function SlotResolution(level: nat): nat
  {
    Pow2(6 * level)
  }

  /** level_resolution: milliseconds covered by a whole level. */
  function LevelResolution(slotRes: nat): nat
  {
    SLOTS * slotRes
  }

  /**
   * elapsed & ~(level_res - 1): the start of the current rotation of a level.
   * The level resolution of level l is 2^(6 * l + 6).
   */
  function LevelStart(elapsed: U64, level: nat): nat
  {
    ClearLow(elapsed, 6 * level + 6)
  }

  /** The start time of a slot within the current rotation, in uint64_t arithmetic. */
  function SlotStart(levelStart: nat, level: nat, slot: nat): U64
  {
    (levelStart + slot * SlotResolution(level)) % TWO_64
  }

  /** slot_next_occupied: the first occupied slot at or cyclically after the slot of `now`. */
  function SlotNextOccupied(level: nat, now: U64, bitmap: U64): int
  {
    if bitmap == 0 then -1
    else
      var nowSlot := SlotFor(level, now);
      (nowSlot + Ctz(RotateR64(bitmap, nowSlot))) % SLOTS
  }

  // ---------------------------------------------------------------------
  // Properties
  // ---------------------------------------------------------------------

  lemma ResolutionsAgree(level: nat)
    ensures LevelResolution(SlotResolution(level)) == Pow2(6 * level + 6)
    ensures SlotResolution(0) == 1 && SlotResolution(1) == 64
    ensures SlotResolution(2) == 4096 && SlotResolution(3) == 262144
  {
    Pow2Add(6 * level, 6);
    Pow2Values();
  }

  /** t | 63 is t rounded up to the last millisecond of its 64 ms block. */
  lemma OrMaskBounds(t: U64)
    ensures t <= ClearLow(t, 6) + 63 < t + 64
    ensures (ClearLow(t, 6) + 63) / 64 == t / 64
  {
    var h := ShiftRight(t, 6);
    LowHighSplit(t, 6);
    ShiftLeftMul(h, 6);
    assert Pow2(6) == 64;
    assert h == t / 64;
  }

  /** A word of bit length b lies in [2^(b-1), 2^b). */
  lemma BitLengthRange(c: nat)
    requires c != 0
    ensures BitLength(c) > 0 && Pow2(BitLength(c) - 1) <= c < Pow2(BitLength(c))
  {
    ShiftRightBoundBelow(c, BitLength(c) - 1);
  }

  /** Grouping bit positions by six: a word of bit length b in 1..36 lies in level (b - 1) / 6's range. */
  lemma LevelOfBitLength(c: nat, b: nat, l: nat)
    requires 0 < b && Pow2(b - 1) <= c < Pow2(b) && 6 * l <= b - 1 && b <= 6 * l + 6
    ensures Pow2(6 * l) <= c < Pow2(6 * l + 6)
  {
    Pow2Below(c, 6 * l, b - 1);
    Pow2Above(c, b, 6 * l + 6);
  }

  lemma Pow2Below(c: nat, a: nat, b: nat)
    requires a <= b && Pow2(b) <= c
    ensures Pow2(a) <= c
  {
    Pow2Monotone(a, b);
  }

  lemma Pow2Above(c: nat, a: nat, b: nat)
    requires a <= b && c < Pow2(a)
    ensures c < Pow2(b)
  {
    Pow2Monotone(a, b);
  }

  lemma DivSix(b: nat, l: nat)
    requires 0 < b <= 36 && l == (b - 1) / 6
    ensures l < LEVELS && 6 * l <= b - 1 && b <= 6 * l + 6
  {
  }

  /**
   * The level of a timeout is the one whose range [64^l, 64^(l+1)) holds it;
   * timeouts below 64 go to level 0 and timeouts at or beyond the top range
   * to level 5.
   */
  lemma LevelForRange(t: U64)
    ensures LevelFor(t) < LEVELS
    ensures LevelFor(t) > 0 ==> Pow2(6 * LevelFor(t)) <= t
    ensures LevelFor(t) < LEVELS - 1 ==> t < Pow2(6 * LevelFor(t) + 6)
  {
    if ClearLow(t, 6) + 63 >= MAX_TIMEOUT {
      LevelForClamped(t);
    } else {
      LevelForUnclamped(t);
    }
  }

  lemma LevelForClamped(t: U64)
    requires ClearLow(t, 6) + 63 >= MAX_TIMEOUT
    ensures LevelFor(t) == LEVELS - 1 && Pow2(30) <= t
  {
    var c := MAX_TIMEOUT - 1;
    var b := BitLength(c);
    assert b == 36 by {
      Pow2Values();
      BitLengthAtMost(c, 36);
      BitLengthRange(c);
      if b < 36 {
        Pow2Monotone(b, 35);
      }
    }
    OrMaskBounds(t);
    Pow2Values();
  }

  lemma LevelForUnclamped(t: U64)
    requires ClearLow(t, 6) + 63 < MAX_TIMEOUT
    ensures LevelFor(t) < LEVELS
    ensures LevelFor(t) > 0 ==> Pow2(6 * LevelFor(t)) <= t
    ensures t < Pow2(6 * LevelFor(t) + 6)
  {
    var masked := ClearLow(t, 6) + 63;
    var l := LevelForValue(t, masked);
    LevelRangeOfTimeout(t, masked, BitLength(masked), l);
  }

  lemma LevelRangeOfTimeout(t: U64, masked: nat, b: nat, l: nat)
    requires masked == ClearLow(t, 6) + 63 < MAX_TIMEOUT
    requires b == BitLength(masked) && l == (b - 1) / 6
    ensures l < LEVELS && t < Pow2(6 * l + 6) && (l > 0 ==> Pow2(6 * l) <= t)
  {
    OrMaskBounds(t);
    LevelRangeOfMasked(t, masked, b, l);
  }

  /** Below the clamp, the level is (bit length of t | 63, minus one) / 6. */
  lemma LevelForValue(t: U64, masked: nat) returns (l: nat)
    requires masked == ClearLow(t, 6) + 63 < MAX_TIMEOUT
    ensures BitLength(masked) > 0 && l == (BitLength(masked) - 1) / 6 && LevelFor(t) == l
  {
    var b := BitLength(masked);
    l := (b - 1) / 6;
    SubFrom63(b);
  }

  lemma SubFrom63(b: nat)
    ensures (63 - (64 - b)) / LEVELS == (b - 1) / 6
  {
  }

  /** The level range of t, from the bit length of t | 63 (which lies in t's 64 ms block). */
  lemma LevelRangeOfMasked(t: nat, masked: nat, b: nat, l: nat)
    requires t <= masked && masked / 64 == t / 64 && 63 <= masked < MAX_TIMEOUT
    requires b == BitLength(masked) && l == (b - 1) / 6
    ensures l < LEVELS && t < Pow2(6 * l + 6) && (l > 0 ==> Pow2(6 * l) <= t)
  {
    BitLengthOfMasked(masked);
    DivSix(b, l);
    LevelOfBitLength(masked, b, l);
    if l > 0 {
      Pow2Multiple64(l);
      MultipleBelow(Pow2(6 * l), t, masked);
    }
  }

  /** A multiple of 64 that is at most a value in t's 64 ms block is at most t. */
  lemma MultipleBelow(x: nat, t: nat, masked: nat)
    requires x % 64 == 0 && x <= masked && masked / 64 == t / 64
    ensures x <= t
  {
  }

  lemma BitLengthOfMasked(masked: nat)
    requires 63 <= masked < MAX_TIMEOUT
    ensures 0 < BitLength(masked) <= 36
    ensures Pow2(BitLength(masked) - 1) <= masked < Pow2(BitLength(masked))
  {
    assert masked < Pow2(36) by { Pow2Values(); }
    BitLengthAtMost(masked, 36);
    BitLengthRange(masked);
  }

  lemma Pow2Multiple64(l: nat)
    requires l > 0
    ensures Pow2(6 * l) % 64 == 0
  {
    var k := 6 * l - 6;
    Pow2Add(6, k);
    assert 6 + k == 6 * l;
    assert Pow2(6) == 64;
    DivisibleBy64(Pow2(k));
  }

  lemma DivisibleBy64(p: nat)
    ensures (64 * p) % 64 == 0
  {
  }

  /** The range condition of LevelForRange determines the level: it holds of no other level. */
  lemma LevelForExact(t: U64, l: nat)
    requires l < LEVELS
    requires l > 0 ==> Pow2(6 * l) <= t
    requires l < LEVELS - 1 ==> t < Pow2(6 * l + 6)
    ensures LevelFor(t) == l
  {
    var L := LevelFor(t);
    LevelForRange(t);
    BandOrder(L, l);
    BandOrder(l, L);
  }

  /** The range of a lower level ends where the range of a higher one starts, or earlier. */
  lemma BandOrder(a: nat, b: nat)
    ensures a < b ==> Pow2(6 * a + 6) <= Pow2(6 * b)
  {
    if a < b {
      Pow2Monotone(6 * a + 6, 6 * b);
    }
  }

  lemma SlotForPins()
    ensures SlotFor(0, 0) == 0 && SlotFor(0, 63) == 63
    ensures SlotFor(1, 64) == 1 && SlotFor(1, 4095) == 63
  {
  }

  /** The slot reached after moving j slots round from slot c. */
  function Cyclic(c: nat, j: nat): nat
  {
    (c + j) % SLOTS
  }

  /** Rotation loses no bit: a non-zero word stays non-zero. */
  lemma RotateNonZero(x: U64, n: nat)
    requires x != 0 && n < 64
    ensures RotateR64(x, n) != 0
  {
    var k := Ctz(x);
    CtzSpec(x);
    CtzBelow64(x);
    var j := RotatedPosition(k, n);
    RotateBit(x, n, j);
    ZeroHasNoBits(j);
  }

  /** The position bit k of a word moves to when the word is rotated right by n. */
  lemma RotatedPosition(k: nat, n: nat) returns (j: nat)
    requires k < 64 && n < 64
    ensures j < 64 && (j + n) % 64 == k
  {
    j := (k + 64 - n) % 64;
  }

  /**
   * slot_next_occupied returns -1 exactly when the bitmap is empty; otherwise
   * an occupied slot such that every slot passed over, going round from the
   * slot of `now`, is empty.
   */
  lemma SlotNextOccupiedSpec(level: nat, now: U64, bitmap: U64)
    ensures SlotNextOccupied(level, now, bitmap) == -1 <==> bitmap == 0
    ensures bitmap != 0 ==>
      var r := SlotNextOccupied(level, now, bitmap);
      var c := SlotFor(level, now);
      && 0 <= r < SLOTS && Bit(bitmap, r)
      && forall j: nat :: j < (r - c) % SLOTS ==> !Bit(bitmap, Cyclic(c, j))
  {
    if bitmap != 0 {
      var c := SlotFor(level, now);
      var rot := RotateR64(bitmap, c);
      RotateNonZero(bitmap, c);
      var tz := Ctz(rot);
      CtzSpec(rot);
      CtzBelow64(rot);
      RotateBit(bitmap, c, tz);
      var r := (c + tz) % SLOTS;
      assert SlotNextOccupied(level, now, bitmap) == r;
      CyclicDistance(c, tz);
      forall j: nat | j < tz
        ensures !Bit(bitmap, Cyclic(c, j))
      {
        RotateBit(bitmap, c, j);
      }
    }
  }

  /** Bits 5, 10 and 20 are the set bits of the bitmap used by test_slot_next_occupied. */
  lemma PinBitmapBits(k: nat)
    ensures Bit(0x10_0420, k) <==> k == 5 || k == 10 || k == 20
  {
    assert Pow2(5) == 32 && Pow2(6) == 64;
    assert Pow2(10) == 1024 && Pow2(11) == 2048;
    assert Pow2(20) == 0x10_0000;
    NoHighBits(0, 0, 5);
    assert SetBit(0, 5) == 32;
    NoHighBits(32, 6, 10);
    assert SetBit(32, 10) == 0x420;
    NoHighBits(0x420, 11, 20);
    assert SetBit(0x420, 20) == 0x10_0420;
    SetBitBits(0x420, 20, k);
    SetBitBits(32, 10, k);
    SetBitBits(0, 5, k);
    ZeroHasNoBits(k);
  }

  /** The occupied slot described by SlotNextOccupiedSpec is unique. */
  lemma SlotNextOccupiedUnique(level: nat, now: U64, bitmap: U64, r: nat)
    requires r < SLOTS && Bit(bitmap, r)
    requires forall j: nat :: j < (r - SlotFor(level, now)) % SLOTS ==> !Bit(bitmap, Cyclic(SlotFor(level, now), j))
    ensures SlotNextOccupied(level, now, bitmap) == r
  {
    ZeroHasNoBits(r);
    SlotNextOccupiedSpec(level, now, bitmap);
    FirstOccupiedUnique(SlotFor(level, now), bitmap, r, SlotNextOccupied(level, now, bitmap));
  }

  /** Two slots that are both the first occupied one going round from c are the same slot. */
  lemma FirstOccupiedUnique(c: nat, bitmap: U64, r: nat, q: nat)
    requires c < SLOTS
    requires r < SLOTS && Bit(bitmap, r)
    requires forall j: nat :: j < (r - c) % SLOTS ==> !Bit(bitmap, Cyclic(c, j))
    requires q < SLOTS && Bit(bitmap, q)
    requires forall j: nat :: j < (q - c) % SLOTS ==> !Bit(bitmap, Cyclic(c, j))
    ensures q == r
  {
    CyclicBack(c, q);
    CyclicBack(c, r);
  }

  /** Slot (c + d) mod 64 lies d slots round from c. */
  lemma CyclicDistance(c: nat, d: nat)
    requires c < SLOTS && d < SLOTS
    ensures ((c + d) % SLOTS - c) % SLOTS == d
  {
  }

  /** Going round from c by (s - c) mod 64 slots reaches s. */
  lemma CyclicBack(c: nat, s: nat)
    requires c < SLOTS && s < SLOTS
    ensures Cyclic(c, (s - c) % SLOTS) == s
  {
  }

  /** The answers pinned by test_slot_next_occupied. */
  lemma SlotNextOccupiedPins()
    ensures SlotNextOccupied(0, 0, 0x10_0420) == 5
    ensures SlotNextOccupied(0, 6, 0x10_0420) == 10
    ensures SlotNextOccupied(0, 21, 0x10_0420) == 5
  {
    PinFrom(0x10_0420, 0, 5);
    PinFrom(0x10_0420, 6, 10);
    PinFrom(0x10_0420, 21, 5);
  }

  lemma PinFrom(b: U64, now: nat, r: nat)
    requires b == 0x10_0420
    requires (now, r) in {(0, 5), (6, 10), (21, 5)}
    ensures SlotNextOccupied(0, now, b) == r
  {
    forall k: nat ensures Bit(b, k) <==> k == 5 || k == 10 || k == 20 {
      PinBitmapBits(k);
    }
    assert SlotFor(0, now) == now;
    PinGap(now, r);
    SlotNextOccupiedUnique(0, now, b, r);
  }

  /** Going round from `now` to `r`, none of the slots 5, 10 and 20 is passed. */
  lemma PinGap(now: nat, r: nat)
    requires (now, r) in {(0, 5), (6, 10), (21, 5)}
    ensures forall j: nat :: j < (r - now) % SLOTS ==> Cyclic(now, j) !in {5, 10, 20}
  {
  }
}

=== FILE: wheel_model.dfy ===
/**
 * The hierarchical timing wheel of src/time.c as a value.
 *
 * A wheel has six levels of 64 slot lists, one occupancy bitmap per level,
 * a pending list of entries whose deadline has passed, and the time `elapsed`
 * up to which it has been advanced. Entries are opaque values of type E; the
 * deadline field of every entry in a slot or in the pending list is kept in a
 * map. The older revision src/time_driver.c wakes due entries directly instead
 * of queueing them; those entries are recorded, in wake order, in `woken`.
 * The imperative driver (module TimeDriver) is proved to follow these
 * functions step by step.
 */
module WheelModel {
  import opened Bits
  import opened WheelMath

  datatype Option<T> = None | Some(value: T)

  /** What slot_process_expiration does with an entry whose deadline has passed. */
  datatype Expiry =
    | ToPending     // src/time.c: tag it TIMEOUT_PENDING and push it on the pending list
    | WakeDirectly  // src/time_driver.c: tag it TIMEOUT_FIRED and wake its task at once

  datatype Wheel<E> = Wheel(
    elapsed: U64,
    slots: seq<seq<E>>,      // wheel_levels[l].slots[s] is slots[Idx(l, s)], head first
    bitmap: seq<U64>,        // active_slot_bitmap
    pending: seq<E>,         // pending_list_head, head first
    woken: seq<E>,           // entries woken directly, oldest first
    deadline: map<E, U64>)   // entry->deadline of every entry in the wheel

  predicate Shaped<E>(w: Wheel<E>)
  {
    |w.slots| == NUM_SLOT_LISTS && |w.bitmap| == LEVELS
  }

  /** time_driver(): every list empty, every bitmap zero, elapsed zero. */
  function EmptyWheel<E>(): (w: Wheel<E>)
    ensures Shaped(w) && Contents(w) == multiset{}
  {
    var w := Wheel(0, seq(NUM_SLOT_LISTS, _ => []), seq(LEVELS, _ => 0), [], [], map[]);
    FlattenEmpty(w.slots);
    w
  }

  function Flatten<E>(ss: seq<seq<E>>): seq<E>
  {
    if ss == [] then [] else ss[0] + Flatten(ss[1..])
  }

  /** Every entry the wheel holds, in a slot or in the pending list, with multiplicity. */
  function Contents<E>(w: Wheel<E>): multiset<E>
  {
    multiset(Flatten(w.slots)) + multiset(w.pending)
  }

  predicate NoDup<E>(m: multiset<E>)
  {
    forall e | e in m :: m[e] == 1
  }

  /** No entry is in two places, and the deadline map covers exactly the entries. */
  predicate Counted<E>(w: Wheel<E>, held: multiset<E>)
  {
    && NoDup(Contents(w) + held)
    && (forall e | e in w.deadline :: e in Contents(w) + held)
    && (forall e | e in Contents(w) + held :: e in w.deadline)
    && (forall e | e in held :: e in w.deadline && w.deadline[e] < TIMEOUT_PENDING)
  }

  /** A level's bit for a slot is set exactly when the slot's list is non-empty. */
  predicate BitsAgree<E>(w: Wheel<E>)
    requires Shaped(w)
  {
    forall l: nat, s: nat :: l < LEVELS && s < SLOTS ==>
      (Bit(w.bitmap[l], s) <==> w.slots[Idx(l, s)] != [])
  }

  /** An entry in slot (l, s) has a real deadline whose level-l slot is s. */
  predicate Placed<E>(w: Wheel<E>)
    requires Shaped(w)
  {
    forall l: nat, s: nat, e | l < LEVELS && s < SLOTS && e in w.slots[Idx(l, s)] ::
      e in w.deadline && w.deadline[e] < TIMEOUT_PENDING && SlotFor(l, w.deadline[e]) == s
  }

  /** Every entry on the pending list is tagged TIMEOUT_PENDING. */
  predicate Tagged<E>(w: Wheel<E>)
  {
    forall e | e in w.pending :: e in w.deadline && w.deadline[e] == TIMEOUT_PENDING
  }

  /**
   * The invariant of the wheel, with the entries `held` taken out of their
   * slot (as while a slot is being drained).
   */
  predicate Holds<E>(w: Wheel<E>, held: multiset<E>)
  {
    Shaped(w) && Counted(w, held) && BitsAgree(w) && Placed(w) && Tagged(w)
  }

  predicate WF<E>(w: Wheel<E>)
  {
    Holds(w, multiset{})
  }

  // ---------------------------------------------------------------------
  // Operations
  // ---------------------------------------------------------------------

  /** The level and slot time_insert_timeout chooses for deadline d. */
  function Home(elapsed: U64, d: U64): (ls: (nat, nat))
    requires elapsed < d
    ensures ls.0 < LEVELS && ls.1 < SLOTS
  {
    LevelForRange(d - elapsed);
    var l := LevelFor(d - elapsed);
    (l, SlotFor(l, d))
  }

  /**
   * time_insert_timeout: an entry whose deadline is not after `elapsed` fires
   * at once (it is not put in the wheel); otherwise it goes to the front of
   * its Home slot and that slot's bit is set.
   */
  function Insert<E>(w: Wheel<E>, e: E, d: U64): (w': Wheel<E>)
    requires Shaped(w)
    ensures Shaped(w') && w'.elapsed == w.elapsed && w'.pending == w.pending && w'.woken == w.woken
  {
    if w.elapsed >= d then w.(deadline := w.deadline - {e})
    else
      var (l, s) := Home(w.elapsed, d);
      Push(w, l, s, e, d)
  }

  /** Pushes an entry on the front of slot (l, s) and sets that slot's bit. */
  function Push<E>(w: Wheel<E>, l: nat, s: nat, e: E, d: U64): (w': Wheel<E>)
    requires Shaped(w) && l < LEVELS && s < SLOTS
    ensures Shaped(w') && w'.elapsed == w.elapsed && w'.pending == w.pending && w'.woken == w.woken
  {
    var i := Idx(l, s);
    w.(slots := w.slots[i := [e] + w.slots[i]],
       bitmap := w.bitmap[l := SetSlotBit(w.bitmap[l], s)],
       deadline := w.deadline[e := d])
  }

  /** Disposes of one entry taken from a slot: a due entry expires, any other is inserted again. */
  function DrainOne<E>(w: Wheel<E>, e: E, now: U64, mode: Expiry): (w': Wheel<E>)
    requires Shaped(w) && e in w.deadline
    ensures Shaped(w') && w'.elapsed == w.elapsed
    ensures forall x | x in w.deadline && x != e :: x in w'.deadline
  {
    var d := w.deadline[e];
    if now >= d then
      match mode
      case ToPending => w.(pending := [e] + w.pending, deadline := w.deadline[e := TIMEOUT_PENDING])
      case WakeDirectly => w.(woken := w.woken + [e], deadline := w.deadline - {e})
    else Insert(w, e, d)
  }

  /** The loop of slot_process_expiration over the entries taken from the slot, in order. */
  function Drain<E>(w: Wheel<E>, detached: seq<E>, now: U64, mode: Expiry): (w': Wheel<E>)
    requires Shaped(w)
    requires forall e | e in detached :: e in w.deadline
    requires NoDup(multiset(detached))
    ensures Shaped(w') && w'.elapsed == w.elapsed
    decreases |detached|
  {
    if detached == [] then w
    else
      var e := detached[0];
      var w1 := DrainOne(w, e, now, mode);
      DistinctTail(detached);
      Drain(w1, detached[1..], now, mode)
  }

  /** The wheel with slot (level, slot) emptied and its bit cleared. */
  function Detach<E>(w: Wheel<E>, level: nat, slot: nat): (w': Wheel<E>)
    requires Shaped(w) && level < LEVELS && slot < SLOTS
    ensures Shaped(w') && w'.elapsed == w.elapsed
  {
    w.(slots := w.slots[Idx(level, slot) := []],
       bitmap := w.bitmap[level := ClearSlotBit(w.bitmap[level], slot)])
  }

  /**
   * slot_process_expiration, with the slot's list detached and its bit cleared
   * before the entries are processed (as written, the list is popped in place
   * and the bit cleared afterwards; see DrainStepAsWritten).
   */
  function ProcessSlot<E>(w: Wheel<E>, level: nat, slot: nat, now: U64, mode: Expiry): (w': Wheel<E>)
    requires WF(w) && level < LEVELS && slot < SLOTS
    ensures WF(w') && w'.elapsed == w.elapsed
  {
    var detached := w.slots[Idx(level, slot)];
    DetachHolds(w, level, slot);
    DrainHolds(Detach(w, level, slot), detached, now, mode);
    Drain(Detach(w, level, slot), detached, now, mode)
  }

  /**
   * The slots time_process_at visits on one level: starting from the rotated
   * bitmap, each round skips the trailing zeros, stops at a slot that starts
   * after `now`, and otherwise visits the slot and shifts the bits it passed
   * out. `advance` is how far the cursor moves past a visited slot: 0 in the
   * code as written, 1 in the corrected scan.
   */
  function ScanSlots(adjusted: U64, cursor: nat, levelStart: nat, level: nat, now: U64, advance: nat): (r: seq<nat>)
    ensures forall k :: 0 <= k < |r| ==> r[k] < SLOTS && SlotStart(levelStart, level, r[k]) <= now
    decreases adjusted
  {
    if adjusted == 0 then []
    else
      var tz := Ctz(adjusted);
      var c := cursor + tz;
      var slot := c % SLOTS;
      if SlotStart(levelStart, level, slot) > now then []
      else
        ScanShrinks(adjusted);
        [slot] + ScanSlots(ScanNext(adjusted), c + advance, levelStart, level, now, advance)
  }

  /** The adjusted bitmap after a visit: the visited bit and the zeros below it shifted out. */
  function ScanNext(adjusted: U64): U64
  {
    var tz := Ctz(adjusted);
    if tz < 63 then ShiftRight(adjusted, tz + 1) else 0
  }

  /** The invariant does not mention elapsed. */
  lemma ElapsedWF<E>(w: Wheel<E>, t: U64)
    requires WF(w)
    ensures WF(w.(elapsed := t))
  {
    var w' := w.(elapsed := t);
    assert Contents(w') == Contents(w);
  }

  lemma ScanShrinks(adjusted: U64)
    requires adjusted != 0
    ensures ScanNext(adjusted) < adjusted
  {
    var tz := Ctz(adjusted);
    if tz < 63 {
      ShiftRightStep(adjusted, tz);
    }
  }

  /** Visits the given slots of a level in order: elapsed moves to each slot's start, then the slot is processed. */
  function ProcessSlots<E>(w: Wheel<E>, level: nat, visits: seq<nat>, levelStart: nat, now: U64, mode: Expiry): (w': Wheel<E>)
    requires WF(w) && level < LEVELS
    requires InRange(visits)
    ensures WF(w')
    decreases |visits|
  {
    if visits == [] then w
    else
      var w0 := w.(elapsed := SlotStart(levelStart, level, visits[0]));
      ElapsedWF(w, w0.elapsed);
      InRangeTail(visits);
      ProcessSlots(ProcessSlot(w0, level, visits[0], now, mode), level, visits[1..], levelStart, now, mode)
  }

  /** Every visited slot is a slot index. */
  predicate InRange(visits: seq<nat>)
  {
    forall k :: 0 <= k < |visits| ==> visits[k] < SLOTS
  }

  lemma InRangeTail(visits: seq<nat>)
    requires InRange(visits) && visits != []
    ensures InRange(visits[1..]) && visits[0] < SLOTS
  {
  }

  /** The slots one iteration of time_process_at's level loop visits. */
  function LevelVisits<E>(w: Wheel<E>, level: nat, now: U64, advance: nat): (r: seq<nat>)
    requires Shaped(w) && level < LEVELS
    ensures forall k :: 0 <= k < |r| ==> r[k] < SLOTS
  {
    var nowSlot := SlotFor(level, w.elapsed);
    ScanSlots(RotateR64(w.bitmap[level], nowSlot), nowSlot, LevelStart(w.elapsed, level), level, now, advance)
  }

  /** One iteration of time_process_at's level loop. */
  function ProcessLevel<E>(w: Wheel<E>, level: nat, now: U64, advance: nat, mode: Expiry): (w': Wheel<E>)
    requires WF(w) && level < LEVELS
    ensures WF(w')
  {
    ProcessSlots(w, level, LevelVisits(w, level, now, advance), LevelStart(w.elapsed, level), now, mode)
  }

  function ProcessLevels<E>(w: Wheel<E>, level: nat, now: U64, advance: nat, mode: Expiry): (w': Wheel<E>)
    requires WF(w) && level <= LEVELS
    ensures WF(w')
    decreases LEVELS - level
  {
    if level == LEVELS then w
    else ProcessLevels(ProcessLevel(w, level, now, advance, mode), level + 1, now, advance, mode)
  }

  /** time_process_at with the given cursor advance; elapsed ends at `now`. */
  function ProcessAtWith<E>(w: Wheel<E>, now: U64, advance: nat, mode: Expiry): (w': Wheel<E>)
    requires WF(w)
    ensures WF(w') && w'.elapsed == now
  {
    var w1 := ProcessLevels(w, 0, now, advance, mode);
    ElapsedWF(w1, now);
    w1.(elapsed := now)
  }

  /** time_process_at, with the corrected cursor. */
  function ProcessAt<E>(w: Wheel<E>, now: U64, mode: Expiry): (w': Wheel<E>)
    requires WF(w)
    ensures WF(w') && w'.elapsed == now
  {
    ProcessAtWith(w, now, 1, mode)
  }

  /** time_next_expiration, scanning levels from `level` upwards. */
  function NextExpirationFrom<E>(w: Wheel<E>, level: nat): U64
    requires Shaped(w) && level <= LEVELS
    decreases LEVELS - level
  {
    if level == LEVELS then 0
    else
      var slot := SlotNextOccupied(level, w.elapsed, w.bitmap[level]);
      if slot != -1 then SlotStart(LevelStart(w.elapsed, level), level, slot)
      else NextExpirationFrom(w, level + 1)
  }

  function NextExpiration<E>(w: Wheel<E>): U64
    requires Shaped(w)
  {
    NextExpirationFrom(w, 0)
  }

  /** time_next_pending_task: pop the front of the pending list (its entry is then tagged fired). */
  function NextPending<E>(w: Wheel<E>): (Wheel<E>, Option<E>)
  {
    if w.pending == [] then (w, None)
    else (w.(pending := w.pending[1..], deadline := w.deadline - {w.pending[0]}), Some(w.pending[0]))
  }

  /** The list without the first occurrence of e. */
  function Without<E(==)>(s: seq<E>, e: E): (r: seq<E>)
    ensures multiset(r) == multiset(s) - multiset{e}
  {
    if s == [] then []
    else if s[0] == e then
      assert s == [e] + s[1..];
      s[1..]
    else
      assert s == [s[0]] + s[1..];
      [s[0]] + Without(s[1..], e)
  }

  /** The first level from `level` on whose slot for deadline d holds e, or LEVELS if there is none. */
  function FindLevel<E>(w: Wheel<E>, e: E, d: U64, level: nat): (r: nat)
    requires Shaped(w) && level <= LEVELS
    ensures level <= r <= LEVELS
    ensures r < LEVELS ==> e in w.slots[Idx(r, SlotFor(r, d))]
    ensures forall l :: level <= l < r ==> e !in w.slots[Idx(l, SlotFor(l, d))]
    decreases LEVELS - level
  {
    if level == LEVELS || e in w.slots[Idx(level, SlotFor(level, d))] then level
    else FindLevel(w, e, d, level + 1)
  }

  /** Unlinks e from slot (l, s), clearing the slot's bit if the list empties, and drops its deadline. */
  function Unlink<E(==)>(w: Wheel<E>, l: nat, s: nat, e: E): (w': Wheel<E>)
    requires Shaped(w) && l < LEVELS && s < SLOTS
    ensures Shaped(w') && w'.elapsed == w.elapsed && w'.pending == w.pending && w'.woken == w.woken
  {
    var i := Idx(l, s);
    var rest := Without(w.slots[i], e);
    w.(slots := w.slots[i := rest],
       bitmap := if rest == [] then w.bitmap[l := ClearSlotBit(w.bitmap[l], s)] else w.bitmap,
       deadline := w.deadline - {e})
  }

  /**
   * time_remove_timeout: an entry not in the wheel (fired) is left alone; a
   * pending entry is unlinked from the pending list; any other entry is
   * unlinked from its slot. The slot is found among the six candidates
   * (l, slot_for(l, deadline)) rather than recomputed from the current
   * elapsed time (see RemoveSlotAsWritten).
   */
  function Remove<E(==)>(w: Wheel<E>, e: E): (w': Wheel<E>)
    requires Shaped(w)
    ensures Shaped(w') && w'.elapsed == w.elapsed && w'.woken == w.woken
  {
    if e !in w.deadline then w
    else if w.deadline[e] == TIMEOUT_PENDING then
      w.(pending := Without(w.pending, e), deadline := w.deadline - {e})
    else
      var d := w.deadline[e];
      var l := FindLevel(w, e, d, 0);
      if l == LEVELS then w.(deadline := w.deadline - {e})
      else Unlink(w, l, SlotFor(l, d), e)
  }

  /** The slot time_remove_timeout as written unlinks an entry with deadline d from. */
  function RemoveSlotAsWritten(elapsed: U64, d: U64): (ls: (nat, nat))
    ensures ls.0 < LEVELS && ls.1 < SLOTS
  {
    var timeout := (d - elapsed) % TWO_64;
    LevelForRange(timeout);
    var l := LevelFor(timeout);
    (l, SlotFor(l, d))
  }

  // ---------------------------------------------------------------------
  // Multiset bookkeeping
  // ---------------------------------------------------------------------

  lemma Cancel<E>(a: multiset<E>, b: multiset<E>, c: multiset<E>)
    requires a + c == b + c
    ensures a == b
  {
    forall x ensures a[x] == b[x] {
      assert (a + c)[x] == (b + c)[x];
    }
  }

  /** Part of a multiset without duplicates has none. */
  lemma NoDupPart<E>(a: multiset<E>, b: multiset<E>)
    requires NoDup(a + b)
    ensures NoDup(a)
  {
    forall x | x in a ensures a[x] == 1 {
      assert x in a + b;
    }
  }

  lemma DistinctTail<E>(s: seq<E>)
    requires s != [] && NoDup(multiset(s))
    ensures NoDup(multiset(s[1..])) && s[0] !in s[1..]
  {
    assert s == [s[0]] + s[1..];
    var m := multiset(s[1..]);
    assert multiset(s) == m + multiset{s[0]};
    assert s[0] in multiset(s);
    forall x | x in m ensures m[x] == 1 {
      assert x in multiset(s);
    }
  }

  lemma FlattenEmpty<E>(ss: seq<seq<E>>)
    requires forall i :: 0 <= i < |ss| ==> ss[i] == []
    ensures Flatten(ss) == []
  {
  }

  lemma {:induction false} FlattenConcat<E>(a: seq<seq<E>>, b: seq<seq<E>>)
    ensures Flatten(a + b) == Flatten(a) + Flatten(b)
  {
    if a != [] {
      assert (a + b)[0] == a[0] && (a + b)[1..] == a[1..] + b;
      FlattenConcat(a[1..], b);
      assert Flatten(a + b) == a[0] + Flatten(a[1..] + b);
    } else {
      assert a + b == b;
    }
  }

  /** Replacing one list replaces its entries in the flattened contents. */
  lemma FlattenUpdate<E>(ss: seq<seq<E>>, i: nat, x: seq<E>)
    requires i < |ss|
    ensures multiset(Flatten(ss[i := x])) + multiset(ss[i]) == multiset(Flatten(ss)) + multiset(x)
  {
    var pre, post := ss[..i], ss[i + 1..];
    assert ss == pre + [ss[i]] + post;
    assert ss[i := x] == pre + [x] + post;
    FlattenConcat(pre + [ss[i]], post);
    FlattenConcat(pre, [ss[i]]);
    FlattenConcat(pre + [x], post);
    FlattenConcat(pre, [x]);
    assert Flatten([x]) == x;
    assert Flatten([ss[i]]) == ss[i];
  }

  lemma {:induction false} FlattenHas<E>(ss: seq<seq<E>>, i: nat, e: E)
    requires i < |ss| && e in ss[i]
    ensures multiset(Flatten(ss))[e] >= multiset(ss[i])[e] >= 1
  {
    if i > 0 {
      FlattenHas(ss[1..], i - 1, e);
    }
  }

  /** An entry of a slot list is one of the wheel's contents. */
  lemma SlotMember<E>(w: Wheel<E>, i: nat, e: E)
    requires i < |w.slots| && e in w.slots[i]
    ensures e in Contents(w)
  {
    FlattenHas(w.slots, i, e);
  }

  // ---------------------------------------------------------------------
  // The invariant is preserved
  // ---------------------------------------------------------------------

  /** The entry an operation moves is counted once, so it is in neither the wheel nor the rest of `held`. */
  lemma Apart<E>(w: Wheel<E>, held: multiset<E>, e: E)
    requires NoDup(Contents(w) + (held + multiset{e}))
    ensures Contents(w)[e] == 0 && held[e] == 0 && e !in w.pending
  {
    assert e in Contents(w) + (held + multiset{e});
  }

  /** Inserting an entry held out of the wheel puts it back, or fires it. */
  lemma InsertHolds<E>(w: Wheel<E>, held: multiset<E>, e: E)
    requires Holds(w, held + multiset{e})
    ensures Holds(Insert(w, e, w.deadline[e]), held)
    ensures Contents(Insert(w, e, w.deadline[e])) ==
      if w.elapsed >= w.deadline[e] then Contents(w) else Contents(w) + multiset{e}
  {
    var d := w.deadline[e];
    if w.elapsed >= d {
      DropHolds(w, held, e);
    } else {
      var (l, s) := Home(w.elapsed, d);
      PushHolds(w, held, l, s, e, d);
    }
  }

  /** Pushing an entry held out of the wheel onto the slot of its deadline puts it back. */
  lemma PushHolds<E>(w: Wheel<E>, held: multiset<E>, l: nat, s: nat, e: E, d: U64)
    requires Holds(w, held + multiset{e}) && l < LEVELS && s < SLOTS
    requires d == w.deadline[e] && SlotFor(l, d) == s
    ensures Holds(Push(w, l, s, e, d), held)
    ensures Contents(Push(w, l, s, e, d)) == Contents(w) + multiset{e}
  {
    Apart(w, held, e);
    PushContents(w, l, s, e, d);
    PushCounted(w, held, l, s, e, d);
    PushBits(w, l, s, e, d);
    PushPlaced(w, held, l, s, e, d);
  }

  lemma PushContents<E>(w: Wheel<E>, l: nat, s: nat, e: E, d: U64)
    requires Shaped(w) && l < LEVELS && s < SLOTS
    ensures Contents(Push(w, l, s, e, d)) == Contents(w) + multiset{e}
  {
    var i := Idx(l, s);
    var w' := Push(w, l, s, e, d);
    FlattenUpdate(w.slots, i, [e] + w.slots[i]);
    assert multiset([e] + w.slots[i]) == multiset{e} + multiset(w.slots[i]);
    Cancel(multiset(Flatten(w'.slots)), multiset(Flatten(w.slots)) + multiset{e}, multiset(w.slots[i]));
  }

  lemma PushCounted<E>(w: Wheel<E>, held: multiset<E>, l: nat, s: nat, e: E, d: U64)
    requires Holds(w, held + multiset{e}) && l < LEVELS && s < SLOTS && d == w.deadline[e]
    requires Contents(Push(w, l, s, e, d)) == Contents(w) + multiset{e}
    ensures Counted(Push(w, l, s, e, d), held)
  {
    Apart(w, held, e);
    assert Contents(w) + multiset{e} + held == Contents(w) + (held + multiset{e});
  }

  lemma PushBits<E>(w: Wheel<E>, l: nat, s: nat, e: E, d: U64)
    requires Shaped(w) && BitsAgree(w) && l < LEVELS && s < SLOTS
    ensures BitsAgree(Push(w, l, s, e, d))
  {
    var w' := Push(w, l, s, e, d);
    forall l': nat, s': nat | l' < LEVELS && s' < SLOTS
      ensures Bit(w'.bitmap[l'], s') <==> w'.slots[Idx(l', s')] != []
    {
      if l' != l || s' != s {
        assert Idx(l', s') != Idx(l, s);
      }
    }
  }

  lemma PushPlaced<E>(w: Wheel<E>, held: multiset<E>, l: nat, s: nat, e: E, d: U64)
    requires Holds(w, held + multiset{e}) && l < LEVELS && s < SLOTS
    requires d == w.deadline[e] && SlotFor(l, d) == s
    ensures Placed(Push(w, l, s, e, d)) && Tagged(Push(w, l, s, e, d))
  {
    Apart(w, held, e);
    var w' := Push(w, l, s, e, d);
    forall l': nat, s': nat, x | l' < LEVELS && s' < SLOTS && x in w'.slots[Idx(l', s')]
      ensures x in w'.deadline && w'.deadline[x] < TIMEOUT_PENDING && SlotFor(l', w'.deadline[x]) == s'
    {
      if Idx(l', s') != Idx(l, s) {
        assert x in w.slots[Idx(l', s')];
        SlotMember(w, Idx(l', s'), x);
      } else if x != e {
        assert x in w.slots[Idx(l', s')];
      }
    }
  }

  /** An entry held out of the wheel that fires leaves it for good. */
  lemma DropHolds<E>(w: Wheel<E>, held: multiset<E>, e: E)
    requires Holds(w, held + multiset{e})
    ensures Holds(w.(deadline := w.deadline - {e}), held)
  {
    Apart(w, held, e);
    assert Contents(w) + (held + multiset{e}) == (Contents(w) + held) + multiset{e};
    NoDupPart(Contents(w) + held, multiset{e});
    var w' := w.(deadline := w.deadline - {e});
    forall l: nat, s: nat, x | l < LEVELS && s < SLOTS && x in w'.slots[Idx(l, s)]
      ensures x in w'.deadline && w'.deadline[x] < TIMEOUT_PENDING && SlotFor(l, w'.deadline[x]) == s
    {
      SlotMember(w, Idx(l, s), x);
    }
  }

  /** A due entry moved to the pending list, or woken, keeps the invariant. */
  lemma ExpireHolds<E>(w: Wheel<E>, held: multiset<E>, e: E, now: U64, mode: Expiry)
    requires Holds(w, held + multiset{e}) && now >= w.deadline[e]
    ensures Holds(DrainOne(w, e, now, mode), held)
    ensures Contents(DrainOne(w, e, now, mode)) ==
      if mode == ToPending then Contents(w) + multiset{e} else Contents(w)
  {
    if mode == ToPending {
      PendHolds(w, held, e);
    } else {
      DropHolds(w, held, e);
      var w' := w.(deadline := w.deadline - {e});
      assert DrainOne(w, e, now, mode) == w'.(woken := w.woken + [e]);
    }
  }

  /** An entry held out of the wheel that is pushed on the pending list, tagged TIMEOUT_PENDING, is back in the wheel. */
  lemma PendHolds<E>(w: Wheel<E>, held: multiset<E>, e: E)
    requires Holds(w, held + multiset{e})
    ensures Holds(w.(pending := [e] + w.pending, deadline := w.deadline[e := TIMEOUT_PENDING]), held)
    ensures Contents(w.(pending := [e] + w.pending, deadline := w.deadline[e := TIMEOUT_PENDING])) == Contents(w) + multiset{e}
  {
    Apart(w, held, e);
    PendCounted(w, held, e);
    PendPlaced(w, e);
    var w' := w.(pending := [e] + w.pending, deadline := w.deadline[e := TIMEOUT_PENDING]);
    assert BitsAgree(w') by { assert w'.slots == w.slots && w'.bitmap == w.bitmap; }
  }

  lemma PendCounted<E>(w: Wheel<E>, held: multiset<E>, e: E)
    requires Counted(w, held + multiset{e})
    ensures Counted(w.(pending := [e] + w.pending, deadline := w.deadline[e := TIMEOUT_PENDING]), held)
    ensures Contents(w.(pending := [e] + w.pending, deadline := w.deadline[e := TIMEOUT_PENDING])) == Contents(w) + multiset{e}
  {
    Apart(w, held, e);
    var w' := w.(pending := [e] + w.pending, deadline := w.deadline[e := TIMEOUT_PENDING]);
    var f, p := multiset(Flatten(w.slots)), multiset(w.pending);
    assert multiset([e] + w.pending) == multiset{e} + p;
    Regroup(f, p, held, e);
    CountedMove(w, held + multiset{e}, w', held);
  }

  lemma Regroup<E>(f: multiset<E>, p: multiset<E>, held: multiset<E>, e: E)
    ensures f + (multiset{e} + p) == (f + p) + multiset{e}
    ensures f + (multiset{e} + p) + held == (f + p) + (held + multiset{e})
  {
  }

  /** Counted survives a step that keeps the deadline keys and the total of wheel and held entries. */
  lemma CountedMove<E>(w: Wheel<E>, held: multiset<E>, w': Wheel<E>, held': multiset<E>)
    requires Counted(w, held)
    requires Contents(w') + held' == Contents(w) + held
    requires w'.deadline.Keys == w.deadline.Keys
    requires forall e | e in held' :: e in w'.deadline && w'.deadline[e] < TIMEOUT_PENDING
    ensures Counted(w', held')
  {
  }

  lemma PendPlaced<E>(w: Wheel<E>, e: E)
    requires Shaped(w) && Placed(w) && Tagged(w) && Contents(w)[e] == 0
    ensures Placed(w.(pending := [e] + w.pending, deadline := w.deadline[e := TIMEOUT_PENDING]))
    ensures Tagged(w.(pending := [e] + w.pending, deadline := w.deadline[e := TIMEOUT_PENDING]))
  {
    var w' := w.(pending := [e] + w.pending, deadline := w.deadline[e := TIMEOUT_PENDING]);
    forall l: nat, s: nat, x | l < LEVELS && s < SLOTS && x in w'.slots[Idx(l, s)]
      ensures x in w'.deadline && w'.deadline[x] < TIMEOUT_PENDING && SlotFor(l, w'.deadline[x]) == s
    {
      SlotMember(w, Idx(l, s), x);
    }
  }

  lemma DrainOneHolds<E>(w: Wheel<E>, held: multiset<E>, e: E, now: U64, mode: Expiry)
    requires Holds(w, held + multiset{e})
    ensures Holds(DrainOne(w, e, now, mode), held)
  {
    if now >= w.deadline[e] {
      ExpireHolds(w, held, e, now, mode);
    } else {
      InsertHolds(w, held, e);
    }
  }

  lemma {:induction false} DrainHolds<E>(w: Wheel<E>, detached: seq<E>, now: U64, mode: Expiry)
    requires Holds(w, multiset(detached))
    ensures forall e | e in detached :: e in w.deadline
    ensures NoDup(multiset(detached))
    ensures WF(Drain(w, detached, now, mode))
    decreases |detached|
  {
    assert forall e | e in multiset(detached) :: multiset(detached)[e] <= (Contents(w) + multiset(detached))[e];
    if detached != [] {
      var e := detached[0];
      assert detached == [e] + detached[1..];
      assert multiset(detached) == multiset(detached[1..]) + multiset{e};
      DrainOneHolds(w, multiset(detached[1..]), e, now, mode);
      DrainHolds(DrainOne(w, e, now, mode), detached[1..], now, mode);
    }
  }

  /** Taking a slot's list out of the wheel holds its entries aside. */
  lemma DetachHolds<E>(w: Wheel<E>, level: nat, slot: nat)
    requires WF(w) && level < LEVELS && slot < SLOTS
    ensures Holds(Detach(w, level, slot), multiset(w.slots[Idx(level, slot)]))
  {
    var i := Idx(level, slot);
    var w' := Detach(w, level, slot);
    DetachContents(w, level, slot);
    assert Contents(w) + multiset{} == Contents(w);
    DetachPlaced(w, level, slot);
    CountedMove(w, multiset{}, w', multiset(w.slots[i]));
    DetachBits(w, level, slot);
  }

  lemma DetachPlaced<E>(w: Wheel<E>, level: nat, slot: nat)
    requires Shaped(w) && Placed(w) && level < LEVELS && slot < SLOTS
    ensures Placed(Detach(w, level, slot))
    ensures forall x | x in multiset(w.slots[Idx(level, slot)]) :: x in w.deadline && w.deadline[x] < TIMEOUT_PENDING
  {
    var i := Idx(level, slot);
    var w' := Detach(w, level, slot);
    forall l: nat, s: nat, x | l < LEVELS && s < SLOTS && x in w'.slots[Idx(l, s)]
      ensures x in w'.deadline && w'.deadline[x] < TIMEOUT_PENDING && SlotFor(l, w'.deadline[x]) == s
    {
      assert Idx(l, s) != i;
      assert x in w.slots[Idx(l, s)];
    }
    forall x | x in multiset(w.slots[i])
      ensures x in w.deadline && w.deadline[x] < TIMEOUT_PENDING
    {
      assert x in w.slots[Idx(level, slot)];
    }
  }

  lemma DetachBits<E>(w: Wheel<E>, level: nat, slot: nat)
    requires Shaped(w) && BitsAgree(w) && level < LEVELS && slot < SLOTS
    ensures BitsAgree(Detach(w, level, slot))
  {
    var w' := Detach(w, level, slot);
    forall l: nat, s: nat | l < LEVELS && s < SLOTS
      ensures Bit(w'.bitmap[l], s) <==> w'.slots[Idx(l, s)] != []
    {
      if l != level || s != slot {
        assert Idx(l, s) != Idx(level, slot);
      }
    }
  }

  // ---------------------------------------------------------------------
  // Nothing is lost and nothing fires early
  // ---------------------------------------------------------------------

  /**
   * How processing may change a wheel (with `held` entries taken out of it
   * beforehand): every entry is still in the wheel or has been woken; entries
   * are only added at the front of the pending list or the end of the woken
   * list, and only if their deadline was at most `now`; and a deadline only
   * changes (to TIMEOUT_PENDING) for such an entry.
   */
  predicate Moves<E>(w: Wheel<E>, held: multiset<E>, w': Wheel<E>, now: U64)
  {
    && Contents(w') + multiset(w'.woken) == Contents(w) + held + multiset(w.woken)
    && Grows(w.pending, w'.pending, w.deadline, now)
    && Grows(Rev(w.woken), Rev(w'.woken), w.deadline, now)
    && DeadlinesKept(w.deadline, w'.deadline, now)
  }

  /** `after` is `before` with entries added at the front, each of them due by `now`. */
  predicate Grows<E>(before: seq<E>, after: seq<E>, deadline: map<E, U64>, now: U64)
  {
    && |before| <= |after|
    && after[|after| - |before|..] == before
    && forall x | x in after[..|after| - |before|] :: x in deadline && deadline[x] <= now
  }

  /** No entry joins the map, and a deadline changes only for an entry due by `now`. */
  predicate DeadlinesKept<E>(before: map<E, U64>, after: map<E, U64>, now: U64)
  {
    forall x | x in after :: x in before && (after[x] == before[x] || before[x] <= now)
  }

  function Rev<E>(s: seq<E>): (r: seq<E>)
    ensures |r| == |s| && forall i :: 0 <= i < |s| ==> r[i] == s[|s| - 1 - i]
  {
    if s == [] then [] else Rev(s[1..]) + [s[0]]
  }

  lemma GrowsCompose<E>(a: seq<E>, b: seq<E>, c: seq<E>, d0: map<E, U64>, d1: map<E, U64>, now: U64)
    requires Grows(a, b, d0, now) && Grows(b, c, d1, now) && DeadlinesKept(d0, d1, now)
    ensures Grows(a, c, d0, now)
  {
    var p1 := b[..|b| - |a|];
    var p2 := c[..|c| - |b|];
    assert b == p1 + a;
    assert c == p2 + b;
    assert c[..|c| - |a|] == p2 + p1;
    assert c[|c| - |a|..] == a;
  }

  lemma KeptCompose<E>(d0: map<E, U64>, d1: map<E, U64>, d2: map<E, U64>, now: U64)
    requires DeadlinesKept(d0, d1, now) && DeadlinesKept(d1, d2, now)
    ensures DeadlinesKept(d0, d2, now)
  {
  }

  lemma MovesCompose<E>(w: Wheel<E>, a: multiset<E>, w1: Wheel<E>, b: multiset<E>, w2: Wheel<E>, now: U64)
    requires Moves(w, a, w1, now) && Moves(w1, b, w2, now)
    ensures Moves(w, a + b, w2, now)
  {
    GrowsCompose(w.pending, w1.pending, w2.pending, w.deadline, w1.deadline, now);
    GrowsCompose(Rev(w.woken), Rev(w1.woken), Rev(w2.woken), w.deadline, w1.deadline, now);
    KeptCompose(w.deadline, w1.deadline, w2.deadline, now);
    SumCompose(Contents(w2) + multiset(w2.woken), Contents(w1), multiset(w1.woken), Contents(w), multiset(w.woken), a, b);
  }

  /** Moves with nothing held is transitive. */
  lemma MovesTrans<E>(w: Wheel<E>, w1: Wheel<E>, w2: Wheel<E>, now: U64)
    requires Moves(w, multiset{}, w1, now) && Moves(w1, multiset{}, w2, now)
    ensures Moves(w, multiset{}, w2, now)
  {
    MovesCompose(w, multiset{}, w1, multiset{}, w2, now);
    var none: multiset<E> := multiset{};
    assert none + none == none;
  }

  lemma SumCompose<E>(total2: multiset<E>, c1: multiset<E>, k1: multiset<E>, c0: multiset<E>, k0: multiset<E>, a: multiset<E>, b: multiset<E>)
    requires total2 == c1 + b + k1 && c1 + k1 == c0 + a + k0
    ensures total2 == c0 + (a + b) + k0
  {
    forall x ensures total2[x] == (c0 + (a + b) + k0)[x] {
      assert (c1 + k1)[x] == (c0 + a + k0)[x];
    }
  }

  /** One entry taken from a slot is expired or re-inserted, never fired early and never lost. */
  lemma DrainOneMoves<E>(w: Wheel<E>, held: multiset<E>, e: E, now: U64, mode: Expiry)
    requires Holds(w, held + multiset{e}) && w.elapsed <= now
    ensures Moves(w, multiset{e}, DrainOne(w, e, now, mode), now)
  {
    if now < w.deadline[e] {
      ReinsertMoves(w, held, e, now, mode);
    } else if mode == ToPending {
      PendMoves(w, held, e, now);
    } else {
      WakeMoves(w, held, e, now);
    }
  }

  lemma ReinsertMoves<E>(w: Wheel<E>, held: multiset<E>, e: E, now: U64, mode: Expiry)
    requires Holds(w, held + multiset{e}) && w.elapsed <= now < w.deadline[e]
    ensures Moves(w, multiset{e}, DrainOne(w, e, now, mode), now)
  {
    var w' := DrainOne(w, e, now, mode);
    assert w' == Insert(w, e, w.deadline[e]);
    InsertHolds(w, held, e);
    assert w'.pending[|w'.pending| - |w.pending|..] == w.pending;
    assert Rev(w'.woken)[|w'.woken| - |w.woken|..] == Rev(w.woken);
  }

  lemma PendMoves<E>(w: Wheel<E>, held: multiset<E>, e: E, now: U64)
    requires Holds(w, held + multiset{e}) && now >= w.deadline[e]
    ensures Moves(w, multiset{e}, DrainOne(w, e, now, ToPending), now)
  {
    var w' := DrainOne(w, e, now, ToPending);
    PendHolds(w, held, e);
    assert w'.pending[..|w'.pending| - |w.pending|] == [e];
    assert w'.pending[|w'.pending| - |w.pending|..] == w.pending;
    assert Rev(w'.woken)[|w'.woken| - |w.woken|..] == Rev(w.woken);
  }

  lemma WakeMoves<E>(w: Wheel<E>, held: multiset<E>, e: E, now: U64)
    requires Holds(w, held + multiset{e}) && now >= w.deadline[e]
    ensures Moves(w, multiset{e}, DrainOne(w, e, now, WakeDirectly), now)
  {
    var w' := DrainOne(w, e, now, WakeDirectly);
    assert Contents(w') == Contents(w);
    assert Rev(w'.woken) == [e] + Rev(w.woken);
    assert Rev(w'.woken)[..|w'.woken| - |w.woken|] == [e];
    assert Rev(w'.woken)[|w'.woken| - |w.woken|..] == Rev(w.woken);
    assert w'.pending[|w'.pending| - |w.pending|..] == w.pending;
    assert multiset(w'.woken) == multiset(w.woken) + multiset{e};
  }

  lemma {:induction false} DrainMoves<E>(w: Wheel<E>, detached: seq<E>, now: U64, mode: Expiry)
    requires Holds(w, multiset(detached)) && w.elapsed <= now
    requires forall e | e in detached :: e in w.deadline
    requires NoDup(multiset(detached))
    ensures Moves(w, multiset(detached), Drain(w, detached, now, mode), now)
    decreases |detached|
  {
    if detached == [] {
      assert w.pending[|w.pending| - |w.pending|..] == w.pending;
    } else {
      var e := detached[0];
      var rest := detached[1..];
      assert detached == [e] + rest;
      assert multiset(detached) == multiset(rest) + multiset{e};
      var w1 := DrainOne(w, e, now, mode);
      DrainOneMoves(w, multiset(rest), e, now, mode);
      DrainOneHolds(w, multiset(rest), e, now, mode);
      DistinctTail(detached);
      DrainMoves(w1, rest, now, mode);
      MovesCompose(w, multiset{e}, w1, multiset(rest), Drain(w1, rest, now, mode), now);
    }
  }

  /** Processing a slot at a time no later than `now` loses nothing and fires nothing early. */
  lemma ProcessSlotMoves<E>(w: Wheel<E>, level: nat, slot: nat, now: U64, mode: Expiry)
    requires WF(w) && level < LEVELS && slot < SLOTS && w.elapsed <= now
    ensures Moves(w, multiset{}, ProcessSlot(w, level, slot, now, mode), now)
  {
    var d := Detach(w, level, slot);
    var detached := w.slots[Idx(level, slot)];
    DetachHolds(w, level, slot);
    DrainHolds(d, detached, now, mode);
    DrainMoves(d, detached, now, mode);
    DetachContents(w, level, slot);
    MovesReframe(w, d, multiset(detached), Drain(d, detached, now, mode), now);
  }

  lemma DetachContents<E>(w: Wheel<E>, level: nat, slot: nat)
    requires Shaped(w) && level < LEVELS && slot < SLOTS
    ensures Contents(Detach(w, level, slot)) + multiset(w.slots[Idx(level, slot)]) == Contents(w)
  {
    var d := Detach(w, level, slot);
    FlattenUpdate(w.slots, Idx(level, slot), []);
    assert multiset(Flatten(d.slots)) + multiset(w.slots[Idx(level, slot)]) == multiset(Flatten(w.slots));
  }

  lemma MovesReframe<E>(w: Wheel<E>, d: Wheel<E>, held: multiset<E>, x: Wheel<E>, now: U64)
    requires Moves(d, held, x, now) && Contents(d) + held == Contents(w)
    requires d.pending == w.pending && d.woken == w.woken && d.deadline == w.deadline
    ensures Moves(w, multiset{}, x, now)
  {
  }

  /** Moving elapsed alone changes nothing that Moves looks at. */
  lemma ElapsedMoves<E>(w: Wheel<E>, t: U64, now: U64)
    ensures Moves(w, multiset{}, w.(elapsed := t), now)
  {
    assert w.pending[|w.pending| - |w.pending|..] == w.pending;
    assert Rev(w.woken)[|w.woken| - |w.woken|..] == Rev(w.woken);
  }

  lemma {:induction false} ProcessSlotsMoves<E>(w: Wheel<E>, level: nat, visits: seq<nat>, levelStart: nat, now: U64, mode: Expiry)
    requires WF(w) && level < LEVELS
    requires InRange(visits)
    requires StartsBy(levelStart, level, visits, now)
    ensures Moves(w, multiset{}, ProcessSlots(w, level, visits, levelStart, now, mode), now)
    decreases |visits|, 1
  {
    if visits == [] {
      MovesRefl(w, now);
    } else {
      ProcessSlotsStep(w, level, visits, levelStart, now, mode);
    }
  }

  /** The first visit of ProcessSlotsMoves, composed with the rest. */
  lemma {:induction false} ProcessSlotsStep<E>(w: Wheel<E>, level: nat, visits: seq<nat>, levelStart: nat, now: U64, mode: Expiry)
    requires WF(w) && level < LEVELS && visits != []
    requires InRange(visits)
    requires StartsBy(levelStart, level, visits, now)
    ensures Moves(w, multiset{}, ProcessSlots(w, level, visits, levelStart, now, mode), now)
    decreases |visits|, 0
  {
    var start := SlotStart(levelStart, level, visits[0]);
    ElapsedWF(w, start);
    InRangeTail(visits);
    StartsByTail(levelStart, level, visits, now);
    var w1 := ProcessSlot(w.(elapsed := start), level, visits[0], now, mode);
    var w2 := ProcessSlots(w1, level, visits[1..], levelStart, now, mode);
    assert ProcessSlots(w, level, visits, levelStart, now, mode) == w2;
    VisitMoves(w, level, visits[0], start, now, mode);
    ProcessSlotsMoves(w1, level, visits[1..], levelStart, now, mode);
    MovesTrans(w, w1, w2, now);
  }

  lemma MovesRefl<E>(w: Wheel<E>, now: U64)
    ensures Moves(w, multiset{}, w, now)
  {
    ElapsedMoves(w, w.elapsed, now);
    assert w.(elapsed := w.elapsed) == w;
  }

  /** Every slot in `visits` starts no later than `now`. */
  predicate StartsBy(levelStart: nat, level: nat, visits: seq<nat>, now: U64)
  {
    forall k :: 0 <= k < |visits| ==> SlotStart(levelStart, level, visits[k]) <= now
  }

  lemma StartsByTail(levelStart: nat, level: nat, visits: seq<nat>, now: U64)
    requires StartsBy(levelStart, level, visits, now) && visits != []
    ensures StartsBy(levelStart, level, visits[1..], now) && SlotStart(levelStart, level, visits[0]) <= now
  {
  }

  /** Moving elapsed to a slot's start and processing the slot. */
  lemma VisitMoves<E>(w: Wheel<E>, level: nat, slot: nat, start: U64, now: U64, mode: Expiry)
    requires WF(w) && WF(w.(elapsed := start)) && level < LEVELS && slot < SLOTS && start <= now
    ensures Moves(w, multiset{}, ProcessSlot(w.(elapsed := start), level, slot, now, mode), now)
  {
    var w0 := w.(elapsed := start);
    ElapsedMoves(w, start, now);
    ProcessSlotMoves(w0, level, slot, now, mode);
    MovesTrans(w, w0, ProcessSlot(w0, level, slot, now, mode), now);
  }

  lemma {:induction false} ProcessLevelsMoves<E>(w: Wheel<E>, level: nat, now: U64, advance: nat, mode: Expiry)
    requires WF(w) && level <= LEVELS
    ensures Moves(w, multiset{}, ProcessLevels(w, level, now, advance, mode), now)
    decreases LEVELS - level
  {
    if level == LEVELS {
      MovesRefl(w, now);
    } else {
      var w1 := ProcessLevel(w, level, now, advance, mode);
      var visits := LevelVisits(w, level, now, advance);
      assert StartsBy(LevelStart(w.elapsed, level), level, visits, now);
      ProcessSlotsMoves(w, level, visits, LevelStart(w.elapsed, level), now, mode);
      ProcessLevelsMoves(w1, level + 1, now, advance, mode);
      MovesTrans(w, w1, ProcessLevels(w1, level + 1, now, advance, mode), now);
    }
  }

  /**
   * time_process_at loses no entry and fires none early: every entry is still
   * in the wheel or has been woken, and every entry newly pending or woken had
   * a deadline at most `now`. This holds for the cursor as written too.
   */
  lemma ProcessAtMoves<E>(w: Wheel<E>, now: U64, advance: nat, mode: Expiry)
    requires WF(w)
    ensures Moves(w, multiset{}, ProcessAtWith(w, now, advance, mode), now)
  {
    var w1 := ProcessLevels(w, 0, now, advance, mode);
    ProcessLevelsMoves(w, 0, now, advance, mode);
    ElapsedMoves(w1, now, now);
    MovesTrans(w, w1, w1.(elapsed := now), now);
  }

  // ---------------------------------------------------------------------
  // Where slot processing puts each entry
  // ---------------------------------------------------------------------

  /**
   * What slot_process_expiration does with an entry with deadline d taken
   * from a slot: if it is due by `now`, it is queued tagged TIMEOUT_PENDING
   * (src/time.c) or woken and forgotten (src/time_driver.c). Otherwise
   * time_insert_timeout puts it back in the Home slot of d with its deadline
   * kept, or lets it fire when d is not after elapsed.
   */
  predicate Disposed<E>(w': Wheel<E>, e: E, d: U64, elapsed: U64, now: U64, mode: Expiry)
    requires Shaped(w')
  {
    if d <= now then
      match mode
      case ToPending => e in w'.pending && e in w'.deadline && w'.deadline[e] == TIMEOUT_PENDING
      case WakeDirectly => e in w'.woken && e !in w'.deadline
    else if elapsed < d then
      var (l, s) := Home(elapsed, d);
      e in w'.slots[Idx(l, s)] && e in w'.deadline && w'.deadline[e] == d
    else e !in w'.deadline
  }

  /** Where e is (pending, woken, the slots it is in) and its deadline survive from w to w'. */
  predicate Persists<E>(w: Wheel<E>, w': Wheel<E>, e: E)
    requires Shaped(w) && Shaped(w')
  {
    && (e in w.pending ==> e in w'.pending)
    && (e in w.woken ==> e in w'.woken)
    && (forall i | 0 <= i < NUM_SLOT_LISTS && e in w.slots[i] :: e in w'.slots[i])
    && (e in w.deadline <==> e in w'.deadline)
    && (e in w.deadline ==> w'.deadline[e] == w.deadline[e])
  }

  /** x is an entry of `detached`, not due by `now`, whose Home slot is slot list i. */
  predicate Rehomed<E>(w: Wheel<E>, detached: seq<E>, x: E, i: nat, now: U64)
  {
    && x in detached && x in w.deadline
    && now < w.deadline[x] && w.elapsed < w.deadline[x]
    && var (l, s) := Home(w.elapsed, w.deadline[x]); Idx(l, s) == i
  }

  /** Every entry in a slot of w' was in that slot of w, or was re-inserted there from `detached`. */
  predicate SlotsFrom<E>(w: Wheel<E>, detached: seq<E>, w': Wheel<E>, now: U64)
    requires Shaped(w) && Shaped(w')
  {
    forall i, x | 0 <= i < NUM_SLOT_LISTS && x in w'.slots[i] :: x in w.slots[i] || Rehomed(w, detached, x, i, now)
  }

  lemma PersistsTrans<E>(w: Wheel<E>, w1: Wheel<E>, w2: Wheel<E>, e: E)
    requires Shaped(w) && Shaped(w1) && Shaped(w2)
    requires Persists(w, w1, e) && Persists(w1, w2, e)
    ensures Persists(w, w2, e)
  {
  }

  lemma DisposedPersists<E>(w1: Wheel<E>, w2: Wheel<E>, e: E, d: U64, elapsed: U64, now: U64, mode: Expiry)
    requires Shaped(w1) && Shaped(w2)
    requires Disposed(w1, e, d, elapsed, now, mode) && Persists(w1, w2, e)
    ensures Disposed(w2, e, d, elapsed, now, mode)
  {
  }

  /** Disposing of one entry puts it where Disposed says and leaves every other entry where it was. */
  lemma DrainOneFate<E>(w: Wheel<E>, x: E, now: U64, mode: Expiry)
    requires Shaped(w) && x in w.deadline
    ensures Disposed(DrainOne(w, x, now, mode), x, w.deadline[x], w.elapsed, now, mode)
    ensures forall e | e != x :: Persists(w, DrainOne(w, x, now, mode), e)
    ensures SlotsFrom(w, [x], DrainOne(w, x, now, mode), now)
  {
    var d := w.deadline[x];
    var w1 := DrainOne(w, x, now, mode);
    if now < d && w.elapsed < d {
      var (l, s) := Home(w.elapsed, d);
      assert w1 == Push(w, l, s, x, d);
      forall i, y | 0 <= i < NUM_SLOT_LISTS && y in w1.slots[i]
        ensures y in w.slots[i] || Rehomed(w, [x], y, i, now)
      {
        if i == Idx(l, s) && y !in w.slots[i] {
          assert y == x;
        }
      }
    }
  }

  /**
   * Draining the detached entries one by one disposes of each of them as
   * Disposed says, leaves every other entry where it was, and only adds
   * re-inserted detached entries to the slots.
   */
  lemma {:induction false} DrainFates<E>(w: Wheel<E>, detached: seq<E>, now: U64, mode: Expiry)
    requires Shaped(w)
    requires forall e | e in detached :: e in w.deadline
    requires NoDup(multiset(detached))
    ensures forall e | e in detached :: Disposed(Drain(w, detached, now, mode), e, w.deadline[e], w.elapsed, now, mode)
    ensures forall e | e !in detached :: Persists(w, Drain(w, detached, now, mode), e)
    ensures SlotsFrom(w, detached, Drain(w, detached, now, mode), now)
    decreases |detached|
  {
    if detached != [] {
      var x := detached[0];
      var rest := detached[1..];
      var w1 := DrainOne(w, x, now, mode);
      DistinctTail(detached);
      DrainOneFate(w, x, now, mode);
      DrainFates(w1, rest, now, mode);
      var w2 := Drain(w1, rest, now, mode);
      assert w2 == Drain(w, detached, now, mode);
      forall e | e in detached
        ensures Disposed(w2, e, w.deadline[e], w.elapsed, now, mode)
      {
        if e == x {
          DisposedPersists(w1, w2, x, w.deadline[x], w.elapsed, now, mode);
        } else {
          assert e in rest;
          assert Persists(w, w1, e);
        }
      }
      forall e | e !in detached
        ensures Persists(w, w2, e)
      {
        assert e != x && e !in rest;
        PersistsTrans(w, w1, w2, e);
      }
      forall i, y | 0 <= i < NUM_SLOT_LISTS && y in w2.slots[i]
        ensures y in w.slots[i] || Rehomed(w, detached, y, i, now)
      {
        if y in w1.slots[i] {
          assert y in w.slots[i] || Rehomed(w, [x], y, i, now);
        } else {
          assert Rehomed(w1, rest, y, i, now);
          assert y != x;
          assert Persists(w, w1, y);
        }
      }
    }
  }

  /** An entry in two slot lists is counted twice. */
  lemma {:induction false} FlattenTwice<E>(ss: seq<seq<E>>, i: nat, j: nat, e: E)
    requires i < j < |ss| && e in ss[i] && e in ss[j]
    ensures multiset(Flatten(ss))[e] >= 2
  {
    if i == 0 {
      FlattenHas(ss[1..], j - 1, e);
      assert Flatten(ss) == ss[0] + Flatten(ss[1..]);
    } else {
      FlattenTwice(ss[1..], i - 1, j - 1, e);
      assert Flatten(ss) == ss[0] + Flatten(ss[1..]);
    }
  }

  /** In a well-formed wheel an entry of one slot is in no other slot and not pending. */
  lemma SlotsApart<E>(w: Wheel<E>, i: nat, e: E)
    requires WF(w) && i < NUM_SLOT_LISTS && e in w.slots[i]
    ensures e !in w.pending
    ensures forall j | 0 <= j < NUM_SLOT_LISTS && j != i :: e !in w.slots[j]
  {
    FlattenHas(w.slots, i, e);
    assert e in Contents(w) + multiset{};
    forall j | 0 <= j < NUM_SLOT_LISTS && j != i
      ensures e !in w.slots[j]
    {
      if e in w.slots[j] {
        if i < j { FlattenTwice(w.slots, i, j, e); } else { FlattenTwice(w.slots, j, i, e); }
      }
    }
  }

  /**
   * slot_process_expiration, for every input: each entry of the slot that is
   * due by `now` is queued tagged TIMEOUT_PENDING, or woken and forgotten in
   * the direct-wake revision; each other entry of the slot is back in the
   * Home slot of its deadline with the deadline kept (or fires when its
   * deadline is not after elapsed). Entries of the other slots and of the
   * pending list stay where they are with their deadlines. Afterwards the
   * slot holds only its own entries that were not due and were re-inserted
   * into it, and its bit is set exactly when there is one.
   */
  lemma ProcessSlotFates<E>(w: Wheel<E>, level: nat, slot: nat, now: U64, mode: Expiry)
    requires WF(w) && level < LEVELS && slot < SLOTS
    ensures var w' := ProcessSlot(w, level, slot, now, mode);
      && (forall e | e in w.slots[Idx(level, slot)] :: Disposed(w', e, w.deadline[e], w.elapsed, now, mode))
      && (forall i, x | 0 <= i < NUM_SLOT_LISTS && i != Idx(level, slot) && x in w.slots[i] ::
            x in w'.slots[i] && x in w.deadline && x in w'.deadline && w'.deadline[x] == w.deadline[x])
      && (forall x | x in w.pending :: x in w'.pending && x in w'.deadline && w'.deadline[x] == TIMEOUT_PENDING)
      && (forall x | x in w'.slots[Idx(level, slot)] :: x in w.slots[Idx(level, slot)] && now < w.deadline[x])
      && (Bit(w'.bitmap[level], slot) <==> w'.slots[Idx(level, slot)] != [])
  {
    var w' := ProcessSlot(w, level, slot, now, mode);
    DetachHolds(w, level, slot);
    DrainHolds(Detach(w, level, slot), w.slots[Idx(level, slot)], now, mode);
    DrainedFates(w, level, slot, w', now, mode);
  }

  /** ProcessSlotFates, for the drained wheel w'. */
  lemma DrainedFates<E>(w: Wheel<E>, level: nat, slot: nat, w': Wheel<E>, now: U64, mode: Expiry)
    requires WF(w) && level < LEVELS && slot < SLOTS
    requires forall e | e in w.slots[Idx(level, slot)] :: e in w.deadline
    requires NoDup(multiset(w.slots[Idx(level, slot)]))
    requires w' == Drain(Detach(w, level, slot), w.slots[Idx(level, slot)], now, mode)
    ensures forall e | e in w.slots[Idx(level, slot)] :: Disposed(w', e, w.deadline[e], w.elapsed, now, mode)
    ensures forall i, x | 0 <= i < NUM_SLOT_LISTS && i != Idx(level, slot) && x in w.slots[i] ::
      x in w'.slots[i] && x in w.deadline && x in w'.deadline && w'.deadline[x] == w.deadline[x]
    ensures forall x | x in w.pending :: x in w'.pending && x in w'.deadline && w'.deadline[x] == TIMEOUT_PENDING
    ensures forall x | x in w'.slots[Idx(level, slot)] :: x in w.slots[Idx(level, slot)] && now < w.deadline[x]
  {
    var detached := w.slots[Idx(level, slot)];
    var d0 := Detach(w, level, slot);
    DrainFates(d0, detached, now, mode);
    OthersStay(w, level, slot, detached, w', now);
    PendingStays(w, level, slot, detached, w', now);
    SlotRefills(w, level, slot, detached, w', now);
  }

  /** The entries of the other slots are not among the detached ones, so they stay put. */
  lemma {:induction false} OthersStay<E>(w: Wheel<E>, level: nat, slot: nat, detached: seq<E>, w': Wheel<E>, now: U64)
    requires WF(w) && level < LEVELS && slot < SLOTS && Shaped(w')
    requires detached == w.slots[Idx(level, slot)]
    requires forall e | e !in detached :: Persists(Detach(w, level, slot), w', e)
    ensures forall i, x {:trigger x in w.slots[i]} | 0 <= i < NUM_SLOT_LISTS && i != Idx(level, slot) && x in w.slots[i] ::
      x in w'.slots[i] && x in w.deadline && x in w'.deadline && w'.deadline[x] == w.deadline[x]
  {
    forall i, x {:trigger x in w.slots[i]} | 0 <= i < NUM_SLOT_LISTS && i != Idx(level, slot) && x in w.slots[i]
      ensures x in w'.slots[i] && x in w.deadline && x in w'.deadline && w'.deadline[x] == w.deadline[x]
    {
      OtherStays(w, level, slot, detached, w', i, x);
    }
  }

  lemma OtherStays<E>(w: Wheel<E>, level: nat, slot: nat, detached: seq<E>, w': Wheel<E>, i: nat, x: E)
    requires WF(w) && level < LEVELS && slot < SLOTS && Shaped(w')
    requires detached == w.slots[Idx(level, slot)]
    requires forall e | e !in detached :: Persists(Detach(w, level, slot), w', e)
    requires i < NUM_SLOT_LISTS && i != Idx(level, slot) && x in w.slots[i]
    ensures x in w'.slots[i] && x in w.deadline && x in w'.deadline && w'.deadline[x] == w.deadline[x]
  {
    var d0 := Detach(w, level, slot);
    SlotsApart(w, i, x);
    assert x !in detached;
    assert x in d0.slots[i];
    SlotMember(w, i, x);
    assert x in Contents(w) + multiset{};
    assert Persists(d0, w', x);
  }

  /** Pending entries are not among the detached ones, so they stay pending. */
  lemma PendingStays<E>(w: Wheel<E>, level: nat, slot: nat, detached: seq<E>, w': Wheel<E>, now: U64)
    requires WF(w) && level < LEVELS && slot < SLOTS && Shaped(w')
    requires detached == w.slots[Idx(level, slot)]
    requires forall e | e !in detached :: Persists(Detach(w, level, slot), w', e)
    ensures forall x | x in w.pending :: x in w'.pending && x in w'.deadline && w'.deadline[x] == TIMEOUT_PENDING
  {
    var d0 := Detach(w, level, slot);
    forall x | x in w.pending
      ensures x in w'.pending && x in w'.deadline && w'.deadline[x] == TIMEOUT_PENDING
    {
      PendingApart(w, Idx(level, slot), x);
      assert Persists(d0, w', x);
    }
  }

  lemma PendingApart<E>(w: Wheel<E>, i: nat, e: E)
    requires WF(w) && i < NUM_SLOT_LISTS && e in w.pending
    ensures e !in w.slots[i]
  {
    if e in w.slots[i] {
      SlotsApart(w, i, e);
    }
  }

  /** The emptied slot only receives re-inserted entries of its own. */
  lemma SlotRefills<E>(w: Wheel<E>, level: nat, slot: nat, detached: seq<E>, w': Wheel<E>, now: U64)
    requires Shaped(w) && level < LEVELS && slot < SLOTS && Shaped(w')
    requires detached == w.slots[Idx(level, slot)]
    requires SlotsFrom(Detach(w, level, slot), detached, w', now)
    ensures forall x | x in w'.slots[Idx(level, slot)] :: x in detached && now < w.deadline[x]
  {
    var k := Idx(level, slot);
    var d0 := Detach(w, level, slot);
    forall x | x in w'.slots[k]
      ensures x in detached && now < w.deadline[x]
    {
      assert x !in d0.slots[k];
      assert Rehomed(d0, detached, x, k, now);
    }
  }


  // ---------------------------------------------------------------------
  // Insert, remove and pop at the top level
  // ---------------------------------------------------------------------

  /**
   * time_insert_timeout on a well-formed wheel: the wheel stays well formed,
   * and the entry is in it afterwards exactly when its deadline is after
   * elapsed; otherwise it fires and the slots are untouched.
   */
  lemma InsertKeepsWF<E>(w: Wheel<E>, e: E, d: U64)
    requires WF(w) && e !in w.deadline && d < TIMEOUT_PENDING
    ensures WF(Insert(w, e, d))
    ensures Contents(Insert(w, e, d)) == if w.elapsed >= d then Contents(w) else Contents(w) + multiset{e}
    ensures w.elapsed >= d ==> Insert(w, e, d).slots == w.slots && Insert(w, e, d).bitmap == w.bitmap
  {
    var w1 := w.(deadline := w.deadline[e := d]);
    AdmitHolds(w, e, d);
    InsertHolds(w1, multiset{}, e);
    InsertSameKey(w, e, d);
  }

  /** An entry about to be inserted can be regarded as held out of the wheel with its deadline recorded. */
  lemma AdmitHolds<E>(w: Wheel<E>, e: E, d: U64)
    requires WF(w) && e !in w.deadline && d < TIMEOUT_PENDING
    ensures Holds(w.(deadline := w.deadline[e := d]), multiset{} + multiset{e})
  {
    var w1 := w.(deadline := w.deadline[e := d]);
    AdmitCounted(w, e, d);
    forall l: nat, s: nat, x | l < LEVELS && s < SLOTS && x in w1.slots[Idx(l, s)]
      ensures x in w1.deadline && w1.deadline[x] < TIMEOUT_PENDING && SlotFor(l, w1.deadline[x]) == s
    {
      assert x in w.slots[Idx(l, s)];
    }
  }

  lemma AdmitCounted<E>(w: Wheel<E>, e: E, d: U64)
    requires WF(w) && e !in w.deadline && d < TIMEOUT_PENDING
    ensures Counted(w.(deadline := w.deadline[e := d]), multiset{} + multiset{e})
  {
    var w1 := w.(deadline := w.deadline[e := d]);
    assert e !in Contents(w);
    assert Contents(w) + multiset{} == Contents(w);
    assert Contents(w1) == Contents(w);
    assert multiset{} + multiset{e} == multiset{e};
    forall x | x in Contents(w1) + multiset{e} ensures (Contents(w1) + multiset{e})[x] == 1 {
      if x != e {
        assert x in Contents(w);
      }
    }
  }

  /** Insert overwrites the entry's deadline, so a deadline recorded beforehand makes no difference. */
  lemma InsertSameKey<E>(w: Wheel<E>, e: E, d: U64)
    requires Shaped(w) && e !in w.deadline
    ensures Insert(w.(deadline := w.deadline[e := d]), e, d) == Insert(w, e, d)
  {
    if w.elapsed >= d {
      assert w.deadline[e := d] - {e} == w.deadline - {e};
    } else {
      assert w.deadline[e := d][e := d] == w.deadline[e := d];
    }
  }

  /**
   * time_next_pending_task: nothing on an empty pending list; otherwise the
   * head of the pending list, which leaves the wheel (its deadline becomes
   * TIMEOUT_FIRED), and the wheel stays well formed.
   */
  lemma NextPendingSpec<E>(w: Wheel<E>)
    requires WF(w)
    ensures NextPending(w).1.None? <==> w.pending == []
    ensures NextPending(w).1.Some? ==>
      var e := NextPending(w).1.value;
      var w' := NextPending(w).0;
      && e == w.pending[0] && WF(w')
      && Contents(w') + multiset{e} == Contents(w)
      && e !in w'.deadline
  {
    if w.pending != [] {
      var e := w.pending[0];
      var w' := NextPending(w).0;
      assert w.pending == [e] + w'.pending;
      assert multiset(w.pending) == multiset{e} + multiset(w'.pending);
      Regroup(multiset(Flatten(w.slots)), multiset(w'.pending), multiset{}, e);
      CountedLeave(w, w', e);
      LeavePlaced(w, w', e);
      assert BitsAgree(w') by { assert w'.slots == w.slots && w'.bitmap == w.bitmap; }
    }
  }

  /** Counted survives an entry leaving the wheel together with its deadline. */
  lemma CountedLeave<E>(w: Wheel<E>, w': Wheel<E>, e: E)
    requires Counted(w, multiset{})
    requires Contents(w') + multiset{e} == Contents(w)
    requires w'.deadline == w.deadline - {e}
    ensures Counted(w', multiset{}) && e !in Contents(w')
  {
    assert Contents(w) + multiset{} == Contents(w);
    assert Contents(w') + multiset{} == Contents(w');
    NoDupPart(Contents(w'), multiset{e});
    assert e in Contents(w);
  }

  /** Placed and Tagged survive an entry leaving, when every remaining list entry was in the same list before. */
  lemma LeavePlaced<E>(w: Wheel<E>, w': Wheel<E>, e: E)
    requires Shaped(w) && Shaped(w') && Placed(w) && Tagged(w)
    requires w'.deadline == w.deadline - {e} && e !in Contents(w')
    requires forall i, x | 0 <= i < NUM_SLOT_LISTS && x in w'.slots[i] :: x in w.slots[i]
    requires forall x | x in w'.pending :: x in w.pending
    ensures Placed(w') && Tagged(w')
  {
    forall l: nat, s: nat, x | l < LEVELS && s < SLOTS && x in w'.slots[Idx(l, s)]
      ensures x in w'.deadline && w'.deadline[x] < TIMEOUT_PENDING && SlotFor(l, w'.deadline[x]) == s
    {
      SlotMember(w', Idx(l, s), x);
      assert x in w.slots[Idx(l, s)];
    }
    forall x | x in w'.pending ensures x in w'.deadline && w'.deadline[x] == TIMEOUT_PENDING {
      assert x in multiset(w'.pending);
    }
  }

  lemma {:induction false} FlattenMember<E>(ss: seq<seq<E>>, x: E) returns (i: nat)
    requires x in Flatten(ss)
    ensures i < |ss| && x in ss[i]
  {
    if x in ss[0] {
      i := 0;
    } else {
      var j := FlattenMember(ss[1..], x);
      i := j + 1;
    }
  }

  /**
   * time_remove_timeout on a well-formed wheel: the entry leaves the wheel,
   * nothing else does, and the wheel stays well formed (in particular a slot
   * bit is cleared when its list empties).
   */
  lemma RemoveSpec<E>(w: Wheel<E>, e: E)
    requires WF(w)
    ensures WF(Remove(w, e))
    ensures Contents(Remove(w, e)) == Contents(w) - multiset{e}
    ensures e !in Remove(w, e).deadline
  {
    assert Contents(w) + multiset{} == Contents(w);
    if e !in w.deadline {
      assert e !in Contents(w);
      assert Contents(w) - multiset{e} == Contents(w);
    } else if w.deadline[e] == TIMEOUT_PENDING {
      RemovePending(w, e);
    } else {
      var d := w.deadline[e];
      assert e in Contents(w);
      assert e !in w.pending;
      var i := FlattenMember(w.slots, e);
      var l, s := i / SLOTS, i % SLOTS;
      assert Idx(l, s) == i;
      var r := FindLevel(w, e, d, 0);
      assert r <= l;
      RemoveFromSlot(w, r, SlotFor(r, d), e);
    }
  }

  /** A held entry that is not pending is found in one of its six candidate slots. */
  lemma FindLevelHolds<E>(w: Wheel<E>, e: E)
    requires WF(w) && e in w.deadline && w.deadline[e] != TIMEOUT_PENDING
    ensures FindLevel(w, e, w.deadline[e], 0) < LEVELS
  {
    var d := w.deadline[e];
    assert Contents(w) + multiset{} == Contents(w);
    assert e in Contents(w);
    assert e !in w.pending;
    var i := FlattenMember(w.slots, e);
    var l, s := i / SLOTS, i % SLOTS;
    assert Idx(l, s) == i;
    assert FindLevel(w, e, d, 0) <= l;
  }

  lemma RemovePending<E>(w: Wheel<E>, e: E)
    requires WF(w) && e in w.deadline && w.deadline[e] == TIMEOUT_PENDING
    ensures WF(Remove(w, e))
    ensures Contents(Remove(w, e)) == Contents(w) - multiset{e}
    ensures e !in Remove(w, e).deadline
  {
    var w' := Remove(w, e);
    PendingMember(w, e);
    PendingContents(w, e);
    CountedLeave(w, w', e);
    WithoutSubset(w.pending, e);
    LeavePlaced(w, w', e);
    assert BitsAgree(w') by { assert w'.slots == w.slots && w'.bitmap == w.bitmap; }
  }

  lemma PendingContents<E>(w: Wheel<E>, e: E)
    requires e in w.pending
    ensures Contents(w.(pending := Without(w.pending, e), deadline := w.deadline - {e})) + multiset{e} == Contents(w)
  {
    assert multiset(w.pending) == multiset(Without(w.pending, e)) + multiset{e};
  }

  lemma WithoutSubset<E>(s: seq<E>, e: E)
    ensures forall x | x in Without(s, e) :: x in s
  {
    forall x | x in Without(s, e) ensures x in s {
      assert x in multiset(Without(s, e));
    }
  }

  /** An entry tagged TIMEOUT_PENDING in a well-formed wheel is on the pending list. */
  lemma PendingMember<E>(w: Wheel<E>, e: E)
    requires WF(w) && e in w.deadline && w.deadline[e] == TIMEOUT_PENDING
    ensures e in w.pending
  {
    assert Contents(w) + multiset{} == Contents(w);
    assert e in Contents(w);
    FlattenDeadline(w, e);
  }

  /** An entry in a slot list of a well-formed wheel has a real deadline. */
  lemma FlattenDeadline<E>(w: Wheel<E>, e: E)
    requires WF(w)
    ensures e in Flatten(w.slots) ==> e in w.deadline && w.deadline[e] < TIMEOUT_PENDING
  {
    if e in Flatten(w.slots) {
      var i := FlattenMember(w.slots, e);
      assert Idx(i / SLOTS, i % SLOTS) == i;
    }
  }

  /** Unlinking an entry from the slot that holds it removes it and keeps the invariant. */
  lemma RemoveFromSlot<E>(w: Wheel<E>, l: nat, s: nat, e: E)
    requires WF(w) && l < LEVELS && s < SLOTS && e in w.slots[Idx(l, s)]
    ensures WF(Unlink(w, l, s, e))
    ensures Contents(Unlink(w, l, s, e)) == Contents(w) - multiset{e}
    ensures e !in Unlink(w, l, s, e).deadline
  {
    var i := Idx(l, s);
    var w' := Unlink(w, l, s, e);
    UnlinkContents(w, l, s, e);
    CountedLeave(w, w', e);
    UnlinkBits(w, l, s, e);
    UnlinkSubset(w, l, s, e);
    LeavePlaced(w, w', e);
  }

  lemma UnlinkSubset<E>(w: Wheel<E>, l: nat, s: nat, e: E)
    requires Shaped(w) && l < LEVELS && s < SLOTS
    ensures forall j, x | 0 <= j < NUM_SLOT_LISTS && x in Unlink(w, l, s, e).slots[j] :: x in w.slots[j]
  {
    var i := Idx(l, s);
    var w' := Unlink(w, l, s, e);
    forall j, x | 0 <= j < NUM_SLOT_LISTS && x in w'.slots[j] ensures x in w.slots[j] {
      if j == i {
        assert x in multiset(w.slots[i]) - multiset{e};
      }
    }
  }

  lemma UnlinkContents<E>(w: Wheel<E>, l: nat, s: nat, e: E)
    requires Shaped(w) && l < LEVELS && s < SLOTS && e in w.slots[Idx(l, s)]
    ensures Contents(Unlink(w, l, s, e)) + multiset{e} == Contents(w)
  {
    var i := Idx(l, s);
    var w' := Unlink(w, l, s, e);
    var rest := Without(w.slots[i], e);
    FlattenUpdate(w.slots, i, rest);
    assert multiset(w.slots[i]) == multiset(rest) + multiset{e};
    Cancel(multiset(Flatten(w'.slots)) + multiset{e}, multiset(Flatten(w.slots)), multiset(rest));
  }

  lemma UnlinkBits<E>(w: Wheel<E>, l: nat, s: nat, e: E)
    requires WF(w) && l < LEVELS && s < SLOTS && e in w.slots[Idx(l, s)]
    ensures BitsAgree(Unlink(w, l, s, e))
  {
    var w' := Unlink(w, l, s, e);
    forall l': nat, s': nat | l' < LEVELS && s' < SLOTS
      ensures Bit(w'.bitmap[l'], s') <==> w'.slots[Idx(l', s')] != []
    {
      if l' != l || s' != s {
        assert Idx(l', s') != Idx(l, s);
      }
    }
  }
}

=== FILE: wheel_scan.dfy ===
/**
 * The slot scan of time_process_at (src/time.c:228-247): which slots of one
 * level a call visits.
 *
 * With the cursor moved past each visited slot (`advance` = 1), the scan
 * visits only occupied slots, and it reaches every occupied slot unless an
 * earlier one (going round from the slot of `elapsed`) starts after `now`.
 * As written (`advance` = 0) the cursor lags the shifted bitmap by one slot
 * per visit, so the second and later visits land on the wrong slots.
 */
module WheelScan {
  import opened Bits
  import opened WheelMath
  import opened WheelModel

  /** A set bit of a word lies below bit 64. */
  lemma BitBelow64(x: U64, k: nat)
    requires Bit(x, k)
    ensures k < 64
  {
    Pow2Word();
    if k >= 64 {
      NoHighBits(x, 64, k);
    }
  }

  /** After a visit at offset o + tz, the adjusted bitmap is the rotated one shifted past that offset. */
  lemma ScanNextShift(rot: U64, o: nat, tz: nat)
    requires ShiftRight(rot, o) != 0 && tz == Ctz(ShiftRight(rot, o)) && o + tz < 64
    ensures ScanNext(ShiftRight(rot, o)) == ShiftRight(rot, o + tz + 1)
  {
    var adj := ShiftRight(rot, o);
    if tz < 63 {
      ShiftRightCompose(rot, o, tz + 1);
    } else {
      Pow2Word();
      ShiftRightBound(rot, 0, 64);
    }
  }

  /** The visit that starts at offset o of the rotated bitmap: it lands on the first set bit at or after o. */
  lemma ScanHead(bitmap: U64, base: nat, o: nat) returns (tz: nat)
    requires base < SLOTS && ShiftRight(RotateR64(bitmap, base), o) != 0
    ensures tz == Ctz(ShiftRight(RotateR64(bitmap, base), o)) && o + tz < 64
    ensures Bit(RotateR64(bitmap, base), o + tz)
    ensures forall i: nat :: o <= i < o + tz ==> !Bit(RotateR64(bitmap, base), i)
    ensures Bit(bitmap, (base + o + tz) % SLOTS)
  {
    var rot := RotateR64(bitmap, base);
    var adj := ShiftRight(rot, o);
    tz := Ctz(adj);
    CtzSpec(adj);
    BitOfShift(rot, o, tz);
    BitBelow64(rot, tz + o);
    RotateBit(bitmap, base, tz + o);
    forall i: nat | o <= i < o + tz
      ensures !Bit(rot, i)
    {
      BitOfShift(rot, o, i - o);
    }
  }

  /** One round of the corrected scan from offset o of the rotated bitmap. */
  lemma ScanStep(bitmap: U64, base: nat, o: nat, levelStart: nat, level: nat, now: U64) returns (tz: nat)
    requires base < SLOTS && ShiftRight(RotateR64(bitmap, base), o) != 0
    ensures o + tz < 64 && Bit(RotateR64(bitmap, base), o + tz) && Bit(bitmap, (base + o + tz) % SLOTS)
    ensures forall i: nat :: o <= i < o + tz ==> !Bit(RotateR64(bitmap, base), i)
    ensures SlotStart(levelStart, level, (base + o + tz) % SLOTS) > now ==>
      ScanSlots(ShiftRight(RotateR64(bitmap, base), o), base + o, levelStart, level, now, 1) == []
    ensures SlotStart(levelStart, level, (base + o + tz) % SLOTS) <= now ==>
      ScanSlots(ShiftRight(RotateR64(bitmap, base), o), base + o, levelStart, level, now, 1) ==
      [(base + o + tz) % SLOTS] + ScanSlots(ShiftRight(RotateR64(bitmap, base), o + tz + 1), base + (o + tz + 1), levelStart, level, now, 1)
  {
    var rot := RotateR64(bitmap, base);
    tz := ScanHead(bitmap, base, o);
    ScanNextShift(rot, o, tz);
  }

  /** Every slot in r is occupied in the bitmap. */
  predicate AllOccupied(bitmap: U64, r: seq<nat>)
  {
    forall k :: 0 <= k < |r| ==> Bit(bitmap, r[k])
  }

  lemma AllOccupiedCons(bitmap: U64, h: nat, t: seq<nat>)
    requires Bit(bitmap, h) && AllOccupied(bitmap, t)
    ensures AllOccupied(bitmap, [h] + t)
  {
  }

  /** Soundness of the corrected scan from offset o: every visited slot is occupied. */
  lemma {:induction false} ScanFromSound(bitmap: U64, base: nat, o: nat, levelStart: nat, level: nat, now: U64)
    requires base < SLOTS && o <= 64
    ensures AllOccupied(bitmap, ScanSlots(ShiftRight(RotateR64(bitmap, base), o), base + o, levelStart, level, now, 1))
    decreases 64 - o
  {
    if ShiftRight(RotateR64(bitmap, base), o) != 0 {
      var tz := ScanStep(bitmap, base, o, levelStart, level, now);
      if SlotStart(levelStart, level, (base + o + tz) % SLOTS) <= now {
        ScanFromSound(bitmap, base, o + tz + 1, levelStart, level, now);
        AllOccupiedCons(bitmap, (base + o + tz) % SLOTS,
          ScanSlots(ShiftRight(RotateR64(bitmap, base), o + tz + 1), base + (o + tz + 1), levelStart, level, now, 1));
      }
    } else {
      assert ScanSlots(ShiftRight(RotateR64(bitmap, base), o), base + o, levelStart, level, now, 1) == [];
    }
  }

  /**
   * Completeness of the corrected scan from offset o: the slot at offset j is
   * visited if it is occupied and no occupied slot between o and j starts
   * after `now`.
   */
  lemma {:induction false} ScanFromReaches(bitmap: U64, base: nat, o: nat, levelStart: nat, level: nat, now: U64, j: nat)
    requires base < SLOTS && o <= j < 64
    requires Bit(RotateR64(bitmap, base), j)
    requires forall i: nat :: o <= i <= j && Bit(RotateR64(bitmap, base), i) ==>
      SlotStart(levelStart, level, (base + i) % SLOTS) <= now
    ensures (base + j) % SLOTS in ScanSlots(ShiftRight(RotateR64(bitmap, base), o), base + o, levelStart, level, now, 1)
    decreases 64 - o
  {
    var rot := RotateR64(bitmap, base);
    BitOfShift(rot, o, j - o);
    ZeroHasNoBits(j - o);
    var tz := ScanStep(bitmap, base, o, levelStart, level, now);
    assert o + tz <= j;
    if o + tz < j {
      ScanFromReaches(bitmap, base, o + tz + 1, levelStart, level, now, j);
    }
  }

  /** The corrected scan of a level visits only occupied slots. */
  lemma ScanSound(bitmap: U64, base: nat, levelStart: nat, level: nat, now: U64)
    requires base < SLOTS
    ensures var r := ScanSlots(RotateR64(bitmap, base), base, levelStart, level, now, 1);
      forall k :: 0 <= k < |r| ==> r[k] < SLOTS && Bit(bitmap, r[k])
  {
    ScanFromSound(bitmap, base, 0, levelStart, level, now);
    assert ShiftRight(RotateR64(bitmap, base), 0) == RotateR64(bitmap, base);
  }

  /**
   * The corrected scan of a level visits an occupied slot s unless some
   * occupied slot at or before s, going round from `base`, starts after `now`.
   */
  lemma ScanComplete(bitmap: U64, base: nat, levelStart: nat, level: nat, now: U64, s: nat)
    requires base < SLOTS && s < SLOTS && Bit(bitmap, s)
    requires forall i: nat :: i <= (s - base) % SLOTS && Bit(bitmap, Cyclic(base, i)) ==>
      SlotStart(levelStart, level, Cyclic(base, i)) <= now
    ensures s in ScanSlots(RotateR64(bitmap, base), base, levelStart, level, now, 1)
  {
    var rot := RotateR64(bitmap, base);
    var j := (s - base) % SLOTS;
    CyclicBack(base, s);
    RotateBit(bitmap, base, j);
    forall i: nat | 0 <= i <= j && Bit(rot, i)
      ensures SlotStart(levelStart, level, (base + i) % SLOTS) <= now
    {
      RotateBit(bitmap, base, i);
      assert Bit(bitmap, Cyclic(base, i));
    }
    ScanFromReaches(bitmap, base, 0, levelStart, level, now, j);
    assert ShiftRight(rot, 0) == rot;
  }

  /**
   * The cursor finding, on the occupancy of test_slot_next_occupied (slots 5,
   * 10 and 20 of level 0), at elapsed 0 with now = 20: the scan as written
   * visits slots 5, 9 and 18, two of them empty, and misses slots 10 and 20,
   * whose start times have passed; the corrected scan visits 5, 10 and 20.
   */
  lemma ScanCursorAsWritten<E>(w: Wheel<E>)
    requires Shaped(w) && w.elapsed == 0
    requires forall k: nat :: Bit(w.bitmap[0], k) <==> k == 5 || k == 10 || k == 20
    ensures LevelVisits(w, 0, 20, 0) == [5, 9, 18]
    ensures LevelVisits(w, 0, 20, 1) == [5, 10, 20]
    ensures !Bit(w.bitmap[0], 9) && !Bit(w.bitmap[0], 18)
  {
    LevelZeroVisits(w, 0);
    LevelZeroVisits(w, 1);
    PinWords(w.bitmap[0], 0);
    PinWords(w.bitmap[0], 1);
  }

  lemma LevelZeroVisits<E>(w: Wheel<E>, advance: nat)
    requires Shaped(w) && w.elapsed == 0
    ensures LevelVisits(w, 0, 20, advance) == ScanSlots(w.bitmap[0], 0, 0, 0, 20, advance)
  {
    LevelZeroAtZero();
    RotateZero(w.bitmap[0]);
  }

  lemma PinWords(x: U64, advance: nat)
    requires advance <= 1
    requires forall k: nat :: Bit(x, k) <==> k == 5 || k == 10 || k == 20
    ensures ScanSlots(x, 0, 0, 0, 20, advance) == [5, 10 - (1 - advance), 20 - 2 * (1 - advance)]
  {
    Visit(x, {5, 10, 20}, 5);
    var y := ScanNext(x);
    Visit(y, {4, 14}, 4);
    var z := ScanNext(y);
    Visit(z, {9}, 9);
    NoBitsZero(ScanNext(z));
    PinScan(x, y, z, advance);
  }

  /** A visit at the lowest set bit tz of a word whose set bits are `bits`. */
  lemma Visit(x: U64, bits: set<nat>, tz: nat)
    requires forall k: nat :: Bit(x, k) <==> k in bits
    requires tz in bits && tz < 63 && forall k | k in bits :: tz <= k
    ensures x != 0 && Ctz(x) == tz
    ensures forall k: nat :: Bit(ScanNext(x), k) <==> k + tz + 1 in bits
  {
    ZeroHasNoBits(tz);
    CtzUnique(x, tz);
    forall k: nat ensures Bit(ScanNext(x), k) <==> k + tz + 1 in bits {
      BitOfShift(x, tz + 1, k);
    }
  }

  lemma NoBitsZero(x: U64)
    requires forall k: nat :: !Bit(x, k)
    ensures x == 0
  {
    Pow2Word();
    ZeroIffNoBits(x, 64);
  }

  /** The scan of level 0 from elapsed 0 over three occupied slots, given the words it passes through. */
  lemma PinScan(x0: U64, x1: U64, x2: U64, advance: nat)
    requires advance <= 1
    requires x0 != 0 && Ctz(x0) == 5 && ScanNext(x0) == x1
    requires x1 != 0 && Ctz(x1) == 4 && ScanNext(x1) == x2
    requires x2 != 0 && Ctz(x2) == 9 && ScanNext(x2) == 0
    ensures ScanSlots(x0, 0, 0, 0, 20, advance) == [5, 10 - (1 - advance), 20 - 2 * (1 - advance)]
  {
    var rest := ScanMid(x1, x2, 5 + advance, advance);
    SlotStartLevelZero(5);
    ScanUnfold(x0, 0, 0, 0, 20, advance);
  }

  /** The middle round of the pinned scan: a visit at cursor + 4, then the last round. */
  lemma ScanMid(x1: U64, x2: U64, cursor: nat, advance: nat) returns (r: seq<nat>)
    requires advance <= 1 && cursor + 13 + advance <= 20
    requires x1 != 0 && Ctz(x1) == 4 && ScanNext(x1) == x2
    requires x2 != 0 && Ctz(x2) == 9 && ScanNext(x2) == 0
    ensures r == [cursor + 4, cursor + 13 + advance] && ScanSlots(x1, cursor, 0, 0, 20, advance) == r
  {
    var c1 := cursor + 4;
    var c2 := ScanLast(x2, c1 + advance, advance);
    SlotStartLevelZero(c1);
    ScanUnfold(x1, cursor, 0, 0, 20, advance);
    r := [c1, c2];
  }

  /** The last round of the pinned scan: one visit at cursor + 9, then nothing left. */
  lemma ScanLast(x2: U64, cursor: nat, advance: nat) returns (s: nat)
    requires cursor + 9 <= 20
    requires x2 != 0 && Ctz(x2) == 9 && ScanNext(x2) == 0
    ensures s == cursor + 9 && ScanSlots(x2, cursor, 0, 0, 20, advance) == [s]
  {
    s := cursor + 9;
    SlotStartLevelZero(s);
    ScanUnfold(x2, cursor, 0, 0, 20, advance);
    assert ScanSlots(0, s + advance, 0, 0, 20, advance) == [];
  }

  /** Level 0 at elapsed 0: the slot of now is 0 and the level starts at 0. */
  lemma LevelZeroAtZero()
    ensures SlotFor(0, 0) == 0 && LevelStart(0, 0) == 0
  {
    LowBitsZero(6);
  }

  lemma {:induction false} LowBitsZero(n: nat)
    ensures LowBits(0, n) == 0
  {
    if n > 0 {
      LowBitsZero(n - 1);
    }
  }

  /** A level-0 slot k of a rotation starting at 0 starts at k. */
  lemma SlotStartLevelZero(k: nat)
    requires k < 64
    ensures SlotStart(0, 0, k) == k
  {
    assert SlotResolution(0) == 1;
  }

  lemma RotateZero(x: U64)
    ensures RotateR64(x, 0) == x
  {
    assert LowBits(x, 0) == 0;
    assert ShiftLeft(0, 64) == 0 by { ShiftLeftMul(0, 64); }
  }

  /** One round of the scan as the function is written: the slot after the trailing zeros, if it has started. */
  lemma ScanUnfold(adjusted: U64, cursor: nat, levelStart: nat, level: nat, now: U64, advance: nat)
    requires adjusted != 0
    ensures var c := cursor + Ctz(adjusted);
      ScanSlots(adjusted, cursor, levelStart, level, now, advance) ==
      if SlotStart(levelStart, level, c % SLOTS) > now then []
      else [c % SLOTS] + ScanSlots(ScanNext(adjusted), c + advance, levelStart, level, now, advance)
  {
  }
}

=== FILE: wheel_scenarios.dfy ===
/**
 * Whole-wheel scenarios: time_process_at when no slot is due, and the
 * relocation performed by time_remove_timeout (src/time.c:187-207,
 * src/time_driver.c:89-102) once elapsed has moved.
 */
module WheelScenarios {
  import opened Bits
  import opened WheelMath
  import opened WheelModel
  import opened WheelScan
  import opened WheelExpiry

  /** time_driver(): the zeroed driver satisfies the wheel invariant. */
  lemma EmptyWF<E>()
    ensures WF(EmptyWheel<E>())
  {
    var w := EmptyWheel<E>();
    forall l: nat, s: nat | l < LEVELS && s < SLOTS
      ensures Bit(w.bitmap[l], s) <==> w.slots[Idx(l, s)] != []
    {
      ZeroHasNoBits(s);
    }
  }

  /** Rotating the empty bitmap leaves it empty. */
  lemma RotateOfZero(n: nat)
    requires n < 64
    ensures RotateR64(0, n) == 0
  {
    ZeroHasNoBits(n);
    LowBitsZero(n);
    ShiftLeftMul(0, 64 - n);
  }

  /** A level whose bitmap is zero is not visited. */
  lemma EmptyLevelVisits<E>(w: Wheel<E>, level: nat, now: U64, advance: nat)
    requires Shaped(w) && level < LEVELS && w.bitmap[level] == 0
    ensures LevelVisits(w, level, now, advance) == []
  {
    RotateOfZero(SlotFor(level, w.elapsed));
  }

  /** Levels from `level` on that visit no slot are left as they are. */
  lemma {:induction false} QuietLevels<E>(w: Wheel<E>, level: nat, now: U64, advance: nat, mode: Expiry)
    requires WF(w) && level <= LEVELS
    requires forall k :: level <= k < LEVELS ==> LevelVisits(w, k, now, advance) == []
    ensures ProcessLevels(w, level, now, advance, mode) == w
    decreases LEVELS - level
  {
    if level < LEVELS {
      assert ProcessLevel(w, level, now, advance, mode) == w;
      QuietLevels(w, level + 1, now, advance, mode);
    }
  }

  /**
   * time_process_at when no level has a slot that has started by `now`:
   * only elapsed changes.
   */
  lemma QuietProcessAt<E>(w: Wheel<E>, now: U64, advance: nat, mode: Expiry)
    requires WF(w)
    requires forall k :: 0 <= k < LEVELS ==> LevelVisits(w, k, now, advance) == []
    ensures ProcessAtWith(w, now, advance, mode) == w.(elapsed := now)
  {
    QuietLevels(w, 0, now, advance, mode);
  }

  /** At elapsed 0, a level whose only occupied slot starts after `now` is not visited. */
  lemma LateSlotVisits<E>(w: Wheel<E>, l: nat, s: nat, now: U64, advance: nat)
    requires Shaped(w) && w.elapsed == 0 && l < LEVELS && s < SLOTS
    requires forall j: nat :: Bit(w.bitmap[l], j) <==> j == s || Bit(0, j)
    requires now < s * SlotResolution(l)
    ensures LevelVisits(w, l, now, advance) == []
  {
    var bm := w.bitmap[l];
    OnlyBit(bm, s);
    LevelVisitsAtZero(w, l, now, advance);
    SlotStartOf(l, s);
    ScanLate(bm, l, s, now, advance);
  }

  /** At elapsed 0 a level's scan starts at slot 0 of a rotation starting at 0, on the bitmap itself. */
  lemma LevelVisitsAtZero<E>(w: Wheel<E>, l: nat, now: U64, advance: nat)
    requires Shaped(w) && w.elapsed == 0 && l < LEVELS
    ensures LevelVisits(w, l, now, advance) == ScanSlots(w.bitmap[l], 0, 0, l, now, advance)
  {
    assert SlotFor(l, 0) == 0 by { ZeroHasNoBits(6 * l); }
    RotateZero(w.bitmap[l]);
    LevelStartZero(l);
  }

  /** The scan stops at once when the first occupied slot has not started. */
  lemma ScanLate(bm: U64, l: nat, s: nat, now: U64, advance: nat)
    requires bm != 0 && Ctz(bm) == s && s < SLOTS && now < SlotStart(0, l, s)
    ensures ScanSlots(bm, 0, 0, l, now, advance) == []
  {
    assert (0 + s) % SLOTS == s;
  }

  /**
   * One entry pushed on slot (l, s) of a fresh driver stays where it is when
   * the driver is advanced to a time before that slot starts.
   */
  lemma PushEmptyQuiet<E>(e: E, l: nat, s: nat, d: U64, now: U64, mode: Expiry)
    requires l < LEVELS && s < SLOTS && now < s * SlotResolution(l)
    requires WF(Push(EmptyWheel<E>(), l, s, e, d))
    ensures ProcessAt(Push(EmptyWheel<E>(), l, s, e, d), now, mode) == Push(EmptyWheel<E>(), l, s, e, d).(elapsed := now)
  {
    var w := Push(EmptyWheel<E>(), l, s, e, d);
    forall k | 0 <= k < LEVELS
      ensures LevelVisits(w, k, now, 1) == []
    {
      if k == l {
        LateSlotVisits(w, l, s, now, 1);
      } else {
        EmptyLevelVisits(w, k, now, 1);
      }
    }
    QuietProcessAt(w, now, 1, mode);
  }

  lemma HomeOf4100()
    ensures Home(0, 4100) == (2, 1)
  {
    Pow2Values();
    LevelForExact(4100, 2);
    assert ShiftRight(4100, 12) == 1;
  }

  /** At elapsed 100 the remaining timeout of deadline 4100 is 4000, a level-1 timeout; bits 6..11 of 4100 are 0. */
  lemma RelocatedSlot()
    ensures RemoveSlotAsWritten(100, 4100) == (1, 0)
  {
    Pow2Values();
    LevelForExact(4000, 1);
    assert ShiftRight(4100, 6) == 64;
  }

  /**
   * time_remove_timeout as written, after time has moved: an entry with
   * deadline 4100 inserted at elapsed 0 sits alone in slot (2, 1) and is not
   * touched by time_process_at(100). At elapsed 100 the removal recomputes
   * the level from the remaining timeout 4000 and goes to slot (1, 0),
   * which is empty: the entry's own slot is never unlinked (the list code
   * trips its assertion, or the freed entry stays linked in slot (2, 1)).
   */
  lemma RemoveRelocationAsWritten<E>(e: E, mode: Expiry)
    ensures WF(Insert(EmptyWheel<E>(), e, 4100))
    ensures var w := ProcessAt(Insert(EmptyWheel<E>(), e, 4100), 100, mode);
      && w.elapsed == 100
      && w.slots[Idx(2, 1)] == [e] && e in w.deadline && w.deadline[e] == 4100
      && RemoveSlotAsWritten(w.elapsed, w.deadline[e]) == (1, 0)
      && w.slots[Idx(1, 0)] == []
  {
    HomeOf4100();
    InsertIntoEmpty(e, 4100, 2, 1);
    Pow2Values();
    PushEmptyQuiet(e, 2, 1, 4100, 100, mode);
    RelocatedSlot();
  }

  /** time_insert_timeout on a fresh driver: the entry is alone in its Home slot and every other slot is empty. */
  lemma InsertIntoEmpty<E>(e: E, d: U64, l: nat, s: nat)
    requires 0 < d < TIMEOUT_PENDING && Home(0, d) == (l, s)
    ensures Insert(EmptyWheel<E>(), e, d) == Push(EmptyWheel<E>(), l, s, e, d)
    ensures WF(Insert(EmptyWheel<E>(), e, d))
    ensures var w := Insert(EmptyWheel<E>(), e, d);
      && w.slots[Idx(l, s)] == [e] && w.deadline == map[e := d]
      && forall i :: 0 <= i < NUM_SLOT_LISTS && i != Idx(l, s) ==> w.slots[i] == []
  {
    InsertEmptyWF(e, d);
    PushEmptySlots(e, d, l, s);
  }

  lemma InsertEmptyWF<E>(e: E, d: U64)
    requires d < TIMEOUT_PENDING
    ensures WF(Insert(EmptyWheel<E>(), e, d))
  {
    EmptyWF<E>();
    InsertKeepsWF(EmptyWheel<E>(), e, d);
  }

  lemma PushEmptySlots<E>(e: E, d: U64, l: nat, s: nat)
    requires l < LEVELS && s < SLOTS
    ensures var w := Push(EmptyWheel<E>(), l, s, e, d);
      && w.slots[Idx(l, s)] == [e] && w.deadline == map[e := d]
      && forall i :: 0 <= i < NUM_SLOT_LISTS && i != Idx(l, s) ==> w.slots[i] == []
  {
  }

  /**
   * One iteration of the pop loop of slot_process_expiration as written: the
   * head of slot (level, slot) is popped and disposed of while the rest of
   * the slot, and its bit, stay in place.
   */
  function DrainStepAsWritten<E>(w: Wheel<E>, level: nat, slot: nat, now: U64, mode: Expiry): (w': Wheel<E>)
    requires Shaped(w) && level < LEVELS && slot < SLOTS
    requires w.slots[Idx(level, slot)] != [] && w.slots[Idx(level, slot)][0] in w.deadline
    ensures Shaped(w') && w'.elapsed == w.elapsed
  {
    var i := Idx(level, slot);
    DrainOne(w.(slots := w.slots[i := w.slots[i][1..]]), w.slots[i][0], now, mode)
  }

  /**
   * An entry at the head of its own Home slot that is not yet due is pushed
   * straight back where it was popped from: the step of the as-written pop
   * loop changes nothing, so the loop, which runs until the slot is empty,
   * never ends.
   */
  lemma SelfReinsert<E>(w: Wheel<E>, l: nat, s: nat, now: U64, mode: Expiry)
    requires Shaped(w) && l < LEVELS && s < SLOTS
    requires w.slots[Idx(l, s)] != [] && w.slots[Idx(l, s)][0] in w.deadline
    requires var d := w.deadline[w.slots[Idx(l, s)][0]];
      now < d && w.elapsed < d && Home(w.elapsed, d) == (l, s)
    requires Bit(w.bitmap[l], s)
    ensures DrainStepAsWritten(w, l, s, now, mode) == w
  {
    var i := Idx(l, s);
    var e := w.slots[i][0];
    assert [e] + w.slots[i][1..] == w.slots[i];
    assert w.slots[i := w.slots[i][1..]][i := w.slots[i]] == w.slots;
    assert w.bitmap[l := w.bitmap[l]] == w.bitmap;
  }

  /** Detaching a slot and pushing its only entry back onto it restores the wheel. */
  lemma DetachReinsert<E>(w: Wheel<E>, l: nat, s: nat, e: E, now: U64, mode: Expiry)
    requires WF(w) && l < LEVELS && s < SLOTS
    requires w.slots[Idx(l, s)] == [e]
    requires var d := w.deadline[e];
      now < d && w.elapsed < d && Home(w.elapsed, d) == (l, s)
    ensures ProcessSlot(w, l, s, now, mode) == w
  {
    var i := Idx(l, s);
    assert Bit(w.bitmap[l], s);
    ClearSetBit(w.bitmap[l], s);
    var w1 := Detach(w, l, s);
    assert Drain(w1, [e], now, mode) == DrainOne(w1, e, now, mode);
    assert [e] + w1.slots[i] == [e];
    assert w1.slots[i := [e]] == w.slots;
    assert w1.bitmap[l := w.bitmap[l]] == w.bitmap;
  }

  /** Setting a bit that was just cleared gives the word back. */
  lemma ClearSetBit(x: U64, s: nat)
    requires s < SLOTS && Bit(x, s)
    ensures SetSlotBit(ClearSlotBit(x, s), s) == x
  {
    ClearBitBits(x, s, s);
  }

  /** 2^36 + 5 is a level-5 timeout whose level-5 slot is 0. */
  lemma HomeOfFar()
    ensures Home(0, 0x10_0000_0005) == (5, 0)
  {
    Pow2Values();
    LevelForExact(0x10_0000_0005, 5);
    ShiftRightCompose(0x10_0000_0005, 6, 24);
    assert ShiftRight(0x10_0000_0005, 6) == 0x4000_0000;
    ShiftRightPow2(30, 24);
  }

  /**
   * A deadline of 2^36 + 5 inserted at elapsed 0 lands in slot (5, 0), which
   * starts at 0, so time_process_at(10) visits that slot first. Popping its
   * entry re-inserts it (the deadline is far ahead) into the very slot being
   * drained: the as-written loop is stuck, while the corrected slot
   * processing, which detaches the list first, disposes of the entry once
   * and leaves the wheel as it was.
   */
  lemma FarEntryDrain<E>(e: E, mode: Expiry)
    ensures var w := Insert(EmptyWheel<E>(), e, 0x10_0000_0005);
      && WF(w) && w.slots[Idx(5, 0)] == [e] && w.deadline == map[e := 0x10_0000_0005]
      && DrainStepAsWritten(w, 5, 0, 10, mode) == w
      && ProcessSlot(w, 5, 0, 10, mode) == w
  {
    var d: U64 := 0x10_0000_0005;
    HomeOfFar();
    InsertIntoEmpty(e, d, 5, 0);
    SelfDrain(Insert(EmptyWheel<E>(), e, d), 5, 0, e, 10, mode);
  }

  /** time_process_at(10) on that wheel reaches slot (5, 0) first. */
  lemma FarEntryVisited<E>(e: E, advance: nat)
    ensures LevelVisits(Insert(EmptyWheel<E>(), e, 0x10_0000_0005), 5, 10, advance) != []
    ensures LevelVisits(Insert(EmptyWheel<E>(), e, 0x10_0000_0005), 5, 10, advance)[0] == 0
  {
    var d: U64 := 0x10_0000_0005;
    HomeOfFar();
    InsertIntoEmpty(e, d, 5, 0);
    var w := Insert(EmptyWheel<E>(), e, d);
    assert Bit(w.bitmap[5], 0);
    FirstSlotVisited(w, 5, 10, advance);
  }

  /**
   * A wheel whose slot (l, s) holds only e, with e's Home slot being (l, s) and e not due by `now`: the as-written drain step and the
   * corrected slot processing both leave it as it is.
   */
  lemma SelfDrain<E>(w: Wheel<E>, l: nat, s: nat, e: E, now: U64, mode: Expiry)
    requires WF(w) && l < LEVELS && s < SLOTS
    requires w.slots[Idx(l, s)] == [e] && e in w.deadline
    requires now < w.deadline[e] && w.elapsed < w.deadline[e] && Home(w.elapsed, w.deadline[e]) == (l, s)
    ensures DrainStepAsWritten(w, l, s, now, mode) == w
    ensures ProcessSlot(w, l, s, now, mode) == w
  {
    assert Bit(w.bitmap[l], s);
    SelfReinsert(w, l, s, now, mode);
    DetachReinsert(w, l, s, e, now, mode);
  }

  /** At elapsed 0 an occupied slot 0, which starts at 0, is the first slot visited. */
  lemma FirstSlotVisited<E>(w: Wheel<E>, l: nat, now: U64, advance: nat)
    requires Shaped(w) && w.elapsed == 0 && l < LEVELS && Bit(w.bitmap[l], 0)
    ensures LevelVisits(w, l, now, advance) != [] && LevelVisits(w, l, now, advance)[0] == 0
  {
    var bm := w.bitmap[l];
    LevelVisitsAtZero(w, l, now, advance);
    assert bm != 0 by { ZeroHasNoBits(0); }
    CtzUnique(bm, 0);
    assert SlotStart(0, l, 0) == 0;
    ScanUnfold(bm, 0, 0, l, now, advance);
  }
}

=== FILE: yield.dfy ===
/**
 * Yield handles (src/yield.c): the first poll puts the current task on the
 * runtime's deferred list and returns PENDING, so that every other ready
 * task runs before it resumes; every later poll returns READY.
 */
module Yield {
  import opened Tasks
  import Runtime

  /**
   * One tachy_yield_poll on a handle that has or has not yielded yet:
   * whether it has yielded afterwards, what it returns, and whether the
   * current task was deferred.
   */
  function PollYield(yielded: bool): (r: (bool, Poll, bool))
    ensures r.0
    ensures r.1 == Pending <==> !yielded
    ensures r.2 <==> r.1 == Pending
  {
    if yielded then (true, Ready, false) else (true, Pending, true)
  }

  /** How many of `n` polls in a row, from a handle that has or has not yielded, defer the current task. */
  function Defers(yielded: bool, n: nat): nat
    decreases n
  {
    if n == 0 then 0
    else
      var (y, _, deferred) := PollYield(yielded);
      (if deferred then 1 else 0) + Defers(y, n - 1)
  }

  /** However often it is polled, a fresh handle defers its task exactly once (on the first poll), and a used one never. */
  lemma {:induction false} DefersOnce(yielded: bool, n: nat)
    ensures Defers(yielded, n) == (if !yielded && n > 0 then 1 else 0)
    decreases n
  {
    if n > 0 {
      DefersOnce(true, n - 1);
    }
  }

  class YieldHandle {
    var yielded: bool

    /** tachy_yield: a handle that has not yielded. */
    constructor ()
      ensures !yielded
    {
      yielded := false;
    }

    /**
     * tachy_yield_poll: state and result follow PollYield; the first poll
     * pushes the current task on the front of the deferred list and leaves
     * the ready list alone, later polls touch nothing.
     */
    method Poll(rt: Runtime.Runtime) returns (r: Poll)
      requires !yielded ==>
        rt.Valid() && rt.curTask != null && rt.curTask !in rt.deferred.Items && rt.curTask !in rt.ready.Items
      modifies this`yielded, rt.deferred, {rt.curTask}`next
      ensures (yielded, r) == (PollYield(old(yielded)).0, PollYield(old(yielded)).1)
      ensures PollYield(old(yielded)).2 ==>
        rt.Valid() && rt.deferred.Items == [rt.curTask] + old(rt.deferred.Items) && rt.ready.Items == old(rt.ready.Items)
      ensures !PollYield(old(yielded)).2 ==> rt.deferred.Items == old(rt.deferred.Items)
    {
      if yielded {
        return Ready;
      }
      yielded := true;
      var task := rt.CurTask();
      rt.Defer(task);
      r := Pending;
    }
  }
}
